=== FILE: README.md ===
# CacheForge context analyser and setup rules, modelled in Dafny

This project models two parts of the CacheForge skills.

The **context engineer** (`skills/context-engineer/context.py`) audits an agent's context files. For each file it:

- estimates tokens at about one per four characters;
- detects redundancy: duplicate lines, three-word phrases repeated three or more times, excessive blank lines, and overlong lines.

It then combines file size, redundancy and file count into an efficiency score with a letter grade, and sorts files into report categories. It recommends which files to compress and what else to fix. It saves a snapshot of an analysis and compares two snapshots.

It also audits tool definitions. It reads them from a configuration document in three layouts: a `tools` list, a `functions` list, and an `mcpServers` map. It reports pairs of tools whose names or descriptions look alike.

The **setup tool** (`skills/cacheforge-setup/setup.py`) connects an agent to CacheForge. The model covers the tool's pure rules:

- normalising the CacheForge base URL;
- detecting the upstream provider key from the environment;
- inferring and canonicalising the upstream kind, including the legacy `openai` alias;
- resolving the upstream base URL;
- choosing the default models offered to OpenClaw, and applying the `--model-id` / `--model-name` overrides;
- building the OpenClaw configuration snippet;
- resolving the upstream of a `provision` request, together with its two early failures: no key found, and an invalid kind.

## Modules

- **`Wrappers`**: `Option` and `Result`.
- **`Text`**: the parts of `str` and `re` the code uses. These are `strip`, `rstrip`, `lower`, `split` and `re.split`, plus Python's string `<`.
- **`Sorting`**: a stable sort under a strict order, and order-preserving filters.
- **`Arith`**: facts about division.
- **`Json`**: decoded JSON values and the `dict` operations the code applies to them.
- **`Tokens`**: the token estimate.
- **`Redundancy`**: `detect_redundancy`.
- **`Scoring`**: the efficiency score, the grade and the report categories.
- **`ToolSchema`**: the tool parser.
- **`Overlap`**: the overlap finder.
- **`Snapshots`**: the snapshot and the pure part of `compare`.
- **`Advice`**: `_generate_recommendations`.
- **`Upstream`**: the setup rules.

## Modelling choices

- **Scores are exact.** They are kept in tenths of a point. The score is `4*size + 3*redundancy + 3*count` and ranges from 0 to 1000. Ratio thresholds such as `total / budget < 0.3` are compared by cross-multiplication. `int(ratio * 100)` is modelled as exact division truncated toward zero.
- **The budget can be any non-zero integer.** The source only fails when the budget is zero (a division by zero), so that is the only case the model excludes.
- **Sorts are stable.** Python's stable `sorted(..., key=...)` is modelled as a sort under a strict total order: the key first, then the original position. This applies to three sorts:
  - phrase tallies: higher count first, then first occurrence;
  - recommended files: more tokens first, then position;
  - snapshot changes: more tokens saved first, then ascending name. Because `reverse=True` keeps ties in their original order, equal savings stay in ascending name order.
- **JSON objects keep document order.** An object is a sequence of members. A lookup returns the first member with the key.
- **Serialising is a parameter.** `json.dumps` is the `serialize` parameter.
- **Discovered models are a parameter.** The set of OpenRouter models found upstream is passed in.
- **The environment is a parameter.** The process environment is passed in as a map.
- **Issues and recommendations are structured values.** Their fields are what the source's sentences are built from.
- **The scan is modelled at two levels.** The duplicate-line scan and the overlap scan are modelled both as loops (`ScanDuplicateLines`, `FindOverlaps`) and as recursive definitions. Each loop is proved to compute its definition.

### Edge behaviours kept from the code

- **Phrase cap.** The repeated-phrase loop (context.py lines 229-233) checks the limit of ten issues *after* appending. So a document with ten or more duplicate lines still gets one phrase issue (`Redundancy.PhraseCap`).
- **Parameter schema.** The schema (context.py lines 334-335) is taken from the first of `parameters`, `input_schema` and `function.parameters` that is *present*, even when it is empty.
- **Definition list.** The same first-present rule (context.py line 310) chooses among `tools`, `functions` and `mcpServers`.

## Model

| member | source | states |
|---|---|---|
| Tokens.EstimateTokens | skills/context-engineer/context.py:54-59 | at least one token; from four characters on, exactly the length divided by four rounded down; one token below eight characters |
| Tokens.EstimateMonotone | skills/context-engineer/context.py:54-59 | a longer text never has a smaller estimate |
| Text.StripIsTrimmed | skills/context-engineer/context.py:215 | `str.strip` leaves whitespace at neither end |
| Text.StripEmpty | skills/context-engineer/context.py:236 | a line strips to empty exactly when it is all whitespace |
| Text.SplitOn | skills/context-engineer/context.py:210 | `split("\n")`: at least one piece, none containing the separator |
| Text.SplitJoin | skills/context-engineer/context.py:210 | the lines joined with newlines give the text back |
| Text.Words | skills/context-engineer/context.py:223 | `split()`: non-empty words without whitespace |
| Text.WordsAreInnerRuns | skills/context-engineer/context.py:223 | the words are exactly the whitespace-separated runs of the text, in order: the `re.split` pieces less an empty first and last one |
| Text.SplitRuns | skills/context-engineer/context.py:361 | `re.split("[_\s]+")`: at least one piece; no piece holds a separator; every inner piece is non-empty; the first piece is empty exactly when the text starts with a separator |
| Text.SplitRunsWeave | skills/context-engineer/context.py:361 | the pieces, rejoined with the non-empty separator runs between them, give the text back |
| Text.SplitRunsTwoWords | skills/context-engineer/context.py:361 | two words joined by one separator split back into the two words |
| Text.LexLessTotal | skills/context-engineer/context.py:850 | Python's string order relates any two distinct names |
| Text.Dedup | skills/context-engineer/context.py:224-228 | each element once, exactly the elements of the input, in order of first occurrence (the key order of the counting dict) |
| Redundancy.Lines | skills/context-engineer/context.py:210 | every text, even the empty one, has at least one line |
| Redundancy.FirstMatch | skills/context-engineer/context.py:217-220 | the index the `seen` map holds: the first line with that key |
| Redundancy.DuplicatesBefore | skills/context-engineer/context.py:213-220 | each duplicate issue names a tracked line repeating an earlier one, and that line's first occurrence |
| Redundancy.DuplicatesInLineOrder | skills/context-engineer/context.py:214-218 | duplicate issues come in strictly increasing line order |
| Redundancy.DuplicatesStep | skills/context-engineer/context.py:214-218 | each line contributes its own issue after those of earlier lines |
| Redundancy.DuplicatesComplete | skills/context-engineer/context.py:214-218 | every tracked line repeating an earlier line is reported, pointing at the first occurrence |
| Redundancy.ScanRepeat | skills/context-engineer/context.py:217-218 | a tracked line already seen raises one issue naming its first line |
| Redundancy.ScanFirst | skills/context-engineer/context.py:219-220 | a tracked line seen for the first time raises nothing and is remembered |
| Redundancy.ScanUntracked | skills/context-engineer/context.py:216 | a stripped line of 20 characters or fewer is ignored |
| Redundancy.ScanLine | skills/context-engineer/context.py:215-220 | one loop iteration keeps the `seen` map and the issue list in step with the definition |
| Redundancy.ScanDuplicateLines | skills/context-engineer/context.py:213-220 | the `seen`-map loop computes exactly the duplicate-line issues |
| Redundancy.Trigrams | skills/context-engineer/context.py:224-228 | only trigrams longer than 15 characters, never more than there are windows |
| Redundancy.TrigramsAreLongWindows | skills/context-engineer/context.py:224-228 | the counted trigrams are exactly the windows of three consecutive words joined by spaces, in order, that are longer than 15 characters |
| Redundancy.TrigramCount | skills/context-engineer/context.py:224-228 | a phrase longer than 15 characters is counted once for every window that spells it |
| Redundancy.Tallies | skills/context-engineer/context.py:224-228 | each distinct trigram once, with its exact number of occurrences, listed in order of first occurrence, which its rank records |
| Redundancy.TallyBeforeTransitive | skills/context-engineer/context.py:229 | the sort order (count descending, then first occurrence) is transitive |
| Redundancy.RankedTallies | skills/context-engineer/context.py:229 | the same tallies, sorted by non-increasing count with ties in order of first occurrence in the text |
| Redundancy.EmitPhrases | skills/context-engineer/context.py:229-233 | the emission loop yields only repeated-phrase issues |
| Redundancy.Frequent | skills/context-engineer/context.py:230 | exactly the tallies seen at least three times |
| Redundancy.Capped | skills/context-engineer/context.py:232-233 | a prefix of at most the cap |
| Redundancy.EmitPhrasesIsCappedPrefix | skills/context-engineer/context.py:229-233 | the loop with its early `break` reports exactly the first cap-many frequent tallies |
| Redundancy.FrequentSorted | skills/context-engineer/context.py:229-230 | dropping infrequent tallies keeps the sort order |
| Redundancy.CappedSound | skills/context-engineer/context.py:229-231 | each reported tally is a trigram of the text, seen at least three times, with its true count |
| Redundancy.CappedOrdered | skills/context-engineer/context.py:229-233 | reported tallies follow the sort order (count, then first occurrence) and have distinct phrases |
| Redundancy.CappedComplete | skills/context-engineer/context.py:229-233 | below the cap, every trigram seen three times or more is reported |
| Redundancy.PhrasesSound | skills/context-engineer/context.py:222-231 | each phrase issue is a long trigram of the text, seen three times or more, with its exact count |
| Redundancy.PhrasesOrdered | skills/context-engineer/context.py:229-231 | phrase issues come by non-increasing count, equal counts in order of first occurrence, and no phrase appears twice |
| Redundancy.PhrasesComplete | skills/context-engineer/context.py:229-233 | at most the cap is reported, and below it no frequent trigram is missing |
| Redundancy.BeyondCap | skills/context-engineer/context.py:232-233 | a tally left out of the capped list lies at or past the cap, which was reached |
| Redundancy.CappedMissing | skills/context-engineer/context.py:229-233 | in a sorted list, a tally left out of the report comes after the last reported one |
| Redundancy.PhrasesTopRanked | skills/context-engineer/context.py:229-233 | a frequent trigram left out means the cap was reached and it ranks below the last phrase reported |
| Redundancy.PhrasesTop | skills/context-engineer/context.py:229-233 | the report is the top of the ranking: every frequent trigram left out ranks below the last phrase reported |
| Redundancy.PhraseIssues | skills/context-engineer/context.py:222-233 | the phrase issues of a text: at most the cap; long, frequent trigrams with exact counts; by count, ties in first-occurrence order; complete below the cap; and at the cap, exactly the top-ranked ones |
| Redundancy.BlankLines | skills/context-engineer/context.py:236 | the blank-line count never exceeds the line count |
| Redundancy.PercentAtMost100 | skills/context-engineer/context.py:238 | the blank percentage in the whitespace issue is at most 100 |
| Redundancy.LongLineCount | skills/context-engineer/context.py:241 | the long-line count never exceeds the line count |
| Redundancy.WhitespaceIssues | skills/context-engineer/context.py:235-238 | one issue exactly when blank lines exceed 30% of lines and number more than five |
| Redundancy.LongLineIssues | skills/context-engineer/context.py:240-243 | one issue exactly when more than three lines exceed 200 characters |
| Redundancy.GroupsInOrder | skills/context-engineer/context.py:207-245 | the four groups appended in turn stay grouped by kind |
| Redundancy.DetectRedundancy | skills/context-engineer/context.py:207-245 | issues are grouped by kind; the total respects the phrase cap; whitespace and long-line issues appear exactly at their thresholds |
| Scoring.TotalTokens | skills/context-engineer/context.py:253 | every file adds at least one token |
| Scoring.SizeScore | skills/context-engineer/context.py:257-268 | between 0 and 100, and 100 exactly when the total is below a tenth of the budget |
| Scoring.SizeScoreMonotone | skills/context-engineer/context.py:257-268 | under a fixed positive budget, more tokens never score higher |
| Scoring.SizeScoreBuckets | skills/context-engineer/context.py:257-268 | for a positive budget, 80, 60 and 40 are given exactly on their half-open ratio intervals; from 0.7 on the score is 100 minus the truncated percentage, floored at 0 |
| Scoring.ThresholdsAreStrict | skills/context-engineer/context.py:259-268 | for every budget that is a positive multiple of ten, a ratio of exactly 0.1, 0.3, 0.5 or 0.7 falls into the lower bucket (80, 60, 40, 30); `SizeScoreBuckets` covers every positive budget |
| Scoring.RedundancyScore | skills/context-engineer/context.py:270-274 | five points lost per issue, zero from 20 issues on |
| Scoring.RedundancyScoreMonotone | skills/context-engineer/context.py:274 | more issues never score higher |
| Scoring.CountScore | skills/context-engineer/context.py:276-285 | between 20 and 100 |
| Scoring.CountScoreMonotone | skills/context-engineer/context.py:276-285 | more files never score higher |
| Scoring.EfficiencyTenths | skills/context-engineer/context.py:248-287 | an empty set scores 100; otherwise the 40/30/30 weighted sum of the three factors, at most 100 |
| Scoring.Grade | skills/context-engineer/context.py:141-154 | A+ exactly from 90; F exactly below 40 |
| Scoring.GradeMonotone | skills/context-engineer/context.py:141-154 | a higher score never earns a worse grade |
| Scoring.CategoryOf | skills/context-engineer/context.py:680-690 | each category holds exactly the names its rule names, and the first matching rule wins |
| Json.Lookup | skills/context-engineer/context.py:310 | absent exactly when the key is not among the keys; otherwise a member's value |
| Json.Get | skills/context-engineer/context.py:329 | `d.get(key, default)`: the default exactly when the key is absent |
| Json.SetDefault | skills/context-engineer/context.py:320 | adds the key at the end when it is missing, and keeps every existing member |
| Json.SetDefaultLookup | skills/context-engineer/context.py:320 | after `setdefault` the key holds its old value, or the default if it had none; other keys are unaffected |
| Json.LookupAppend | skills/context-engineer/context.py:320 | appending a member never shadows an existing key |
| ToolSchema.SelectDefinitions | skills/context-engineer/context.py:309-310 | the first present of `tools`, `functions` and `mcpServers`; nothing for a non-object document |
| ToolSchema.TagTools | skills/context-engineer/context.py:318-321 | one entry per object tool, each carrying a `server` field |
| ToolSchema.TagToolsAt | skills/context-engineer/context.py:318-321 | each object tool is kept at the position counted by the object tools before it, with `server` set by `setdefault` to the server name |
| ToolSchema.ExpandServersAppend | skills/context-engineer/context.py:314-324 | the server map expands server by server: the expansion of two lists of servers is the two expansions appended |
| ToolSchema.ExpandOneServer | skills/context-engineer/context.py:315-323 | one server gives its tagged object tools when `tools` is a list or absent, one placeholder when it is anything else, and nothing when its config is not an object |
| ToolSchema.Objects | skills/context-engineer/context.py:327-328 | non-object definitions are skipped |
| ToolSchema.ObjectAt | skills/context-engineer/context.py:327-328 | each object definition is kept, at the position counted by the objects before it |
| ToolSchema.ObjectSource | skills/context-engineer/context.py:327-328 | each kept definition is an object definition of the input |
| ToolSchema.ObjectsCount | skills/context-engineer/context.py:327-328 | exactly the object definitions are kept |
| ToolSchema.ObjectsPositions | skills/context-engineer/context.py:327-328 | exactly the object definitions are kept, each at the position counted by the objects before it |
| ToolSchema.Record | skills/context-engineer/context.py:329-345 | name and description from the definition, else from its `function` part, else `unknown` and empty; the token estimate of the serialised definition; params the keys of the schema's `properties`, none for a non-object schema; server empty unless given |
| ToolSchema.ParseTools | skills/context-engineer/context.py:307-347 | one record per object definition of the document, at the position counted by the object definitions before it; other definitions are skipped |
| ToolSchema.NonObjectHasNoTools | skills/context-engineer/context.py:308-310 | a document that is not an object yields no tools |
| ToolSchema.EmptyToolsShadowFunctions | skills/context-engineer/context.py:310 | a present but empty `tools` list hides a `functions` list |
| ToolSchema.ServerToolIsTagged | skills/context-engineer/context.py:318-321 | an untagged server tool gets the server's name as its server |
| ToolSchema.PlaceholderRecord | skills/context-engineer/context.py:322-323 | a server without a tool list becomes one placeholder tool named after the server |
| ToolSchema.FunctionStyleRecord | skills/context-engineer/context.py:329-335 | an OpenAI-style definition takes name, description and parameters from `function` |
| Overlap.NormalName | skills/context-engineer/context.py:357-358 | same length, with no upper-case letter, `-` or `.` left |
| Overlap.NameWords | skills/context-engineer/context.py:361-362 | no name stop word survives |
| Overlap.DescriptionWords | skills/context-engineer/context.py:371-372 | non-empty words, and no description stop word survives |
| Overlap.Classify | skills/context-engineer/context.py:356-376 | similar names exactly when the name words match; similar descriptions exactly when they do not but both descriptions are set and their words match |
| Overlap.ClassifySymmetric | skills/context-engineer/context.py:356-376 | the verdict does not depend on which tool comes first |
| Overlap.JudgeSymmetric | skills/context-engineer/context.py:365-376 | both similarity tests are symmetric |
| Overlap.Profiles | skills/context-engineer/context.py:355-362 | one profile per tool |
| Overlap.ProfilesAt | skills/context-engineer/context.py:355-362 | the profile at `k` is that of tool `k` |
| Overlap.Report | skills/context-engineer/context.py:365-376 | at most one report per pair |
| Overlap.RowSound | skills/context-engineer/context.py:354-376 | every pair in a row comes from a later tool that overlaps |
| Overlap.RowComplete | skills/context-engineer/context.py:354-376 | every later overlapping tool is in the row |
| Overlap.RowsSound | skills/context-engineer/context.py:353-376 | every reported pair is some `i < j` that overlaps |
| Overlap.RowsComplete | skills/context-engineer/context.py:353-376 | every overlapping `i < j` is reported |
| Overlap.JudgeAgrees | skills/context-engineer/context.py:356-376 | the precomputed profiles judge exactly as the tools are classified |
| Overlap.ScanRow | skills/context-engineer/context.py:354-376 | the inner loop computes row `i` |
| Overlap.FindOverlaps | skills/context-engineer/context.py:350-378 | the nested loops report a pair exactly when some `i < j` overlaps, in loop order |
| Overlap.ScanMembers | skills/context-engineer/context.py:350-378 | a pair is reported exactly when some `i < j` yields it |
| Overlap.ScanSound | skills/context-engineer/context.py:350-378 | each reported pair comes from an overlapping `i < j` |
| Overlap.ScanComplete | skills/context-engineer/context.py:350-378 | each overlapping `i < j` is reported |
| Overlap.TwoWordName | skills/context-engineer/context.py:361 | the name words of `a_b` are `a` and `b`, less the stop words |
| Overlap.SharedStopWordDoesNotMatch | skills/context-engineer/context.py:361-366 | names sharing only a stop word are not alike by name |
| Overlap.HalfSharedSets | skills/context-engineer/context.py:365 | one shared word out of two is exactly half, which is not more than half |
| Overlap.HalfSharedIsNotAlike | skills/context-engineer/context.py:365 | `search_restaurants` and `find_restaurants` are not alike by name |
| Overlap.SameNormalNameIsAlike | skills/context-engineer/context.py:357-366 | names that normalise alike, with a significant word, are alike |
| Overlap.SpellingVariants | skills/context-engineer/context.py:357-358 | `Read-File` and `read.file` both normalise to `read_file` |
| Snapshots.EntriesTotal | skills/context-engineer/context.py:514-517 | the entries' tokens add up to the recorded total |
| Snapshots.MakeSnapshot | skills/context-engineer/context.py:512-519 | one entry per file with its name, token estimate and path, in order; the files' token total, which the entries add up to; the efficiency score; the issue count |
| Snapshots.TokensOf | skills/context-engineer/context.py:854-855 | a missing file counts 0; otherwise its recorded tokens |
| Snapshots.SnapshotReadBack | skills/context-engineer/context.py:512-519 | looking a file up by name in a fresh snapshot gives its token estimate, and 0 for a name not among the files |
| Snapshots.AllNames | skills/context-engineer/context.py:850 | exactly the names of either snapshot |
| Snapshots.AllNamesSorted | skills/context-engineer/context.py:850 | strictly ascending, so each name appears once |
| Snapshots.LexLessIsTransitive | skills/context-engineer/context.py:850 | the string order is transitive |
| Snapshots.ChangedAmong | skills/context-engineer/context.py:852-857 | no more changes than names |
| Snapshots.ChangedAmongSound | skills/context-engineer/context.py:853-857 | each change is a listed name whose counts differ |
| Snapshots.ChangedAmongComplete | skills/context-engineer/context.py:853-857 | each listed name whose counts differ is a change |
| Snapshots.ChangedAmongAscending | skills/context-engineer/context.py:850-857 | before display sorting, changes are in ascending name order |
| Snapshots.NoChangesAmongEqual | skills/context-engineer/context.py:856 | identical entries produce no change |
| Snapshots.ChangeBeforeIsTransitive | skills/context-engineer/context.py:862 | the display order is transitive |
| Snapshots.ChangesOrdered | skills/context-engineer/context.py:862 | most tokens saved first; equal savings in ascending name order |
| Snapshots.ChangesSound | skills/context-engineer/context.py:848-862 | each change is a file of either snapshot, with its two differing counts |
| Snapshots.ChangesComplete | skills/context-engineer/context.py:848-862 | every file whose counts differ is listed |
| Snapshots.SavedPercent | skills/context-engineer/context.py:794 | the share of the old total saved; zero without an old total; positive exactly when the total fell |
| Snapshots.Compare | skills/context-engineer/context.py:791-801 | the saving plus the new total is the old total; the efficiency gain plus the old score is the new score |
| Snapshots.CompareSelf | skills/context-engineer/context.py:791-862 | a snapshot compared with itself shows no saving, no gain and no change |
| Snapshots.CompareSwapped | skills/context-engineer/context.py:791-862 | swapping the snapshots negates saving and gain, and lists the same files with their counts swapped |
| Advice.FloorDiv | skills/context-engineer/context.py:530 | Python's `//`, rounded toward negative infinity |
| Text.FirstIndex | skills/context-engineer/context.py:538-539 | the first position holding the name, or none: every earlier position holds another name |
| Advice.MemoryTokens | skills/context-engineer/context.py:538-539 | absent exactly when there is no `MEMORY.md`; otherwise its tokens |
| Advice.Recommendations | skills/context-engineer/context.py:523-556 | never empty; the all-clear stands alone; compress recommendations for the large files come first |
| Advice.RankedOrder | skills/context-engineer/context.py:528 | files are ranked by more tokens first, then position |
| Advice.CompressSound | skills/context-engineer/context.py:527-530 | each compress recommendation is for a file above a tenth of the budget |
| Advice.CompressComplete | skills/context-engineer/context.py:527-530 | every file above a tenth of the budget gets a compress recommendation |
| Advice.CompressOrdered | skills/context-engineer/context.py:528 | compress recommendations come largest first, ties in set order |
| Advice.LargeRankedEmpty | skills/context-engineer/context.py:527-529 | there are compress recommendations exactly when some file is large |
| Advice.WellOptimizedExactly | skills/context-engineer/context.py:553-554 | the all-clear is given exactly when no rule fires |
| Advice.SplitExactly | skills/context-engineer/context.py:549-551 | the split advice is given exactly when the total exceeds half the budget |
| Advice.RecommendationsParts | skills/context-engineer/context.py:523-556 | either the all-clear alone, or the compress block followed by the later rules' recommendations |
| Advice.OthersShape | skills/context-engineer/context.py:532-551 | after the compress block, each rule yields its recommendation exactly when its condition holds |
| Advice.FixRedundancyExactly | skills/context-engineer/context.py:532-535 | the redundancy advice is given exactly when there are more than five issues, and promises a tenth of the total |
| Advice.PruneMemoryExactly | skills/context-engineer/context.py:537-541 | the memory advice is given exactly when `MEMORY.md` has more than 2000 tokens, and promises half of them |
| Advice.ReviewSkillsExactly | skills/context-engineer/context.py:543-547 | the skills advice is given exactly when there are more than five skill files; it names their count and total and promises a quarter |
| Advice.RecommendationsInOrder | skills/context-engineer/context.py:523-556 | compress recommendations first, then at most one each of redundancy, memory, skills and split advice, in that order |
| Upstream.NormalizeBaseUrl | skills/cacheforge-setup/setup.py:41-46 | never longer than the input, and never ends in a slash |
| Upstream.NormalizeForms | skills/cacheforge-setup/setup.py:41-46 | `h`, `h/`, `h/v1` and `h/v1/` all normalise to a clean `h` |
| Upstream.NormalizeUnslashed | skills/cacheforge-setup/setup.py:43-46 | on a trimmed URL without a trailing slash, only a trailing `/v1` and the slashes it uncovers go |
| Upstream.NormalizeDropsOneSuffix | skills/cacheforge-setup/setup.py:44-45 | only one `/v1` is dropped, so normalising twice can differ from once |
| Upstream.InferKindFromKey | skills/cacheforge-setup/setup.py:168-176 | `sk-or-` gives openrouter, `sk-ant-` anthropic, other `sk-` openai, anything else custom |
| Upstream.CanonicalUpstreamKind | skills/cacheforge-setup/setup.py:179-184 | never `openai`: that alias becomes `custom`, any other kind is stripped and lower-cased |
| Upstream.CanonicalIdempotent | skills/cacheforge-setup/setup.py:179-184 | canonicalising twice equals canonicalising once |
| Upstream.PresetBaseUrl | skills/cacheforge-setup/setup.py:195 | one of the three presets; the custom one for an unknown kind |
| Upstream.ResolveUpstreamBaseUrl | skills/cacheforge-setup/setup.py:187-195 | an explicit URL wins once stripped; otherwise the OpenAI URL for `openai`, else the kind's preset |
| Upstream.LooksLikeCacheforgeKey | skills/cacheforge-setup/setup.py:237-239 | true exactly when the stripped key starts with `cf_` or `cfk_`; such a key is never inferred to belong to a known upstream |
| Upstream.CacheforgeKeyIsCustom | skills/cacheforge-setup/setup.py:168-176 | a CacheForge key is never taken for a known upstream's key |
| Upstream.CacheforgeKeyStripped | skills/cacheforge-setup/setup.py:237-239 | surrounding whitespace never changes the answer |
| Upstream.FirstSet | skills/cacheforge-setup/setup.py:156-164 | the first variable that is set, every earlier one unset |
| Upstream.DetectUpstreamKey | skills/cacheforge-setup/setup.py:154-166 | nothing exactly when none of the four variables is set; otherwise a non-empty key of an accepted kind |
| Upstream.DetectPriority | skills/cacheforge-setup/setup.py:156-164 | the first set variable in priority order decides |
| Upstream.OpenRouterModels | skills/cacheforge-setup/setup.py:269-280 | never empty |
| Upstream.OpenRouterModelsSound | skills/cacheforge-setup/setup.py:270-280 | every default is a curated candidate; it is offered upstream whenever any candidate is |
| Upstream.OpenRouterModelsComplete | skills/cacheforge-setup/setup.py:271-274 | every curated candidate offered upstream is listed |
| Upstream.OpenRouterFallback | skills/cacheforge-setup/setup.py:275-277 | when discovery found models but no candidate, the first two candidates |
| Upstream.CandidatePositions | skills/cacheforge-setup/setup.py:28-33 | each curated candidate stands at its own position: the ids are distinct |
| Upstream.OpenRouterModelsInOrder | skills/cacheforge-setup/setup.py:269-280 | the OpenRouter list keeps the curated order, whatever discovery found |
| Upstream.DefaultModels | skills/cacheforge-setup/setup.py:262-285 | compared stripped and lower-cased: a `custom` kind on a base URL mentioning `fireworks.ai` gets the Fireworks model; `openrouter` the OpenRouter list; `anthropic` the Anthropic model; any other kind, and `custom` elsewhere, the GPT model |
| Upstream.FireworksDefault | skills/cacheforge-setup/setup.py:266-267 | a `custom` upstream whose base URL mentions `fireworks.ai`, in any case, gets the Fireworks model |
| Upstream.FireworksPreset | skills/cacheforge-setup/setup.py:266-267 | the Fireworks preset URL is such a URL |
| Upstream.LiteralKindDefaults | skills/cacheforge-setup/setup.py:262-285 | `openai` gets the GPT model even on the Fireworks URL; `anthropic` the Anthropic model; `openrouter` with nothing discovered every curated candidate |
| Upstream.OpenRouterHeadPreferred | skills/cacheforge-setup/setup.py:269-280 | the first OpenRouter default is offered upstream and precedes, in the curated order, every curated candidate that is offered |
| Upstream.DefaultModel | skills/cacheforge-setup/setup.py:288-291 | one of the default models; for OpenRouter no other default precedes it in the curated order, and it is the most-preferred curated candidate offered upstream |
| Upstream.OverrideModels | skills/cacheforge-setup/setup.py:333-338 | a model id replaces the list by one model, named by the name or else the id; a name alone renames only the first model |
| Upstream.ModelsRoundTrip | skills/cacheforge-setup/setup.py:304 | the models read back from the snippet are the models written |
| Upstream.ProviderFields | skills/cacheforge-setup/setup.py:300-305 | the provider entry holds the client URL and the model list |
| Upstream.ProviderPath | skills/cacheforge-setup/setup.py:296-306 | the provider sits at `models.providers.cacheforge` |
| Upstream.SnippetMode | skills/cacheforge-setup/setup.py:298 | the snippet merges into the existing configuration |
| Upstream.SnippetBaseUrl | skills/cacheforge-setup/setup.py:301 | the client URL is `<base>/v1`, which normalises back to a clean base |
| Upstream.SnippetPrimary | skills/cacheforge-setup/setup.py:308 | the primary model is the given id under the `cacheforge/` provider |
| Upstream.SnippetModels | skills/cacheforge-setup/setup.py:304 | the snippet's model list is exactly the given models |
| Upstream.SnippetForModelId | skills/cacheforge-setup/setup.py:333-340 | with a model id, the snippet lists only that model and makes it primary |
| Upstream.ResolveProvisionUpstream | skills/cacheforge-setup/setup.py:491-521 | fails for lack of a key exactly when none is given or detected; once a key is given or detected, fails exactly when the stripped, lower-cased kind is non-empty and not accepted; a success never sends `openai`, and it sends the given key, or else the detected one |
| Upstream.DetectedProvision | skills/cacheforge-setup/setup.py:495-521 | without a key argument, the detected key is sent; the kind is the given one or else the detected one, sent in canonical form, and the base URL is resolved from it |
| Upstream.DetectedOpenAiProvision | skills/cacheforge-setup/setup.py:495-521 | with only `OPENAI_API_KEY` set and no kind given, that key is sent as `custom` with the OpenAI base URL |
| Upstream.LegacyOpenAiProvision | skills/cacheforge-setup/setup.py:508-521 | the `openai` kind, given or inferred, is sent as `custom` with the OpenAI base URL |
| Upstream.CustomProvision | skills/cacheforge-setup/setup.py:520-521 | the `custom` kind gets the Fireworks preset |
| Upstream.ExplicitBaseWins | skills/cacheforge-setup/setup.py:189-191 | an explicit base URL is sent stripped, whatever the kind and whether the key is given or detected |
| Upstream.UnknownKindRejected | skills/cacheforge-setup/setup.py:495-516 | a kind outside the accepted four is rejected, whether the key is given or detected, and reported as written after stripping and lower-casing |

## Left out

- **File discovery, reading and printing.** The model leaves out reading workspace files and configuration files, and the report rendering: colours, boxes, bars and `format_tokens`. It also leaves out saving and loading snapshots and argument parsing. All of these are I/O.
- **Network calls.** The `provision` request, the account-upstream query of `openclaw-snippet`, and `fetch_openrouter_available_model_ids` are network calls. Their results (the upstream kind, the base URL and the set of model ids) are parameters.
- **The key lookup of `openclaw-snippet`** (setup.py lines 314-319) reads the environment only to make the network call above, so it is left out with it.
- **Floating point.** Scores, ratios and the saved percentage are exact rationals, not floats. At a threshold, a float rounding of `total / budget` or of `ratio * 100` could land on the other side.
- **Unicode.** Whitespace, `strip`, `split` and `lower` are modelled on ASCII only. Python's Unicode whitespace and case mapping are not.
- **Issue and recommendation text.** Issues and recommendations are structured values; their sentences are not modelled.
- **Duplicate keys in a JSON object.** These are assumed absent. `json.load` keeps the last value; the model's lookup reads the first.
- **Missing fields in a loaded snapshot.** A snapshot is a typed record with every field present. The `.get(..., 0)` defaults of `compare` are therefore not modelled.
- **Configurations on which the source raises.** These are excluded by requires clauses:
  - `ToolSchema.ParseTools` requires every definition to be readable. A `function` entry must be an object, and so must an object schema's `properties`.
  - `Overlap.FindOverlaps` requires that names, and the descriptions it reads, are strings.
  - `Advice.Recommendations` and `Scoring.EfficiencyTenths` require a non-zero budget whenever there are files.
- **The unused `prefix_label`** of `detect_upstream_key` plays no part in the model.
- **Unreachable code.** Two branches cannot be taken, so they are not modelled:
  - the `if not models` branch of `default_openclaw_models_for_upstream`, because the candidate list is never empty;
  - the zero-token branch of `compute_efficiency_score`, because every file counts at least one token.
- **`masked`** (setup.py line 501) only prints the detected key.
- **Tokens.EstimateMonotone** follows from `EstimateTokens`'s own contract and needs no proof of its own.
- **Redundancy.DetectRedundancy** states the grouping, the size bound and the whitespace and long-line conditions, not the full list. The duplicate-line part is pinned down by `ScanDuplicateLines` and the phrase part by `PhraseIssues`.
- **Upstream.OpenRouterModels** only states non-emptiness in its own contract. Its content is stated by `OpenRouterModelsSound`, `OpenRouterModelsComplete`, `OpenRouterFallback`, `OpenRouterModelsInOrder` and `LiteralKindDefaults`.

=== FILE: advice.dfy ===
/** The recommendations that `analyze` prints after its report: compress the
    files that take more than a tenth of the budget (largest first), fix
    redundancy, prune the memory file, review installed skills, split the
    context; and a single all-clear when none of these applies. */
module Advice {
  import opened Wrappers
  import opened Text
  import opened Sorting
  import opened Scoring

  /** A recommendation and its estimated token savings. The source renders each
      as a sentence; the fields are what that sentence and the savings depend on. */
  datatype Recommendation =
    | Compress(name: string, percent: int, saves: nat)
    | FixRedundancy(issues: nat, saves: nat)
    | PruneMemory(saves: nat)
    | ReviewSkills(count: nat, tokens: nat, saves: nat)
    | SplitSessions
    | WellOptimized
  {
    function Savings(): nat {
      if SplitSessions? || WellOptimized? then 0 else saves
    }

    /** The block of the report a recommendation belongs to, in the order the blocks are emitted. */
    function Stage(): nat {
      match this
      case Compress(_, _, _) => 0
      case FixRedundancy(_, _) => 1
      case PruneMemory(_) => 2
      case ReviewSkills(_, _, _) => 3
      case SplitSessions => 4
      case WellOptimized => 5
    }
  }

  /** Python's `//`: division rounded toward negative infinity. */
  function FloorDiv(x: int, y: int): (q: int)
    requires y != 0
    ensures y > 0 ==> y * q <= x < y * q + y
    ensures y < 0 ==> y * q >= x > y * q + y
  {
    if y > 0 then x / y else (-x) / (-y)
  }

  /** A file at its position in the document set (the dict's insertion order). */
  datatype Slot = Slot(index: nat, doc: Document)

  /** `sorted(files.items(), key=-tokens)`: more tokens first; the stable sort
      keeps equal counts in their original order. */
  predicate Heavier(a: Slot, b: Slot) {
    a.doc.Tokens() > b.doc.Tokens() || (a.doc.Tokens() == b.doc.Tokens() && a.index < b.index)
  }

  function Slots(docs: seq<Document>): (r: seq<Slot>)
    ensures |r| == |docs|
    ensures forall k :: 0 <= k < |docs| ==> r[k] == Slot(k, docs[k])
  {
    seq(|docs|, k requires 0 <= k < |docs| => Slot(k, docs[k]))
  }

  /** `tokens > budget * 0.1`, exactly. */
  predicate Large(d: Document, budget: int) {
    10 * d.Tokens() > budget
  }

  function LargeSlot(budget: int): Slot -> bool {
    (s: Slot) => Large(s.doc, budget)
  }

  /** The files that earn a compress recommendation, in the order they are recommended. */
  function LargeRanked(docs: seq<Document>, budget: int): seq<Slot> {
    Filter(SortBy(Slots(docs), Heavier), LargeSlot(budget))
  }

  function CompressOf(d: Document, budget: int): Recommendation
    requires budget != 0
  {
    Compress(d.name, FloorDiv(d.Tokens() * 100, budget), d.Tokens() / 3)
  }

  function CompressAll(slots: seq<Slot>, budget: int): (r: seq<Recommendation>)
    requires |slots| == 0 || budget != 0
    ensures |r| == |slots|
    ensures forall k :: 0 <= k < |slots| ==> r[k] == CompressOf(slots[k].doc, budget)
  {
    if |slots| == 0 then [] else seq(|slots|, k requires 0 <= k < |slots| => CompressOf(slots[k].doc, budget))
  }

  /** The token count of `MEMORY.md`, if the set has one. */
  function MemoryTokens(docs: seq<Document>): (r: Option<nat>)
    ensures r.None? <==> forall k :: 0 <= k < |docs| ==> docs[k].name != "MEMORY.md"
    ensures r.Some? ==> exists k :: 0 <= k < |docs| && docs[k].name == "MEMORY.md" && docs[k].Tokens() == r.value
  {
    var names := seq(|docs|, k requires 0 <= k < |docs| => docs[k].name);
    var i := FirstIndex(names, "MEMORY.md");
    if i < |docs| then Some(docs[i].Tokens())
    else
      assert forall k :: 0 <= k < |docs| ==> docs[k].name != "MEMORY.md" by {
        forall k | 0 <= k < |docs| ensures docs[k].name != "MEMORY.md" {
          assert names[k] == docs[k].name;
        }
      }
      None
  }

  predicate IsSkill(d: Document) {
    StartsWith(d.name, "skills/")
  }

  function SkillDocs(docs: seq<Document>): seq<Document> {
    Filter(docs, IsSkill)
  }

  /** The recommendations after the compress ones, in the source's order. */
  function Others(docs: seq<Document>, total: nat, budget: int, issues: nat): seq<Recommendation> {
    var skills := SkillDocs(docs);
    var memory := MemoryTokens(docs);
    (if issues > 5 then [FixRedundancy(issues, total / 10)] else [])
    + (if memory.Some? && memory.value > 2000 then [PruneMemory(memory.value / 2)] else [])
    + (if |skills| > 5 then [ReviewSkills(|skills|, TotalTokens(skills), TotalTokens(skills) / 4)] else [])
    + (if 2 * total > budget then [SplitSessions] else [])
  }

  /** `_generate_recommendations(files, total_tokens, budget, issues)`, where `issues`
      is the number of redundancy issues over all files. Any file with a zero
      budget is large and divides by the budget, so a zero budget needs an empty set. */
  function Recommendations(docs: seq<Document>, total: nat, budget: int, issues: nat): (r: seq<Recommendation>)
    requires |docs| == 0 || budget != 0
    ensures |r| > 0
    ensures WellOptimized in r ==> r == [WellOptimized]
    ensures |LargeRanked(docs, budget)| <= |r|
    ensures r != [WellOptimized] ==> r[..|LargeRanked(docs, budget)|] == CompressAll(LargeRanked(docs, budget), budget)
  {
    var large := LargeRanked(docs, budget);
    assert |large| == 0 || budget != 0 by {
      if |docs| == 0 {
        assert |SortBy(Slots(docs), Heavier)| == 0;
      }
    }
    var recs := CompressAll(large, budget) + Others(docs, total, budget, issues);
    if |recs| == 0 then [WellOptimized]
    else
      assert recs[..|large|] == CompressAll(large, budget);
      assert WellOptimized !in recs;
      recs
  }

  /** The files are ranked by a strict total order: more tokens first, then position. */
  lemma RankedOrder(docs: seq<Document>)
    ensures SortedBy(SortBy(Slots(docs), Heavier), Heavier)
  {
    assert Transitive(Heavier);
    SortByIsSorted(Slots(docs), Heavier);
  }

  /** Each of the first recommendations compresses a large file of the set. */
  lemma CompressSound(docs: seq<Document>, total: nat, budget: int, issues: nat, k: nat) returns (i: nat)
    requires budget != 0
    requires k < |LargeRanked(docs, budget)|
    ensures i < |docs| && Large(docs[i], budget)
    ensures LargeRanked(docs, budget)[k] == Slot(i, docs[i])
    ensures Recommendations(docs, total, budget, issues)[k] == CompressOf(docs[i], budget)
  {
    var ranked := SortBy(Slots(docs), Heavier);
    var m := FilterSound(ranked, LargeSlot(budget), k);
    assert ranked[m] in multiset(Slots(docs));
    i :| 0 <= i < |docs| && Slots(docs)[i] == ranked[m];
    var r := Recommendations(docs, total, budget, issues);
    assert r != [WellOptimized] by {
      assert r[..|LargeRanked(docs, budget)|] == CompressAll(LargeRanked(docs, budget), budget);
    }
    assert r[..|LargeRanked(docs, budget)|][k] == r[k];
  }

  /** Every file larger than a tenth of the budget gets a compress recommendation. */
  lemma CompressComplete(docs: seq<Document>, total: nat, budget: int, issues: nat, i: nat) returns (k: nat)
    requires budget != 0
    requires i < |docs| && Large(docs[i], budget)
    ensures k < |LargeRanked(docs, budget)|
    ensures Recommendations(docs, total, budget, issues)[k] == CompressOf(docs[i], budget)
  {
    var ranked := SortBy(Slots(docs), Heavier);
    assert Slots(docs)[i] in multiset(ranked);
    var m :| 0 <= m < |ranked| && ranked[m] == Slot(i, docs[i]);
    k := FilterComplete(ranked, LargeSlot(budget), m);
    var r := Recommendations(docs, total, budget, issues);
    assert r[..|LargeRanked(docs, budget)|][k] == r[k];
  }

  /** Compress recommendations come largest file first; files of equal size keep
      their order in the set. */
  lemma CompressOrdered(docs: seq<Document>, budget: int)
    ensures SortedBy(LargeRanked(docs, budget), Heavier)
  {
    RankedOrder(docs);
    FilterSorted(SortBy(Slots(docs), Heavier), LargeSlot(budget), Heavier);
  }

  /** The conditions under which nothing is worth recommending. */
  predicate Quiet(docs: seq<Document>, total: nat, budget: int, issues: nat) {
    && (forall i :: 0 <= i < |docs| ==> !Large(docs[i], budget))
    && issues <= 5
    && (MemoryTokens(docs).Some? ==> MemoryTokens(docs).value <= 2000)
    && |SkillDocs(docs)| <= 5
    && 2 * total <= budget
  }

  /** Some file is large exactly when some compress recommendation is made. */
  lemma LargeRankedEmpty(docs: seq<Document>, budget: int)
    ensures |LargeRanked(docs, budget)| == 0 <==> forall i :: 0 <= i < |docs| ==> !Large(docs[i], budget)
  {
    var ranked := SortBy(Slots(docs), Heavier);
    if |LargeRanked(docs, budget)| > 0 {
      var m := FilterSound(ranked, LargeSlot(budget), 0);
      assert ranked[m] in multiset(Slots(docs));
      var i :| 0 <= i < |docs| && Slots(docs)[i] == ranked[m];
      assert Large(docs[i], budget);
    }
    if i :| 0 <= i < |docs| && Large(docs[i], budget) {
      assert Slots(docs)[i] in multiset(ranked);
      var m :| 0 <= m < |ranked| && ranked[m] == Slot(i, docs[i]);
      var k := FilterComplete(ranked, LargeSlot(budget), m);
    }
  }

  /** The all-clear is given exactly when no rule fires. */
  lemma WellOptimizedExactly(docs: seq<Document>, total: nat, budget: int, issues: nat)
    requires |docs| == 0 || budget != 0
    ensures Recommendations(docs, total, budget, issues) == [WellOptimized] <==> Quiet(docs, total, budget, issues)
  {
    LargeRankedEmpty(docs, budget);
    var others := Others(docs, total, budget, issues);
    assert others == [] <==>
      && issues <= 5
      && (MemoryTokens(docs).Some? ==> MemoryTokens(docs).value <= 2000)
      && |SkillDocs(docs)| <= 5
      && 2 * total <= budget;
    var large := LargeRanked(docs, budget);
    assert |large| == 0 || budget != 0;
    var recs := CompressAll(large, budget) + others;
    if |recs| > 0 {
      assert Recommendations(docs, total, budget, issues) == recs;
      assert recs[0] != WellOptimized;
    }
  }

  /** The split warning appears exactly when the total exceeds half the budget. */
  lemma SplitExactly(docs: seq<Document>, total: nat, budget: int, issues: nat)
    requires |docs| == 0 || budget != 0
    ensures SplitSessions in Recommendations(docs, total, budget, issues) <==> 2 * total > budget
  {
    var large := LargeRanked(docs, budget);
    assert |large| == 0 || budget != 0 by {
      if |docs| == 0 {
        assert |SortBy(Slots(docs), Heavier)| == 0;
      }
    }
    var compress := CompressAll(large, budget);
    var others := Others(docs, total, budget, issues);
    assert SplitSessions !in compress by {
      assert forall k :: 0 <= k < |compress| ==> compress[k].Compress?;
    }
    assert SplitSessions in others <==> 2 * total > budget;
    var recs := compress + others;
    assert SplitSessions in recs <==> SplitSessions in compress || SplitSessions in others;
    if |recs| > 0 {
      assert Recommendations(docs, total, budget, issues) == recs;
    }
  }

  /** The two shapes of the list: the all-clear alone, or the compress block
      followed by the other rules' recommendations. */
  lemma RecommendationsParts(docs: seq<Document>, total: nat, budget: int, issues: nat)
    requires |docs| == 0 || budget != 0
    ensures |LargeRanked(docs, budget)| == 0 || budget != 0
    ensures var recs := CompressAll(LargeRanked(docs, budget), budget) + Others(docs, total, budget, issues);
            Recommendations(docs, total, budget, issues) == if |recs| == 0 then [WellOptimized] else recs
    ensures forall x :: x in CompressAll(LargeRanked(docs, budget), budget) ==> x.Compress?
  {
    var large := LargeRanked(docs, budget);
    assert |large| == 0 || budget != 0 by {
      if |docs| == 0 {
        assert |SortBy(Slots(docs), Heavier)| == 0;
      }
    }
  }

  /** Outside the compress block and the all-clear, a recommendation is made
      exactly when its rule yields it. */
  lemma OtherMember(docs: seq<Document>, total: nat, budget: int, issues: nat, x: Recommendation)
    requires |docs| == 0 || budget != 0
    requires !x.Compress? && !x.WellOptimized?
    ensures x in Recommendations(docs, total, budget, issues) <==> x in Others(docs, total, budget, issues)
  {
    RecommendationsParts(docs, total, budget, issues);
  }

  /** What the rules after the compress block yield. */
  lemma OthersShape(docs: seq<Document>, total: nat, budget: int, issues: nat)
    ensures var skills, memory := SkillDocs(docs), MemoryTokens(docs);
            forall x :: x in Others(docs, total, budget, issues) <==>
              || (issues > 5 && x == FixRedundancy(issues, total / 10))
              || (memory.Some? && memory.value > 2000 && x == PruneMemory(memory.value / 2))
              || (|skills| > 5 && x == ReviewSkills(|skills|, TotalTokens(skills), TotalTokens(skills) / 4))
              || (2 * total > budget && x == SplitSessions)
  {
  }

  /** The redundancy advice is given exactly when there are more than five
      redundancy issues, and it promises a tenth of the total. */
  lemma FixRedundancyExactly(docs: seq<Document>, total: nat, budget: int, issues: nat)
    requires |docs| == 0 || budget != 0
    ensures FixRedundancy(issues, total / 10) in Recommendations(docs, total, budget, issues) <==> issues > 5
    ensures forall x :: x in Recommendations(docs, total, budget, issues) && x.FixRedundancy? ==>
              x == FixRedundancy(issues, total / 10)
  {
    OthersShape(docs, total, budget, issues);
    OtherMember(docs, total, budget, issues, FixRedundancy(issues, total / 10));
    forall x | x in Recommendations(docs, total, budget, issues) && x.FixRedundancy?
      ensures x == FixRedundancy(issues, total / 10)
    {
      OtherMember(docs, total, budget, issues, x);
    }
  }

  /** The memory advice is given exactly when the set has a `MEMORY.md` of
      more than 2000 tokens, and it promises half of that file. */
  lemma PruneMemoryExactly(docs: seq<Document>, total: nat, budget: int, issues: nat)
    requires |docs| == 0 || budget != 0
    ensures (exists x :: x in Recommendations(docs, total, budget, issues) && x.PruneMemory?) <==>
              MemoryTokens(docs).Some? && MemoryTokens(docs).value > 2000
    ensures forall x :: x in Recommendations(docs, total, budget, issues) && x.PruneMemory? ==>
              x == PruneMemory(MemoryTokens(docs).value / 2)
  {
    var m := MemoryTokens(docs);
    OthersShape(docs, total, budget, issues);
    forall x | x in Recommendations(docs, total, budget, issues) && x.PruneMemory?
      ensures m.Some? && m.value > 2000 && x == PruneMemory(m.value / 2)
    {
      OtherMember(docs, total, budget, issues, x);
    }
    if m.Some? && m.value > 2000 {
      OtherMember(docs, total, budget, issues, PruneMemory(m.value / 2));
    }
  }

  /** The skills advice is given exactly when more than five skill files are
      present; it names their number and total, and promises a quarter of it. */
  lemma ReviewSkillsExactly(docs: seq<Document>, total: nat, budget: int, issues: nat)
    requires |docs| == 0 || budget != 0
    ensures var skills := SkillDocs(docs);
            (ReviewSkills(|skills|, TotalTokens(skills), TotalTokens(skills) / 4) in Recommendations(docs, total, budget, issues)
             <==> |skills| > 5)
    ensures var skills := SkillDocs(docs);
            forall x :: x in Recommendations(docs, total, budget, issues) && x.ReviewSkills? ==>
              x == ReviewSkills(|skills|, TotalTokens(skills), TotalTokens(skills) / 4)
  {
    var skills := SkillDocs(docs);
    OthersShape(docs, total, budget, issues);
    OtherMember(docs, total, budget, issues, ReviewSkills(|skills|, TotalTokens(skills), TotalTokens(skills) / 4));
    forall x | x in Recommendations(docs, total, budget, issues) && x.ReviewSkills?
      ensures x == ReviewSkills(|skills|, TotalTokens(skills), TotalTokens(skills) / 4)
    {
      OtherMember(docs, total, budget, issues, x);
    }
  }

  /** Stages strictly increase, except along the compress block. */
  predicate Rising(s: seq<Recommendation>) {
    forall i, j :: 0 <= i < j < |s| ==> s[i].Stage() < s[j].Stage() || (s[i].Compress? && s[j].Compress?)
  }

  lemma RisingAppend(a: seq<Recommendation>, b: seq<Recommendation>)
    requires Rising(a) && Rising(b)
    requires forall x, y :: x in a && y in b ==> x.Stage() < y.Stage()
    ensures Rising(a + b)
  {
    forall i, j | 0 <= i < j < |a + b|
      ensures (a + b)[i].Stage() < (a + b)[j].Stage() || ((a + b)[i].Compress? && (a + b)[j].Compress?)
    {
      if j < |a| {
        assert (a + b)[i] == a[i] && (a + b)[j] == a[j];
      } else if i < |a| {
        assert (a + b)[i] == a[i] && (a + b)[j] == b[j - |a|];
        assert a[i] in a && b[j - |a|] in b;
      } else {
        assert (a + b)[i] == b[i - |a|] && (a + b)[j] == b[j - |a|];
      }
    }
  }

  /** Four blocks of at most one recommendation each, of stages 1 to 4 in turn, rise. */
  lemma RisingBlocks(p1: seq<Recommendation>, p2: seq<Recommendation>, p3: seq<Recommendation>, p4: seq<Recommendation>)
    requires |p1| <= 1 && |p2| <= 1 && |p3| <= 1 && |p4| <= 1
    requires forall x :: x in p1 ==> x.Stage() == 1
    requires forall x :: x in p2 ==> x.Stage() == 2
    requires forall x :: x in p3 ==> x.Stage() == 3
    requires forall x :: x in p4 ==> x.Stage() == 4
    ensures Rising(p1 + p2 + p3 + p4)
  {
    RisingAppend(p1, p2);
    RisingAppend(p1 + p2, p3);
    RisingAppend(p1 + p2 + p3, p4);
  }

  lemma OthersRising(docs: seq<Document>, total: nat, budget: int, issues: nat)
    ensures Rising(Others(docs, total, budget, issues))
  {
    var skills := SkillDocs(docs);
    var memory := MemoryTokens(docs);
    var p1: seq<Recommendation> := if issues > 5 then [FixRedundancy(issues, total / 10)] else [];
    var p2: seq<Recommendation> := if memory.Some? && memory.value > 2000 then [PruneMemory(memory.value / 2)] else [];
    var p3: seq<Recommendation> := if |skills| > 5 then [ReviewSkills(|skills|, TotalTokens(skills), TotalTokens(skills) / 4)] else [];
    var p4: seq<Recommendation> := if 2 * total > budget then [SplitSessions] else [];
    RisingBlocks(p1, p2, p3, p4);
  }

  /** The compress block followed by a rising list of later stages rises, and so does the all-clear alone. */
  lemma RisingAfterCompress(c: seq<Recommendation>, o: seq<Recommendation>, r: seq<Recommendation>)
    requires forall x :: x in c ==> x.Compress?
    requires forall y :: y in o ==> y.Stage() > 0
    requires Rising(o)
    requires r == if |c + o| == 0 then [WellOptimized] else c + o
    ensures Rising(r)
  {
    RisingAppend(c, o);
  }

  /** The recommendations come in the source's block order: every compress
      recommendation first, then at most one each of the redundancy, memory,
      skills and split advice, in that order. */
  lemma RecommendationsInOrder(docs: seq<Document>, total: nat, budget: int, issues: nat)
    requires |docs| == 0 || budget != 0
    ensures Rising(Recommendations(docs, total, budget, issues))
  {
    RecommendationsParts(docs, total, budget, issues);
    OthersShape(docs, total, budget, issues);
    OthersRising(docs, total, budget, issues);
    RisingAfterCompress(CompressAll(LargeRanked(docs, budget), budget), Others(docs, total, budget, issues),
                        Recommendations(docs, total, budget, issues));
  }
}

=== FILE: arith.dfy ===
/** Facts about multiplication and Euclidean division of naturals that the
    score and percentage bounds rest on, proved once from the division rule
    `a == d * (a / d) + a % d` with `0 <= a % d < d`. */
module Arith {

  lemma {:induction false} MulMonotone(d: nat, x: nat, y: nat)
    requires x <= y
    ensures d * x <= d * y
  {
    if x < y {
      MulMonotone(d, x, y - 1);
      assert d * y == d * (y - 1) + d;
    }
  }

  lemma DivMonotone(a: nat, b: nat, d: nat)
    requires a <= b && d > 0
    ensures a / d <= b / d
  {
    var qa, qb := a / d, b / d;
    assert d * qa <= a;
    assert b < d * qb + d;
    if qa > qb {
      MulMonotone(d, qb + 1, qa);
      assert false;
    }
  }

  /** `a / d` is at least `c` once `a` reaches `c * d`. */
  lemma DivAtLeast(a: nat, c: nat, d: nat)
    requires d > 0 && d * c <= a
    ensures c <= a / d
  {
    var q := a / d;
    assert a < d * q + d;
    if q < c {
      MulMonotone(d, q + 1, c);
      assert false;
    }
  }

  /** `a / d` is at most `c` while `a` stays within `c * d`. */
  lemma DivAtMost(a: nat, c: nat, d: nat)
    requires d > 0 && a <= d * c
    ensures a / d <= c
  {
    var q := a / d;
    assert d * q <= a;
    if q > c {
      MulMonotone(d, c + 1, q);
      assert false;
    }
  }
}

=== FILE: json.dfy ===
/** Parsed JSON documents as Python's `json.load` hands them over: objects keep
    their members in document order, and a lookup behaves like `dict.get`. */
module Json {
  import opened Wrappers

  datatype Value =
    | Null
    | Bool(b: bool)
    | Num(mantissa: int, exponent: int)   // mantissa * 10^exponent
    | Str(s: string)
    | Array(items: seq<Value>)
    | Object(members: seq<Member>)

  datatype Member = Member(key: string, value: Value)

  /** Python truthiness: `None`, `False`, zero and empty containers are false. */
  predicate Truthy(v: Value) {
    match v
    case Null => false
    case Bool(b) => b
    case Num(m, _) => m != 0
    case Str(s) => |s| > 0
    case Array(items) => |items| > 0
    case Object(members) => |members| > 0
  }

  /** The keys of an object, in document order (`list(d.keys())`). */
  function Keys(members: seq<Member>): (r: seq<string>)
    ensures |r| == |members|
    ensures forall k :: 0 <= k < |members| ==> r[k] == members[k].key
  {
    seq(|members|, k requires 0 <= k < |members| => members[k].key)
  }

  /** The value stored under `key`, if any. */
  function Lookup(members: seq<Member>, key: string): (r: Option<Value>)
    ensures r.None? <==> key !in Keys(members)
    ensures r.Some? ==> exists k :: 0 <= k < |members| && members[k] == Member(key, r.value)
  {
    if |members| == 0 then None
    else if members[0].key == key then Some(members[0].value)
    else
      var r := Lookup(members[1..], key);
      assert Keys(members) == [members[0].key] + Keys(members[1..]);
      assert r.Some? ==> exists k :: 0 <= k < |members| && members[k] == Member(key, r.value) by {
        if r.Some? {
          var k :| 0 <= k < |members[1..]| && members[1..][k] == Member(key, r.value);
          assert members[k + 1] == Member(key, r.value);
        }
      }
      r
  }

  /** `d.get(key, default)`. */
  function Get(members: seq<Member>, key: string, default: Value): (r: Value)
    ensures key !in Keys(members) ==> r == default
    ensures key in Keys(members) ==> exists k :: 0 <= k < |members| && members[k] == Member(key, r)
  {
    Lookup(members, key).GetOr(default)
  }

  /** `d.setdefault(key, value)` for its effect on `d`: a missing key is added at the end. */
  function SetDefault(members: seq<Member>, key: string, value: Value): (r: seq<Member>)
    ensures key in Keys(r)
    ensures |r| == |members| + (if key in Keys(members) then 0 else 1)
    ensures r[..|members|] == members
  {
    if key in Keys(members) then members
    else
      var r := members + [Member(key, value)];
      assert Keys(r)[|members|] == key;
      r
  }

  /** After `setdefault` the key holds its old value if it had one and `value`
      otherwise, and every other key is untouched. */
  lemma SetDefaultLookup(members: seq<Member>, key: string, value: Value, other: string)
    ensures Lookup(SetDefault(members, key, value), key) == Some(Get(members, key, value))
    ensures other != key ==> Lookup(SetDefault(members, key, value), other) == Lookup(members, other)
  {
    if key !in Keys(members) {
      LookupAppend(members, Member(key, value), key);
      LookupAppend(members, Member(key, value), other);
    }
  }

  /** Appending a member never shadows an existing key. */
  lemma {:induction false} LookupAppend(members: seq<Member>, m: Member, key: string)
    ensures Lookup(members + [m], key) ==
              if key in Keys(members) then Lookup(members, key)
              else if m.key == key then Some(m.value) else None
  {
    if |members| > 0 {
      assert (members + [m])[1..] == members[1..] + [m];
      assert Keys(members) == [members[0].key] + Keys(members[1..]);
      LookupAppend(members[1..], m, key);
    }
  }
}

=== FILE: overlap.dfy ===
/** Pairs of tool definitions that look like they do the same job, judged by
    shared name words or, failing that, by shared description words. */
module Overlap {
  import opened Wrappers
  import opened Text
  import opened Json
  import opened ToolSchema

  datatype Reason = SimilarNames | SimilarDescriptions

  /** A reported pair: the earlier tool's name first. */
  datatype Pair = Pair(first: string, second: string, reason: Reason)

  /** A separator of name words: `_` or white space. */
  predicate NameSeparator(c: char) {
    c == '_' || IsSpace(c)
  }

  /** A character as the comparison reads it: lower-cased, with `-` and `.` read as `_`. */
  function NormalChar(c: char): char {
    if c == '-' || c == '.' then '_' else LowerChar(c)
  }

  /** The name as the comparison reads it. */
  function NormalName(name: string): (r: string)
    ensures |r| == |name|
    ensures forall k :: 0 <= k < |r| ==> r[k] != '-' && r[k] != '.' && !('A' <= r[k] <= 'Z')
  {
    seq(|name|, k requires 0 <= k < |name| => NormalChar(name[k]))
  }

  predicate NameStopWord(w: string) {
    w == "get" || w == "set" || w == "list" || w == "the" || w == "a"
  }

  /** A description word that counts: not empty and not one of the stop words
      the, a, an, to, of, and, is and in. */
  predicate DescriptionWord(w: string) {
    w != "" && w != "the" && w != "a" && w != "an" && w != "to" && w != "of" && w != "and" && w != "is" && w != "in"
  }

  /** The significant words of a tool name: the pieces of the normal name split
      on runs of separators (which can leave an empty word at either end),
      less the stop words get, set, list, the and a. */
  function NameWords(name: string): (r: set<string>)
    ensures forall w :: w in r ==> !NameStopWord(w)
  {
    set w | w in SplitRuns(NormalName(name), NameSeparator) && !NameStopWord(w)
  }

  /** The significant words of a description: lower-cased, split on white
      space, less the stop words the, a, an, to, of, and, is and in. */
  function DescriptionWords(description: string): (r: set<string>)
    ensures forall w :: w in r ==> DescriptionWord(w)
  {
    set w | w in SplitRuns(Lower(description), IsSpace) && DescriptionWord(w)
  }

  function Max(a: nat, b: nat): nat { if a >= b then a else b }
  function Min(a: nat, b: nat): nat { if a <= b then a else b }

  /** Some word is shared, and more than half of the larger set is shared. */
  predicate NameSetsAlike(wa: set<string>, wb: set<string>) {
    wa * wb != {} && 2 * |wa * wb| > Max(Max(|wa|, |wb|), 1)
  }

  /** Both sets are non-empty and more than 60% of the smaller one is shared. */
  predicate DescriptionSetsAlike(wa: set<string>, wb: set<string>) {
    wa != {} && wb != {} && 5 * |wa * wb| > 3 * Min(|wa|, |wb|)
  }

  predicate NamesAlike(a: string, b: string) {
    NameSetsAlike(NameWords(a), NameWords(b))
  }

  predicate DescriptionsAlike(a: string, b: string) {
    DescriptionSetsAlike(DescriptionWords(a), DescriptionWords(b))
  }

  /** Names are read as strings; a description is read as a string only when
      both are non-empty and the names did not already match. */
  predicate PairReadable(a: ToolRecord, b: ToolRecord) {
    && a.name.Str? && b.name.Str?
    && (!NamesAlike(a.name.s, b.name.s) && Truthy(a.description) && Truthy(b.description) ==>
          a.description.Str? && b.description.Str?)
  }

  /** Why two tools overlap, if they do; a name match takes precedence. */
  function Classify(a: ToolRecord, b: ToolRecord): (r: Option<Reason>)
    requires PairReadable(a, b)
    ensures r == Some(SimilarNames) <==> NamesAlike(a.name.s, b.name.s)
    ensures r == Some(SimilarDescriptions) <==>
              && !NamesAlike(a.name.s, b.name.s)
              && Truthy(a.description) && Truthy(b.description)
              && DescriptionsAlike(a.description.s, b.description.s)
  {
    Judge(ProfileOf(a), ProfileOf(b))
  }

  /** The pair `(i, j)` of `tools` can be compared. */
  predicate PairReadableAt(tools: seq<ToolRecord>, i: nat, j: nat)
    requires i < j < |tools|
  {
    PairReadable(tools[i], tools[j])
  }

  predicate AllPairsReadable(tools: seq<ToolRecord>) {
    forall i: nat, j: nat {:trigger PairReadableAt(tools, i, j)} :: i < j < |tools| ==> PairReadableAt(tools, i, j)
  }

  // ---------------------------------------------------------------------------
  // The pairwise scan, over the words of each tool computed once
  // ---------------------------------------------------------------------------

  /** What the comparison needs of one tool. */
  datatype Profile = Profile(name: string, words: set<string>, described: bool, descriptionWords: set<string>)

  function ProfileOf(t: ToolRecord): Profile {
    Profile(
      if t.name.Str? then t.name.s else "",
      if t.name.Str? then NameWords(t.name.s) else {},
      Truthy(t.description),
      if t.description.Str? then DescriptionWords(t.description.s) else {})
  }

  function Profiles(tools: seq<ToolRecord>): (r: seq<Profile>)
    ensures |r| == |tools|
  {
    if |tools| == 0 then [] else [ProfileOf(tools[0])] + Profiles(tools[1..])
  }

  lemma {:induction false} ProfilesAt(tools: seq<ToolRecord>, k: nat)
    requires k < |tools|
    ensures Profiles(tools)[k] == ProfileOf(tools[k])
  {
    if k > 0 {
      ProfilesAt(tools[1..], k - 1);
    }
  }

  function Judge(a: Profile, b: Profile): Option<Reason> {
    if NameSetsAlike(a.words, b.words) then Some(SimilarNames)
    else if a.described && b.described && DescriptionSetsAlike(a.descriptionWords, b.descriptionWords) then
      Some(SimilarDescriptions)
    else None
  }

  /** The report for the pair `(i, j)`: empty or one pair. */
  function Report(ps: seq<Profile>, i: nat, j: nat): (r: seq<Pair>)
    requires i < j < |ps|
    ensures |r| <= 1
  {
    match Judge(ps[i], ps[j])
    case Some(reason) => [Pair(ps[i].name, ps[j].name, reason)]
    case None => []
  }

  /** Reports for `(i, j)` with `lo <= j < hi`, in increasing `j`. */
  function Row(ps: seq<Profile>, i: nat, lo: nat, hi: nat): seq<Pair>
    requires i < lo <= hi <= |ps|
    decreases hi - lo
  {
    if hi == lo then [] else Row(ps, i, lo, hi - 1) + Report(ps, i, hi - 1)
  }

  /** Reports of the rows `i < hi`, row by row. */
  function Rows(ps: seq<Profile>, hi: nat): seq<Pair>
    requires hi <= |ps|
  {
    if hi == 0 then [] else Rows(ps, hi - 1) + Row(ps, hi - 1, hi, |ps|)
  }

  predicate Reports(ps: seq<Profile>, p: Pair, i: nat, j: nat)
    requires i < j < |ps|
  {
    Judge(ps[i], ps[j]) == Some(p.reason) && p.first == ps[i].name && p.second == ps[j].name
  }

  /** Every pair in row `i` comes from some later tool `j`, returned. */
  lemma {:induction false} RowSound(ps: seq<Profile>, i: nat, lo: nat, hi: nat, k: nat) returns (j: nat)
    requires i < lo <= hi <= |ps| && k < |Row(ps, i, lo, hi)|
    ensures lo <= j < hi && Reports(ps, Row(ps, i, lo, hi)[k], i, j)
    decreases hi - lo
  {
    var prev := Row(ps, i, lo, hi - 1);
    if k < |prev| {
      j := RowSound(ps, i, lo, hi - 1, k);
    } else {
      j := hi - 1;
    }
  }

  /** Every tool `j` in range that overlaps tool `i` is in row `i`, at the index returned. */
  lemma {:induction false} RowComplete(ps: seq<Profile>, i: nat, lo: nat, hi: nat, j: nat, p: Pair) returns (k: nat)
    requires i < lo <= j < hi <= |ps| && Reports(ps, p, i, j)
    ensures k < |Row(ps, i, lo, hi)| && Row(ps, i, lo, hi)[k] == p
    decreases hi - lo
  {
    if j < hi - 1 {
      k := RowComplete(ps, i, lo, hi - 1, j, p);
    } else {
      k := |Row(ps, i, lo, hi - 1)|;
    }
  }

  lemma {:induction false} RowsSound(ps: seq<Profile>, hi: nat, k: nat) returns (i: nat, j: nat)
    requires hi <= |ps| && k < |Rows(ps, hi)|
    ensures i < j < |ps| && i < hi && Reports(ps, Rows(ps, hi)[k], i, j)
  {
    var prev := Rows(ps, hi - 1);
    if k < |prev| {
      i, j := RowsSound(ps, hi - 1, k);
    } else {
      i := hi - 1;
      j := RowSound(ps, i, hi, |ps|, k - |prev|);
    }
  }

  lemma {:induction false} RowsComplete(ps: seq<Profile>, hi: nat, i: nat, j: nat, p: Pair) returns (k: nat)
    requires i < hi <= |ps| && i < j < |ps| && Reports(ps, p, i, j)
    ensures k < |Rows(ps, hi)| && Rows(ps, hi)[k] == p
  {
    if i < hi - 1 {
      k := RowsComplete(ps, hi - 1, i, j, p);
    } else {
      var m := RowComplete(ps, i, hi, |ps|, j, p);
      k := |Rows(ps, hi - 1)| + m;
    }
  }

  /** For a readable pair, the profiles judge as the tools would be classified. */
  lemma JudgeAgrees(tools: seq<ToolRecord>, p: Pair, i: nat, j: nat)
    requires i < j < |tools| && AllPairsReadable(tools)
    ensures Reports(Profiles(tools), p, i, j) <==> Reported(tools, p, i, j)
  {
    assert PairReadableAt(tools, i, j);
    ProfilesAt(tools, i);
    ProfilesAt(tools, j);
  }

  /** What the report of pair `(i, j)` holds, stated from the classification. */
  predicate Reported(tools: seq<ToolRecord>, p: Pair, i: nat, j: nat)
    requires i < j < |tools| && AllPairsReadable(tools)
  {
    assert PairReadableAt(tools, i, j);
    && Classify(tools[i], tools[j]) == Some(p.reason)
    && p.first == tools[i].name.s && p.second == tools[j].name.s
  }

  /** The reports of row `i`, pair by pair. */
  method ScanRow(ps: seq<Profile>, i: nat) returns (row: seq<Pair>)
    requires i < |ps|
    ensures row == Row(ps, i, i + 1, |ps|)
  {
    row := [];
    var j := i + 1;
    while j < |ps|
      invariant i + 1 <= j <= |ps|
      invariant row == Row(ps, i, i + 1, j)
    {
      row := row + Report(ps, i, j);
      j := j + 1;
    }
  }

  /** Every overlapping pair `i < j`, ordered by `i` and then by `j`: a pair is
      reported exactly when some tool overlaps a later one for that reason,
      the earlier tool named first. */
  method FindOverlaps(tools: seq<ToolRecord>) returns (pairs: seq<Pair>)
    requires AllPairsReadable(tools)
    ensures pairs == Rows(Profiles(tools), |tools|)
    ensures forall p :: p in pairs <==>
              exists i, j :: 0 <= i < j < |tools| && Reported(tools, p, i, j)
  {
    var ps := Profiles(tools);
    pairs := [];
    var i := 0;
    while i < |ps|
      invariant i <= |ps|
      invariant pairs == Rows(ps, i)
    {
      var row := ScanRow(ps, i);
      pairs := pairs + row;
      i := i + 1;
    }
    forall p
      ensures p in pairs <==> exists i, j :: 0 <= i < j < |tools| && Reported(tools, p, i, j)
    {
      ScanMembers(tools, p);
    }
  }

  lemma ScanMembers(tools: seq<ToolRecord>, p: Pair)
    requires AllPairsReadable(tools)
    ensures p in Rows(Profiles(tools), |tools|) <==>
              exists i, j :: 0 <= i < j < |tools| && Reported(tools, p, i, j)
  {
    var ps := Profiles(tools);
    var pairs := Rows(ps, |ps|);
    if p in pairs {
      var k :| 0 <= k < |pairs| && pairs[k] == p;
      var i, j := ScanSound(tools, k);
      assert Reported(tools, p, i, j);
    }
    if exists i, j :: 0 <= i < j < |tools| && Reported(tools, p, i, j) {
      var i, j :| 0 <= i < j < |tools| && Reported(tools, p, i, j);
      ScanComplete(tools, p, i, j);
    }
  }

  lemma ScanSound(tools: seq<ToolRecord>, k: nat) returns (i: nat, j: nat)
    requires AllPairsReadable(tools) && k < |Rows(Profiles(tools), |tools|)|
    ensures i < j < |tools| && Reported(tools, Rows(Profiles(tools), |tools|)[k], i, j)
  {
    var ps := Profiles(tools);
    i, j := RowsSound(ps, |ps|, k);
    JudgeAgrees(tools, Rows(ps, |ps|)[k], i, j);
  }

  lemma ScanComplete(tools: seq<ToolRecord>, p: Pair, i: nat, j: nat)
    requires AllPairsReadable(tools) && i < j < |tools| && Reported(tools, p, i, j)
    ensures p in Rows(Profiles(tools), |tools|)
  {
    var ps := Profiles(tools);
    JudgeAgrees(tools, p, i, j);
    var k := RowsComplete(ps, |ps|, i, j, p);
  }

  // ---------------------------------------------------------------------------
  // Properties
  // ---------------------------------------------------------------------------

  /** The judgement does not depend on which tool comes first. */
  lemma ClassifySymmetric(a: ToolRecord, b: ToolRecord)
    requires PairReadable(a, b) && PairReadable(b, a)
    ensures Classify(a, b) == Classify(b, a)
  {
    JudgeSymmetric(ProfileOf(a), ProfileOf(b));
  }

  lemma JudgeSymmetric(x: Profile, y: Profile)
    ensures Judge(x, y) == Judge(y, x)
  {
    assert x.words * y.words == y.words * x.words;
    assert x.descriptionWords * y.descriptionWords == y.descriptionWords * x.descriptionWords;
  }

  /** The name words of `a_b` for lower-case words without separators. */
  lemma TwoWordName(a: string, b: string)
    requires forall k :: 0 <= k < |a| ==> 'a' <= a[k] <= 'z'
    requires forall k :: 0 <= k < |b| ==> 'a' <= b[k] <= 'z'
    requires |b| > 0
    ensures NameWords(a + "_" + b) == set w | w in [a, b] && !NameStopWord(w)
  {
    var n := a + "_" + b;
    assert NormalName(n) == n by {
      forall k | 0 <= k < |n|
        ensures NormalName(n)[k] == n[k]
      {
        if k < |a| { assert n[k] == a[k]; }
        else if k > |a| { assert n[k] == b[k - |a| - 1]; }
      }
    }
    SplitRunsTwoWords(a, '_', b, NameSeparator);
  }

  predicate LowerWord(w: string) {
    |w| > 0 && (forall k :: 0 <= k < |w| ==> 'a' <= w[k] <= 'z') && !NameStopWord(w)
  }

  /** Tools whose names share only a stop word are not alike by name
      (`get_weather` and `get_forecast`). */
  lemma SharedStopWordDoesNotMatch(s: string, a: string, b: string)
    requires NameStopWord(s)
    requires LowerWord(a) && LowerWord(b) && a != b
    ensures !NamesAlike(s + "_" + a, s + "_" + b)
  {
    TwoWordName(s, a);
    TwoWordName(s, b);
    assert NameWords(s + "_" + a) == {a};
    assert NameWords(s + "_" + b) == {b};
    assert {a} * {b} == {};
  }

  /** One shared word out of two on each side is exactly half, which is not
      more than half (`search_restaurants` and `find_restaurants`). */
  lemma HalfSharedIsNotAlike(a: string, b: string, c: string)
    requires LowerWord(a) && LowerWord(b) && LowerWord(c)
    requires a != b && a != c && b != c
    ensures !NamesAlike(a + "_" + c, b + "_" + c)
  {
    TwoWordName(a, c);
    TwoWordName(b, c);
    assert NameWords(a + "_" + c) == {a, c} && NameWords(b + "_" + c) == {b, c};
    HalfSharedSets(a, b, c);
  }

  lemma HalfSharedSets(a: string, b: string, c: string)
    requires a != b && a != c && b != c
    ensures !NameSetsAlike({a, c}, {b, c})
  {
    assert |{a, c}| == 2 && |{b, c}| == 2;
    assert {a, c} * {b, c} == {c};
  }

  /** Names that read the same once normalised (`Read-File` and `read.file`)
      are alike whenever they have a significant word. */
  lemma SameNormalNameIsAlike(x: string, y: string)
    requires NormalName(x) == NormalName(y)
    requires NameWords(x) != {}
    ensures NamesAlike(x, y)
  {
    var w := NameWords(x);
    assert NameWords(y) == w;
    assert w * w == w;
    assert |w| >= 1;
  }

  /** Case, dashes and dots do not change the normal name. */
  lemma SpellingVariants()
    ensures NormalName("Read-File") == NormalName("read.file") == "read_file"
  {
  }
}

=== FILE: redundancy.dfy ===
/** The redundancy detector of the context analyser: per document, duplicate lines,
    repeated three-word phrases, excessive blank lines and overlong lines.
    Issues are returned as structured values; the human-readable detail strings
    of the source are rendering and are not modelled. */
module Redundancy {
  import opened Text
  import Sorting
  import opened Arith

  /** Line numbers are 1-based, as in the source's issue text. */
  datatype Issue =
    | DuplicateLine(line: nat, original: nat)
    | RepeatedPhrase(phrase: string, count: nat)
    | ExcessiveWhitespace(blank: nat, percent: nat)
    | LongLines(count: nat)

  /** The order in which the detector emits issue kinds. */
  function KindRank(i: Issue): nat {
    match i
    case DuplicateLine(_, _) => 0
    case RepeatedPhrase(_, _) => 1
    case ExcessiveWhitespace(_, _) => 2
    case LongLines(_) => 3
  }

  /** `text.split("\n")`: even the empty text has one (empty) line. */
  function Lines(text: string): (r: seq<string>)
    ensures |r| >= 1
  {
    SplitOn(text, '\n')
  }

  // ---------------------------------------------------------------------------
  // Duplicate lines
  // ---------------------------------------------------------------------------

  /** Each line with surrounding whitespace removed: the scan compares these. */
  function StrippedLines(lines: seq<string>): (r: seq<string>)
    ensures |r| == |lines|
    ensures forall k :: 0 <= k < |lines| ==> r[k] == Strip(lines[k])
  {
    seq(|lines|, k requires 0 <= k < |lines| => Strip(lines[k]))
  }

  /** Only lines whose stripped form is longer than 20 characters are compared. */
  predicate Tracked(key: string) {
    |key| > 20
  }

  /** Index of the first stripped line equal to `key`, or `|keys|` if none is. */
  function FirstMatch(keys: seq<string>, key: string): (r: nat)
    ensures r <= |keys|
    ensures r < |keys| ==> keys[r] == key
    ensures forall j :: 0 <= j < r ==> keys[j] != key
  {
    FirstMatchFrom(keys, key, 0)
  }

  function FirstMatchFrom(keys: seq<string>, key: string, from: nat): (r: nat)
    requires from <= |keys|
    ensures from <= r <= |keys|
    ensures r < |keys| ==> keys[r] == key
    ensures forall j :: from <= j < r ==> keys[j] != key
    decreases |keys| - from
  {
    if from == |keys| then from
    else if keys[from] == key then from
    else FirstMatchFrom(keys, key, from + 1)
  }

  /** The issue (if any) raised by line `i`: it repeats an earlier tracked line. */
  function DuplicateAt(keys: seq<string>, i: nat): seq<Issue>
    requires i < |keys|
  {
    var first := FirstMatch(keys, keys[i]);
    if Tracked(keys[i]) && first < i then [DuplicateLine(i + 1, first + 1)] else []
  }

  /** `issue` reports a tracked line among the first `n` that repeats an earlier
      line, naming the first line with the same stripped content. */
  predicate ReportsDuplicate(keys: seq<string>, n: nat, issue: Issue) {
    && issue.DuplicateLine?
    && 1 <= issue.original < issue.line <= n <= |keys|
    && Tracked(keys[issue.line - 1])
    && keys[issue.original - 1] == keys[issue.line - 1]
    && issue.original - 1 == FirstMatch(keys, keys[issue.line - 1])
  }

  /** Duplicate-line issues raised by the first `n` lines: each reports a
      duplicate, and they come in line order. */
  function DuplicatesBefore(keys: seq<string>, n: nat): (r: seq<Issue>)
    requires n <= |keys|
    ensures forall k :: 0 <= k < |r| ==> ReportsDuplicate(keys, n, r[k])
  {
    if n == 0 then []
    else
      var prev := DuplicatesBefore(keys, n - 1);
      var r := prev + DuplicateAt(keys, n - 1);
      assert forall k :: 0 <= k < |prev| ==> r[k] == prev[k] && ReportsDuplicate(keys, n, prev[k]);
      r
  }

  /** Duplicate-line issues of a document, one per tracked line that repeats an earlier one. */
  function DuplicateLines(lines: seq<string>): seq<Issue> {
    var keys := StrippedLines(lines);
    DuplicatesBefore(keys, |keys|)
  }

  /** Duplicate-line issues come in strictly increasing line order. */
  lemma {:induction false} DuplicatesInLineOrder(keys: seq<string>, n: nat)
    requires n <= |keys|
    ensures forall k, m :: 0 <= k < m < |DuplicatesBefore(keys, n)| ==>
              DuplicatesBefore(keys, n)[k].line < DuplicatesBefore(keys, n)[m].line
  {
    if n > 0 {
      DuplicatesInLineOrder(keys, n - 1);
      var prev := DuplicatesBefore(keys, n - 1);
      var r := DuplicatesBefore(keys, n);
      assert r == prev + DuplicateAt(keys, n - 1);
      forall k, m | 0 <= k < m < |r|
        ensures r[k].line < r[m].line
      {
        if m >= |prev| {
          var d := DuplicateAt(keys, n - 1);
          assert |d| == 1 && d[0].line == n;
          assert r[m] == d[m - |prev|];
          assert r[k] == prev[k];
          assert ReportsDuplicate(keys, n - 1, prev[k]);
        } else {
          assert r[k] == prev[k] && r[m] == prev[m];
        }
      }
    }
  }

  /** The issues of the first `n + 1` lines are those of the first `n` and then line `n`'s. */
  lemma DuplicatesStep(keys: seq<string>, n: nat)
    requires n < |keys|
    ensures DuplicatesBefore(keys, n + 1) == DuplicatesBefore(keys, n) + DuplicateAt(keys, n)
  {
  }

  /** Every tracked line among the first `n` whose stripped content already
      occurred on an earlier line is reported, naming the first such line. */
  lemma {:induction false} DuplicatesComplete(keys: seq<string>, n: nat, i: nat, j: nat) returns (k: nat)
    requires j < i < n <= |keys|
    requires Tracked(keys[i]) && keys[j] == keys[i]
    ensures k < |DuplicatesBefore(keys, n)|
    ensures DuplicatesBefore(keys, n)[k] == DuplicateLine(i + 1, FirstMatch(keys, keys[i]) + 1)
  {
    var prev := DuplicatesBefore(keys, n - 1);
    DuplicatesStep(keys, n - 1);
    if i == n - 1 {
      assert FirstMatch(keys, keys[i]) <= j;
      assert DuplicateAt(keys, i) == [DuplicateLine(i + 1, FirstMatch(keys, keys[i]) + 1)];
      k := |prev|;
    } else {
      k := DuplicatesComplete(keys, n - 1, i, j);
    }
  }

  /** What the `seen` map of the scan knows after `i` lines: a stripped key is
      present exactly when it occurred on a tracked line, mapped to its first line. */
  predicate SeenAfter(keys: seq<string>, seen: map<string, nat>, i: nat)
    requires i <= |keys|
  {
    && (forall key :: key in seen ==> seen[key] < i && seen[key] == FirstMatch(keys, key))
    && (forall j :: 0 <= j < i && Tracked(keys[j]) ==> keys[j] in seen)
  }

  /** A tracked line already in `seen` raises the duplicate issue naming its first line. */
  lemma ScanRepeat(keys: seq<string>, seen: map<string, nat>, i: nat, issues: seq<Issue>, issue: Issue)
    requires i < |keys| && SeenAfter(keys, seen, i)
    requires Tracked(keys[i]) && keys[i] in seen
    requires issues == DuplicatesBefore(keys, i) && issue == DuplicateLine(i + 1, seen[keys[i]] + 1)
    ensures DuplicatesBefore(keys, i + 1) == issues + [issue]
    ensures SeenAfter(keys, seen, i + 1)
  {
    DuplicatesStep(keys, i);
  }

  /** A tracked line not yet in `seen` raises nothing and is recorded as its own first line. */
  lemma ScanFirst(keys: seq<string>, seen: map<string, nat>, i: nat)
    requires i < |keys| && SeenAfter(keys, seen, i)
    requires Tracked(keys[i]) && keys[i] !in seen
    ensures DuplicatesBefore(keys, i + 1) == DuplicatesBefore(keys, i)
    ensures SeenAfter(keys, seen[keys[i] := i], i + 1)
  {
    DuplicatesStep(keys, i);
    assert FirstMatch(keys, keys[i]) == i;
  }

  /** A short line raises nothing and leaves `seen` alone. */
  lemma ScanUntracked(keys: seq<string>, seen: map<string, nat>, i: nat)
    requires i < |keys| && SeenAfter(keys, seen, i)
    requires !Tracked(keys[i])
    ensures DuplicatesBefore(keys, i + 1) == DuplicatesBefore(keys, i)
    ensures SeenAfter(keys, seen, i + 1)
  {
    DuplicatesStep(keys, i);
  }

  /** One iteration of the source's scan over line `i`, whose stripped content
      is `stripped`: a tracked line already in `seen` raises an issue naming its
      first line, a new tracked line is recorded, a short line is skipped. */
  method ScanLine(keys: seq<string>, seen: map<string, nat>, issues: seq<Issue>, i: nat, stripped: string)
    returns (seen': map<string, nat>, issues': seq<Issue>)
    requires i < |keys| && stripped == keys[i]
    requires issues == DuplicatesBefore(keys, i) && SeenAfter(keys, seen, i)
    ensures issues' == DuplicatesBefore(keys, i + 1) && SeenAfter(keys, seen', i + 1)
  {
    seen', issues' := seen, issues;
    if |stripped| > 20 {
      if stripped in seen {
        var issue := DuplicateLine(i + 1, seen[stripped] + 1);
        ScanRepeat(keys, seen, i, issues, issue);
        issues' := issues + [issue];
      } else {
        ScanFirst(keys, seen, i);
        seen' := seen[stripped := i];
      }
    } else {
      ScanUntracked(keys, seen, i);
    }
  }

  /** The source's scan: a `seen` map from stripped line to the index where it
      first appeared. It raises exactly the issues of the reference definition. */
  method ScanDuplicateLines(lines: seq<string>) returns (issues: seq<Issue>)
    ensures issues == DuplicateLines(lines)
  {
    var keys := StrippedLines(lines);
    var seen: map<string, nat> := map[];
    issues := [];
    var i := 0;
    while i < |lines|
      invariant 0 <= i <= |lines| == |keys|
      invariant issues == DuplicatesBefore(keys, i)
      invariant SeenAfter(keys, seen, i)
    {
      seen, issues := ScanLine(keys, seen, issues, i, Strip(lines[i]));
      i := i + 1;
    }
  }

  // ---------------------------------------------------------------------------
  // Repeated phrases
  // ---------------------------------------------------------------------------

  function Trigram(a: string, b: string, c: string): string {
    a + " " + b + " " + c
  }

  /** Every window of three consecutive words, joined by single spaces, that is
      longer than 15 characters, in order of position. */
  function Trigrams(words: seq<string>): (r: seq<string>)
    ensures forall k :: 0 <= k < |r| ==> |r[k]| > 15
    ensures |r| <= (if |words| < 3 then 0 else |words| - 2)
  {
    if |words| < 3 then []
    else
      var t := Trigram(words[0], words[1], words[2]);
      (if |t| > 15 then [t] else []) + Trigrams(words[1..])
  }

  /** Every window of three consecutive words (`words[i:i + 3]` for each `i`), joined. */
  function Windows(words: seq<string>): (r: seq<string>)
    ensures |r| == (if |words| < 3 then 0 else |words| - 2)
    ensures forall j :: 0 <= j < |r| ==> r[j] == Trigram(words[j], words[j + 1], words[j + 2])
  {
    if |words| < 3 then []
    else seq(|words| - 2, j requires 0 <= j < |words| - 2 => Trigram(words[j], words[j + 1], words[j + 2]))
  }

  predicate LongPhrase(t: string) {
    |t| > 15
  }

  lemma WindowsCons(words: seq<string>)
    requires |words| >= 3
    ensures Windows(words) == [Trigram(words[0], words[1], words[2])] + Windows(words[1..])
  {
    var w := Windows(words);
    var rest := Windows(words[1..]);
    assert |w| == 1 + |rest|;
    forall j | 0 < j < |w| ensures w[j] == rest[j - 1] {
      assert words[1..][j - 1] == words[j];
      assert words[1..][j] == words[j + 1];
      assert words[1..][j + 1] == words[j + 2];
    }
  }

  /** The counted trigrams are exactly the windows longer than 15 characters, in order. */
  lemma {:induction false} TrigramsAreLongWindows(words: seq<string>)
    ensures Trigrams(words) == Sorting.Filter(Windows(words), LongPhrase)
  {
    if |words| >= 3 {
      WindowsCons(words);
      Sorting.FilterCons(Trigram(words[0], words[1], words[2]), Windows(words[1..]), LongPhrase);
      TrigramsAreLongWindows(words[1..]);
    }
  }

  /** A phrase longer than 15 characters is counted once per window that spells it. */
  lemma TrigramCount(words: seq<string>, p: string)
    requires |p| > 15
    ensures multiset(Trigrams(words))[p] == multiset(Windows(words))[p]
  {
    TrigramsAreLongWindows(words);
    Sorting.FilterMultiplicity(Windows(words), LongPhrase, p);
  }

  /** The trigrams of the lower-cased text. */
  function PhraseTrigrams(text: string): seq<string> {
    Trigrams(Words(Lower(text)))
  }

  /** A distinct trigram, its number of occurrences, and the position of its
      first occurrence in the trigram list: the insertion order of the
      source's counting dict. */
  datatype Tally = Tally(phrase: string, count: nat, rank: nat)

  /** The distinct trigrams in order of first occurrence, each with its count. */
  function Tallies(tris: seq<string>): (r: seq<Tally>)
    ensures forall t :: t in r ==> t.rank == FirstIndex(tris, t.phrase)
    ensures forall i, j :: 0 <= i < j < |r| ==> r[i].rank < r[j].rank
    ensures forall t :: t in r ==> t.phrase in tris && t.count == multiset(tris)[t.phrase]
    ensures forall p :: p in tris ==> exists t :: t in r && t.phrase == p
    ensures forall t, u :: t in r && u in r && t.phrase == u.phrase ==> t == u
  {
    var d := Dedup(tris);
    var r := seq(|d|, k requires 0 <= k < |d| => Tally(d[k], multiset(tris)[d[k]], FirstIndex(tris, d[k])));
    assert forall p :: p in tris ==> exists k :: 0 <= k < |d| && d[k] == p && r[k].phrase == p;
    r
  }

  /** Higher count first; equal counts keep first-occurrence order (the source
      sorts by `-count` with Python's stable sort). */
  predicate TallyBefore(a: Tally, b: Tally) {
    a.count > b.count || (a.count == b.count && a.rank < b.rank)
  }

  lemma TallyBeforeTransitive()
    ensures Sorting.Transitive(TallyBefore)
  {
  }

  /** The distinct trigrams in reporting order: by non-increasing count, ties in
      first-occurrence order; each carries its true number of occurrences. */
  function RankedTallies(tris: seq<string>): (r: seq<Tally>)
    ensures Sorting.SortedBy(r, TallyBefore)
    ensures forall t :: t in r ==> t.rank == FirstIndex(tris, t.phrase)
    ensures forall t :: t in r ==> t.phrase in tris && t.count == multiset(tris)[t.phrase]
    ensures forall p :: p in tris ==> exists t :: t in r && t.phrase == p
    ensures forall t, u :: t in r && u in r && t.phrase == u.phrase ==> t == u
  {
    var ts := Tallies(tris);
    TallyBeforeTransitive();
    Sorting.SortByIsSorted(ts, TallyBefore);
    var r := Sorting.SortBy(ts, TallyBefore);
    assert forall t :: t in r <==> t in multiset(ts);
    r
  }

  /** The source's emission loop: report each tally seen at least three times,
      stopping as soon as the issue list (which already holds `issued` issues)
      reaches ten entries. The test comes after the append, so one phrase is
      reported even when ten or more issues are already present. */
  function EmitPhrases(ranked: seq<Tally>, issued: nat): (r: seq<Issue>)
    ensures forall k :: 0 <= k < |r| ==> r[k].RepeatedPhrase?
  {
    if |ranked| == 0 then []
    else if ranked[0].count >= 3 then
      var issue := RepeatedPhrase(ranked[0].phrase, ranked[0].count);
      if issued + 1 >= 10 then [issue] else [issue] + EmitPhrases(ranked[1..], issued + 1)
    else EmitPhrases(ranked[1..], issued)
  }

  /** The tallies seen at least three times, in order. */
  function Frequent(ranked: seq<Tally>): (r: seq<Tally>)
    ensures forall t :: t in r <==> t in ranked && t.count >= 3
  {
    if |ranked| == 0 then []
    else (if ranked[0].count >= 3 then [ranked[0]] else []) + Frequent(ranked[1..])
  }

  /** How many phrase issues can follow `issued` earlier issues. */
  function PhraseCap(issued: nat): nat {
    if issued < 10 then 10 - issued else 1
  }

  function AsIssues(ts: seq<Tally>): (r: seq<Issue>)
    ensures |r| == |ts|
    ensures forall k :: 0 <= k < |ts| ==> r[k] == RepeatedPhrase(ts[k].phrase, ts[k].count)
  {
    seq(|ts|, k requires 0 <= k < |ts| => RepeatedPhrase(ts[k].phrase, ts[k].count))
  }

  /** The first `cap` elements of `ts`, or all of them when there are fewer. */
  function Capped(ts: seq<Tally>, cap: nat): (r: seq<Tally>)
    ensures |r| == (if |ts| < cap then |ts| else cap)
    ensures r == ts[..|r|]
  {
    if |ts| < cap then ts else ts[..cap]
  }

  lemma CappedCons(t: Tally, g: seq<Tally>, cap: nat)
    requires cap >= 1
    ensures Capped([t] + g, cap) == if cap == 1 then [t] else [t] + Capped(g, cap - 1)
  {
    var c := Capped([t] + g, cap);
    if cap == 1 {
      assert c == ([t] + g)[..1];
    } else {
      var d := Capped(g, cap - 1);
      assert |c| == 1 + |d|;
      forall k | 0 <= k < |c| ensures c[k] == ([t] + d)[k] {
        if k > 0 {
          assert c[k] == ([t] + g)[k] == g[k - 1];
          assert d[k - 1] == g[k - 1];
        }
      }
    }
  }

  lemma AsIssuesCons(t: Tally, c: seq<Tally>)
    ensures AsIssues([t] + c) == [RepeatedPhrase(t.phrase, t.count)] + AsIssues(c)
  {
    var l := AsIssues([t] + c);
    var r := [RepeatedPhrase(t.phrase, t.count)] + AsIssues(c);
    forall k | 0 <= k < |l| ensures l[k] == r[k] {
      if k > 0 {
        assert ([t] + c)[k] == c[k - 1];
      }
    }
  }

  /** The emission loop with its early exit reports exactly the first
      `PhraseCap(issued)` frequent tallies. */
  lemma {:induction false} EmitPhrasesIsCappedPrefix(ranked: seq<Tally>, issued: nat)
    ensures EmitPhrases(ranked, issued) == AsIssues(Capped(Frequent(ranked), PhraseCap(issued)))
  {
    if |ranked| > 0 {
      var t := ranked[0];
      var g := Frequent(ranked[1..]);
      if t.count >= 3 {
        assert Frequent(ranked) == [t] + g;
        CappedCons(t, g, PhraseCap(issued));
        AsIssuesCons(t, Capped(g, PhraseCap(issued) - 1));
        if issued + 1 < 10 {
          EmitPhrasesIsCappedPrefix(ranked[1..], issued + 1);
        }
      } else {
        assert Frequent(ranked) == g;
        EmitPhrasesIsCappedPrefix(ranked[1..], issued);
      }
    }
  }

  lemma {:induction false} FrequentSorted(ranked: seq<Tally>)
    requires Sorting.SortedBy(ranked, TallyBefore)
    ensures Sorting.SortedBy(Frequent(ranked), TallyBefore)
  {
    if |ranked| > 0 {
      var tail := ranked[1..];
      assert Sorting.SortedBy(tail, TallyBefore) by {
        forall i, j | 0 <= i < j < |tail| ensures TallyBefore(tail[i], tail[j]) {
          assert tail[i] == ranked[i + 1] && tail[j] == ranked[j + 1];
        }
      }
      FrequentSorted(tail);
      var g := Frequent(tail);
      forall k | 0 <= k < |g| ensures TallyBefore(ranked[0], g[k]) {
        assert g[k] in tail;
        var m :| 0 <= m < |tail| && tail[m] == g[k];
        assert ranked[m + 1] == g[k];
      }
    }
  }

  /** Each phrase issue names a long trigram seen at least three times, with its count. */
  lemma PhrasesSound(text: string, issued: nat)
    ensures forall k :: 0 <= k < |EmitPhrases(RankedTallies(PhraseTrigrams(text)), issued)| ==>
              var t := EmitPhrases(RankedTallies(PhraseTrigrams(text)), issued)[k];
              && t.RepeatedPhrase? && |t.phrase| > 15 && t.count >= 3
              && t.count == multiset(PhraseTrigrams(text))[t.phrase]
  {
    var tris := PhraseTrigrams(text);
    var ranked := RankedTallies(tris);
    var cap := PhraseCap(issued);
    var c := Capped(Frequent(ranked), cap);
    EmitPhrasesIsCappedPrefix(ranked, issued);
    CappedSound(tris, ranked, cap);
    var r := EmitPhrases(ranked, issued);
    forall k | 0 <= k < |r|
      ensures r[k].RepeatedPhrase? && |r[k].phrase| > 15 && r[k].count >= 3
      ensures r[k].count == multiset(tris)[r[k].phrase]
    {
      assert r[k].phrase == c[k].phrase && r[k].count == c[k].count;
      var m :| 0 <= m < |tris| && tris[m] == c[k].phrase;
    }
  }

  /** Phrase issues come by non-increasing count, equal counts in order of
      first occurrence, no phrase twice. */
  lemma PhrasesOrdered(tris: seq<string>, issued: nat)
    ensures forall i, j :: 0 <= i < j < |EmitPhrases(RankedTallies(tris), issued)| ==>
              var a, b := EmitPhrases(RankedTallies(tris), issued)[i], EmitPhrases(RankedTallies(tris), issued)[j];
              && (a.count > b.count || (a.count == b.count && FirstIndex(tris, a.phrase) < FirstIndex(tris, b.phrase)))
              && a.phrase != b.phrase
  {
    var ranked := RankedTallies(tris);
    var cap := PhraseCap(issued);
    var c := Capped(Frequent(ranked), cap);
    EmitPhrasesIsCappedPrefix(ranked, issued);
    CappedOrdered(ranked, cap);
    var r := EmitPhrases(ranked, issued);
    forall i, j | 0 <= i < j < |r|
      ensures r[i].count > r[j].count || (r[i].count == r[j].count && FirstIndex(tris, r[i].phrase) < FirstIndex(tris, r[j].phrase))
      ensures r[i].phrase != r[j].phrase
    {
      assert r[i].phrase == c[i].phrase && r[i].count == c[i].count;
      assert r[j].phrase == c[j].phrase && r[j].count == c[j].count;
      assert c[i] in ranked && c[j] in ranked;
    }
  }

  /** A tally whose issue is not reported lies past a cap that was reached. */
  lemma BeyondCap(f: seq<Tally>, cap: nat, m: nat)
    requires m < |f| && RepeatedPhrase(f[m].phrase, f[m].count) !in AsIssues(Capped(f, cap))
    ensures |Capped(f, cap)| == cap <= m
  {
    assert m >= |Capped(f, cap)|;
  }

  /** A frequent trigram left out means the cap was reached, and every reported
      phrase outranks it: a higher count, or the same count and an earlier
      first occurrence. */
  lemma PhrasesTopRanked(tris: seq<string>, issued: nat, p: string)
    requires p in tris && multiset(tris)[p] >= 3
    requires RepeatedPhrase(p, multiset(tris)[p]) !in EmitPhrases(RankedTallies(tris), issued)
    ensures var r := EmitPhrases(RankedTallies(tris), issued);
            && |r| == PhraseCap(issued)
            && var last := r[|r| - 1];
               (multiset(tris)[p] < last.count ||
                (multiset(tris)[p] == last.count && FirstIndex(tris, last.phrase) < FirstIndex(tris, p)))
  {
    var ranked := RankedTallies(tris);
    var f := Frequent(ranked);
    EmitPhrasesIsCappedPrefix(ranked, issued);
    FrequentSorted(ranked);
    var t :| t in ranked && t.phrase == p;
    assert t in f;
    var m :| 0 <= m < |f| && f[m] == t;
    CappedMissing(f, PhraseCap(issued), m);
    assert f[PhraseCap(issued) - 1] in ranked;
  }

  /** In a sorted list, a tally missing from the capped issues comes after the
      last one reported, and the cap was reached. */
  lemma CappedMissing(f: seq<Tally>, cap: nat, m: nat)
    requires Sorting.SortedBy(f, TallyBefore) && cap >= 1
    requires m < |f| && RepeatedPhrase(f[m].phrase, f[m].count) !in AsIssues(Capped(f, cap))
    ensures |AsIssues(Capped(f, cap))| == cap <= m
    ensures AsIssues(Capped(f, cap))[cap - 1] == RepeatedPhrase(f[cap - 1].phrase, f[cap - 1].count)
    ensures TallyBefore(f[cap - 1], f[m])
  {
    BeyondCap(f, cap, m);
    assert Capped(f, cap)[cap - 1] == f[cap - 1];
  }

  /** Every frequent trigram left out ranks below the last one reported, so
      the report is exactly the top of the ranking. */
  lemma PhrasesTop(tris: seq<string>, issued: nat)
    ensures forall p :: p in tris && multiset(tris)[p] >= 3 &&
                        RepeatedPhrase(p, multiset(tris)[p]) !in EmitPhrases(RankedTallies(tris), issued) ==>
              var r := EmitPhrases(RankedTallies(tris), issued);
              && |r| == PhraseCap(issued)
              && (multiset(tris)[p] < r[|r| - 1].count ||
                  (multiset(tris)[p] == r[|r| - 1].count && FirstIndex(tris, r[|r| - 1].phrase) < FirstIndex(tris, p)))
  {
    forall p | p in tris && multiset(tris)[p] >= 3 &&
               RepeatedPhrase(p, multiset(tris)[p]) !in EmitPhrases(RankedTallies(tris), issued)
      ensures var r := EmitPhrases(RankedTallies(tris), issued);
              && |r| == PhraseCap(issued)
              && (multiset(tris)[p] < r[|r| - 1].count ||
                  (multiset(tris)[p] == r[|r| - 1].count && FirstIndex(tris, r[|r| - 1].phrase) < FirstIndex(tris, p)))
    {
      PhrasesTopRanked(tris, issued, p);
    }
  }

  /** At most the cap is reported, and below the cap every frequent trigram is. */
  lemma PhrasesComplete(tris: seq<string>, issued: nat)
    ensures |EmitPhrases(RankedTallies(tris), issued)| <= PhraseCap(issued)
    ensures |EmitPhrases(RankedTallies(tris), issued)| < PhraseCap(issued) ==>
              forall p :: p in tris && multiset(tris)[p] >= 3 ==>
                RepeatedPhrase(p, multiset(tris)[p]) in EmitPhrases(RankedTallies(tris), issued)
  {
    var ranked := RankedTallies(tris);
    var cap := PhraseCap(issued);
    EmitPhrasesIsCappedPrefix(ranked, issued);
    var r := EmitPhrases(ranked, issued);
    if |r| < cap {
      forall p | p in tris && multiset(tris)[p] >= 3 ensures RepeatedPhrase(p, multiset(tris)[p]) in r {
        CappedComplete(tris, ranked, cap, p);
      }
    }
  }

  /** Phrase issues for `text` after `issued` earlier issues: at most
      `PhraseCap(issued)` of them, each a trigram longer than 15 characters
      seen at least three times with its exact count, by non-increasing count
      with ties in order of first occurrence, no phrase twice; when fewer than
      the cap are reported every trigram seen at least three times is among
      them, and any such trigram left out ranks below the last one reported. */
  function PhraseIssues(text: string, issued: nat): (r: seq<Issue>)
    ensures |r| <= PhraseCap(issued)
    ensures forall k :: 0 <= k < |r| ==>
              && r[k].RepeatedPhrase?
              && |r[k].phrase| > 15
              && r[k].count >= 3
              && r[k].count == multiset(PhraseTrigrams(text))[r[k].phrase]
    ensures forall i, j :: 0 <= i < j < |r| ==>
              && (r[i].count > r[j].count ||
                  (r[i].count == r[j].count &&
                   FirstIndex(PhraseTrigrams(text), r[i].phrase) < FirstIndex(PhraseTrigrams(text), r[j].phrase)))
              && r[i].phrase != r[j].phrase
    ensures |r| < PhraseCap(issued) ==>
              forall p :: p in PhraseTrigrams(text) && multiset(PhraseTrigrams(text))[p] >= 3 ==>
                RepeatedPhrase(p, multiset(PhraseTrigrams(text))[p]) in r
    ensures forall p :: p in PhraseTrigrams(text) && multiset(PhraseTrigrams(text))[p] >= 3 &&
                        RepeatedPhrase(p, multiset(PhraseTrigrams(text))[p]) !in r ==>
              && |r| == PhraseCap(issued)
              && (multiset(PhraseTrigrams(text))[p] < r[|r| - 1].count ||
                  (multiset(PhraseTrigrams(text))[p] == r[|r| - 1].count &&
                   FirstIndex(PhraseTrigrams(text), r[|r| - 1].phrase) < FirstIndex(PhraseTrigrams(text), p)))
  {
    PhrasesSound(text, issued);
    PhrasesOrdered(PhraseTrigrams(text), issued);
    PhrasesComplete(PhraseTrigrams(text), issued);
    PhrasesTop(PhraseTrigrams(text), issued);
    EmitPhrases(RankedTallies(PhraseTrigrams(text)), issued)
  }

  /** Every reported tally is a frequent trigram of `tris` with its true count. */
  lemma CappedSound(tris: seq<string>, ranked: seq<Tally>, cap: nat)
    requires forall t :: t in ranked ==> t.phrase in tris && t.count == multiset(tris)[t.phrase]
    ensures forall k :: 0 <= k < |Capped(Frequent(ranked), cap)| ==>
              && Capped(Frequent(ranked), cap)[k].phrase in tris
              && Capped(Frequent(ranked), cap)[k].count >= 3
              && Capped(Frequent(ranked), cap)[k].count == multiset(tris)[Capped(Frequent(ranked), cap)[k].phrase]
  {
    var f := Frequent(ranked);
    var c := Capped(f, cap);
    forall k | 0 <= k < |c|
      ensures c[k].phrase in tris && c[k].count >= 3 && c[k].count == multiset(tris)[c[k].phrase]
    {
      assert c[k] == f[k];
      assert f[k] in f;
    }
  }

  /** Reported tallies keep the reporting order and never repeat a phrase. */
  lemma CappedOrdered(ranked: seq<Tally>, cap: nat)
    requires Sorting.SortedBy(ranked, TallyBefore)
    requires forall t, u :: t in ranked && u in ranked && t.phrase == u.phrase ==> t == u
    ensures forall i, j :: 0 <= i < j < |Capped(Frequent(ranked), cap)| ==>
              && TallyBefore(Capped(Frequent(ranked), cap)[i], Capped(Frequent(ranked), cap)[j])
              && Capped(Frequent(ranked), cap)[i].phrase != Capped(Frequent(ranked), cap)[j].phrase
  {
    FrequentSorted(ranked);
    var f := Frequent(ranked);
    var c := Capped(f, cap);
    forall i, j | 0 <= i < j < |c|
      ensures TallyBefore(c[i], c[j]) && c[i].phrase != c[j].phrase
    {
      assert c[i] == f[i] && c[j] == f[j];
      assert TallyBefore(f[i], f[j]);
      assert f[i] in f && f[j] in f;
    }
  }

  /** When fewer than `cap` tallies are reported, no frequent trigram is missing. */
  lemma CappedComplete(tris: seq<string>, ranked: seq<Tally>, cap: nat, p: string)
    requires forall t :: t in ranked ==> t.phrase in tris && t.count == multiset(tris)[t.phrase]
    requires forall q :: q in tris ==> exists t :: t in ranked && t.phrase == q
    requires |Capped(Frequent(ranked), cap)| < cap
    requires p in tris && multiset(tris)[p] >= 3
    ensures RepeatedPhrase(p, multiset(tris)[p]) in AsIssues(Capped(Frequent(ranked), cap))
  {
    var f := Frequent(ranked);
    var c := Capped(f, cap);
    var r := AsIssues(c);
    var t :| t in ranked && t.phrase == p;
    assert t in f;
    var k :| 0 <= k < |f| && f[k] == t;
    assert c == f;
    assert r[k] == RepeatedPhrase(p, multiset(tris)[p]);
  }

  // ---------------------------------------------------------------------------
  // Blank and long lines
  // ---------------------------------------------------------------------------

  /** Number of lines that are empty once stripped. */
  function BlankLines(lines: seq<string>): (r: nat)
    ensures r <= |lines|
  {
    if |lines| == 0 then 0
    else (if Strip(lines[0]) == "" then 1 else 0) + BlankLines(lines[1..])
  }

  lemma PercentAtMost100(part: nat, whole: nat)
    requires 0 < whole && part <= whole
    ensures part * 100 / whole <= 100
  {
    DivAtMost(part * 100, 100, whole);
  }

  /** Number of lines longer than 200 characters. */
  function LongLineCount(lines: seq<string>): (r: nat)
    ensures r <= |lines|
  {
    if |lines| == 0 then 0
    else (if |lines[0]| > 200 then 1 else 0) + LongLineCount(lines[1..])
  }

  /** Blank lines over 30% of all lines (`blank > lines * 0.3`, exactly
      `10 * blank > 3 * lines`) and more than five of them. */
  function WhitespaceIssues(lines: seq<string>): (r: seq<Issue>)
    requires |lines| >= 1
    ensures |r| <= 1
    ensures |r| == 1 <==> 10 * BlankLines(lines) > 3 * |lines| && BlankLines(lines) > 5
    ensures |r| == 1 ==> r[0].ExcessiveWhitespace? && r[0].blank == BlankLines(lines)
                         && r[0].percent <= 100
  {
    var blank := BlankLines(lines);
    PercentAtMost100(blank, |lines|);
    if 10 * blank > 3 * |lines| && blank > 5 then [ExcessiveWhitespace(blank, blank * 100 / |lines|)] else []
  }

  /** More than three lines over 200 characters. */
  function LongLineIssues(lines: seq<string>): (r: seq<Issue>)
    ensures |r| <= 1
    ensures |r| == 1 <==> LongLineCount(lines) > 3
    ensures |r| == 1 ==> r[0] == LongLines(LongLineCount(lines))
  {
    var n := LongLineCount(lines);
    if n > 3 then [LongLines(n)] else []
  }

  // ---------------------------------------------------------------------------
  // The detector
  // ---------------------------------------------------------------------------

  /** Every issue in `s` is of the kind ranked `rank`. */
  predicate AllOfKind(s: seq<Issue>, rank: nat) {
    forall k :: 0 <= k < |s| ==> KindRank(s[k]) == rank
  }

  /** Issues grouped kind by kind in emission order. */
  predicate KindsInOrder(r: seq<Issue>) {
    forall i, j :: 0 <= i < j < |r| ==> KindRank(r[i]) <= KindRank(r[j])
  }

  lemma GroupsInOrder(a: seq<Issue>, b: seq<Issue>, c: seq<Issue>, d: seq<Issue>)
    requires AllOfKind(a, 0) && AllOfKind(b, 1) && AllOfKind(c, 2) && AllOfKind(d, 3)
    ensures KindsInOrder(a + b + c + d)
    ensures (exists k :: 0 <= k < |a + b + c + d| && (a + b + c + d)[k].ExcessiveWhitespace?) <==> |c| > 0
    ensures (exists k :: 0 <= k < |a + b + c + d| && (a + b + c + d)[k].LongLines?) <==> |d| > 0
  {
    var r := a + b + c + d;
    forall k | 0 <= k < |r|
      ensures KindRank(r[k]) == if k < |a| then 0 else if k < |a| + |b| then 1 else if k < |a| + |b| + |c| then 2 else 3
    {
      if k < |a| {
        assert r[k] == a[k];
      } else if k < |a| + |b| {
        assert r[k] == b[k - |a|];
      } else if k < |a| + |b| + |c| {
        assert r[k] == c[k - |a| - |b|];
      } else {
        assert r[k] == d[k - |a| - |b| - |c|];
      }
    }
    if |c| > 0 {
      assert r[|a| + |b|] == c[0];
    }
    if |d| > 0 {
      assert r[|a| + |b| + |c|] == d[0];
    }
  }

  /** All issues of one document, grouped by kind in the order duplicate lines,
      repeated phrases, whitespace, long lines; the phrase cap applies after the
      duplicate-line issues; whitespace and long-line issues appear exactly when
      their thresholds are crossed. */
  function DetectRedundancy(text: string): (r: seq<Issue>)
    ensures KindsInOrder(r)
    ensures var d := |DuplicateLines(Lines(text))|;
            |r| <= d + PhraseCap(d) + 2
    ensures (exists k :: 0 <= k < |r| && r[k].ExcessiveWhitespace?) <==>
              10 * BlankLines(Lines(text)) > 3 * |Lines(text)| && BlankLines(Lines(text)) > 5
    ensures (exists k :: 0 <= k < |r| && r[k].LongLines?) <==> LongLineCount(Lines(text)) > 3
  {
    var lines := Lines(text);
    var dups := DuplicateLines(lines);
    var phrases := PhraseIssues(text, |dups|);
    var ws := WhitespaceIssues(lines);
    var long := LongLineIssues(lines);
    GroupsInOrder(dups, phrases, ws, long);
    dups + phrases + ws + long
  }
}

=== FILE: scoring.dfy ===
/** The efficiency score of a document set, its letter grade, and the category
    of a context file. Scores are kept in exact tenths of a point: the source
    computes `size*0.4 + redundancy*0.3 + count*0.3` in binary floating point. */
module Scoring {
  import opened Text
  import opened Tokens
  import opened Redundancy
  import opened Arith

  /** A context file: its logical name, where it came from, and its text. */
  datatype Document = Document(name: string, path: string, content: string) {
    function Tokens(): nat {
      EstimateTokens(content)
    }
  }

  function TotalTokens(docs: seq<Document>): (r: nat)
    ensures r >= |docs|
  {
    if |docs| == 0 then 0 else docs[0].Tokens() + TotalTokens(docs[1..])
  }

  /** Redundancy issues summed over every document. */
  function IssueCount(docs: seq<Document>): nat {
    if |docs| == 0 then 0 else |DetectRedundancy(docs[0].content)| + IssueCount(docs[1..])
  }

  /** `total / budget < num / den`, exactly, for a non-zero budget of either sign. */
  predicate RatioBelow(total: nat, budget: int, num: nat, den: nat)
    requires budget != 0 && den > 0
  {
    if budget > 0 then den * total < num * budget else den * total > num * budget
  }

  /** Python's `int(x / y)`: division truncated toward zero. */
  function TruncDiv(x: int, y: int): int
    requires y != 0
  {
    if (x >= 0) == (y > 0) then (if x >= 0 then x else -x) / (if y > 0 then y else -y)
    else -((if x >= 0 then x else -x) / (if y > 0 then y else -y))
  }

  /** Size pressure: a step function of `total / budget` with strict thresholds
      0.1, 0.3, 0.5 and 0.7, then `100 - int(ratio * 100)` floored at 0. */
  function SizeScore(total: nat, budget: int): (r: nat)
    requires budget != 0
    ensures r <= 100
    ensures r == 100 <==> RatioBelow(total, budget, 1, 10)
  {
    if RatioBelow(total, budget, 1, 10) then 100
    else if RatioBelow(total, budget, 3, 10) then 80
    else if RatioBelow(total, budget, 5, 10) then 60
    else if RatioBelow(total, budget, 7, 10) then 40
    else
      var p := TruncDiv(total * 100, budget);
      if 100 - p > 0 then 100 - p else 0
  }

  /** Five points lost per redundancy issue, floored at 0. */
  function RedundancyScore(issues: nat): (r: nat)
    ensures r <= 100
    ensures r == 0 <==> issues >= 20
    ensures issues < 20 ==> r + 5 * issues == 100
  {
    if 100 - 5 * issues > 0 then 100 - 5 * issues else 0
  }

  /** File-count overhead: 100 up to 5 files, 80 up to 10, 60 up to 20, then
      two points per file lost, never below 20. */
  function CountScore(files: nat): (r: nat)
    ensures 20 <= r <= 100
  {
    if files <= 5 then 100
    else if files <= 10 then 80
    else if files <= 20 then 60
    else if 100 - 2 * files > 20 then 100 - 2 * files else 20
  }

  /** The weighted combination, in tenths: `4*size + 3*redundancy + 3*count`. */
  function Combine(size: nat, redundancy: nat, count: nat): nat {
    4 * size + 3 * redundancy + 3 * count
  }

  /** The efficiency score in tenths of a point. An empty set scores a perfect
      1000; the budget is only divided by when there is something to measure. */
  function EfficiencyTenths(docs: seq<Document>, budget: int): (r: nat)
    requires |docs| == 0 || budget != 0
    ensures r <= 1000
    ensures |docs| == 0 ==> r == 1000
    ensures |docs| > 0 ==>
              r == Combine(SizeScore(TotalTokens(docs), budget), RedundancyScore(IssueCount(docs)), CountScore(|docs|))
  {
    // The source also returns 100 for a zero token total; every file
    // estimates to at least one token, so that branch is never taken.
    if |docs| == 0 then 1000
    else Combine(SizeScore(TotalTokens(docs), budget), RedundancyScore(IssueCount(docs)), CountScore(|docs|))
  }

  /** The size score never rises as the token total grows against a fixed positive budget. */
  lemma SizeScoreMonotone(t1: nat, t2: nat, budget: int)
    requires budget > 0 && t1 <= t2
    ensures SizeScore(t2, budget) <= SizeScore(t1, budget)
  {
    if !RatioBelow(t2, budget, 7, 10) {
      // Past 0.7 the percentage is at least 70, so the score is at most 30.
      assert TruncDiv(t2 * 100, budget) == (t2 * 100) / budget;
      DivAtLeast(t2 * 100, 70, budget);
      if !RatioBelow(t1, budget, 7, 10) {
        DivMonotone(t1 * 100, t2 * 100, budget);
        assert TruncDiv(t1 * 100, budget) == (t1 * 100) / budget;
      }
    }
  }

  /** Against a positive budget each bucket is exactly its interval of
      `total / budget`, lower end included; from 0.7 on the score is 100 minus
      the truncated percentage, floored at 0, and at most 30. */
  lemma SizeScoreBuckets(total: nat, budget: int)
    requires budget > 0
    ensures SizeScore(total, budget) == 80 <==> budget <= 10 * total < 3 * budget
    ensures SizeScore(total, budget) == 60 <==> 3 * budget <= 10 * total < 5 * budget
    ensures SizeScore(total, budget) == 40 <==> 5 * budget <= 10 * total < 7 * budget
    ensures 7 * budget <= 10 * total ==>
              && SizeScore(total, budget) <= 30
              && SizeScore(total, budget) == (if (total * 100) / budget < 100 then 100 - (total * 100) / budget else 0)
  {
    if 7 * budget <= 10 * total {
      assert TruncDiv(total * 100, budget) == (total * 100) / budget;
      DivAtLeast(total * 100, 70, budget);
    }
  }

  /** A ratio exactly on a threshold falls to the lower bucket for any budget
      that is a positive multiple of ten, and exactly 0.7 scores 30. */
  lemma ThresholdsAreStrict(b: int)
    requires b > 0
    ensures SizeScore(b, 10 * b) == 80
    ensures SizeScore(3 * b, 10 * b) == 60
    ensures SizeScore(5 * b, 10 * b) == 40
    ensures SizeScore(7 * b, 10 * b) == 30
  {
    SizeScoreBuckets(b, 10 * b);
    SizeScoreBuckets(3 * b, 10 * b);
    SizeScoreBuckets(5 * b, 10 * b);
    SizeScoreBuckets(7 * b, 10 * b);
    DivAtLeast(7 * b * 100, 70, 10 * b);
    DivAtMost(7 * b * 100, 70, 10 * b);
  }

  lemma RedundancyScoreMonotone(i1: nat, i2: nat)
    requires i1 <= i2
    ensures RedundancyScore(i2) <= RedundancyScore(i1)
  {
  }

  lemma CountScoreMonotone(n1: nat, n2: nat)
    requires n1 <= n2
    ensures CountScore(n2) <= CountScore(n1)
  {
  }

  // ---------------------------------------------------------------------------
  // Grade
  // ---------------------------------------------------------------------------

  datatype Letter = APlus | A | B | C | D | F

  /** Position of a letter from best (0) to worst (5). */
  function LetterRank(l: Letter): nat {
    match l
    case APlus => 0
    case A => 1
    case B => 2
    case C => 3
    case D => 4
    case F => 5
  }

  /** The letter grade of a score given in tenths: A+ from 90, A from 80,
      B from 70, C from 60, D from 40, F below. */
  function Grade(tenths: int): (g: Letter)
    ensures g == APlus <==> tenths >= 900
    ensures g == F <==> tenths < 400
  {
    if tenths >= 900 then APlus
    else if tenths >= 800 then A
    else if tenths >= 700 then B
    else if tenths >= 600 then C
    else if tenths >= 400 then D
    else F
  }

  /** A higher score never earns a worse grade. */
  lemma GradeMonotone(s: int, t: int)
    requires s <= t
    ensures LetterRank(Grade(t)) <= LetterRank(Grade(s))
  {
  }

  // ---------------------------------------------------------------------------
  // Categories of the report
  // ---------------------------------------------------------------------------

  datatype Category = SystemPrompts | MemoryAndState | SkillDefinitions | Configuration | Other

  /** The report's grouping of context files by name, first matching rule wins. */
  function CategoryOf(name: string): (c: Category)
    ensures c == SystemPrompts <==> name in ["SOUL.md", "SYSTEM.md", "PERSONA.md", "INSTRUCTIONS.md"]
    ensures c == MemoryAndState <==> name in ["MEMORY.md", "CONTEXT.md"]
    ensures c == SkillDefinitions <==> StartsWith(name, "skills/")
    ensures c == Configuration <==> StartsWith(name, ".")
    ensures c == Other ==> !StartsWith(name, "skills/") && !StartsWith(name, ".")
  {
    if name in ["SOUL.md", "SYSTEM.md", "PERSONA.md", "INSTRUCTIONS.md"] then
      assert name[0] != 's' && name[0] != '.';
      SystemPrompts
    else if name in ["MEMORY.md", "CONTEXT.md"] then
      assert name[0] != 's' && name[0] != '.';
      MemoryAndState
    else if StartsWith(name, "skills/") then
      assert name[0] == 's';
      SkillDefinitions
    else if StartsWith(name, ".") then Configuration
    else Other
  }
}

=== FILE: snapshot.dfy ===
/** The snapshot that `analyze --snapshot` saves, and the pure part of `compare`:
    the summary deltas between two snapshots and the per-file change list. */
module Snapshots {
  import opened Text
  import opened Sorting
  import opened Scoring
  import opened Tokens

  /** One member of the snapshot's `files` object: `{name: {tokens, path}}`. */
  datatype FileEntry = FileEntry(name: string, tokens: int, path: string)

  /** A saved analysis. `efficiency` is in tenths of a point, like the score it records. */
  datatype Snapshot = Snapshot(
    workspace: string,
    totalTokens: int,
    budget: int,
    efficiency: int,
    files: seq<FileEntry>,
    issuesCount: int)

  /** Token counts summed over the entries. */
  function SumTokens(files: seq<FileEntry>): int {
    if |files| == 0 then 0 else files[0].tokens + SumTokens(files[1..])
  }

  function NamesOf(files: seq<FileEntry>): (r: seq<string>)
    ensures |r| == |files|
    ensures forall k :: 0 <= k < |files| ==> r[k] == files[k].name
  {
    seq(|files|, k requires 0 <= k < |files| => files[k].name)
  }

  /** One entry per document, in document order. */
  function EntriesOf(docs: seq<Document>): (r: seq<FileEntry>)
    ensures |r| == |docs|
    ensures forall k :: 0 <= k < |docs| ==> r[k] == FileEntry(docs[k].name, docs[k].Tokens(), docs[k].path)
  {
    seq(|docs|, k requires 0 <= k < |docs| => FileEntry(docs[k].name, docs[k].Tokens(), docs[k].path))
  }

  /** The entries' token counts add up to the documents' token total. */
  lemma {:induction false} EntriesTotal(docs: seq<Document>)
    ensures SumTokens(EntriesOf(docs)) == TotalTokens(docs)
  {
    if |docs| > 0 {
      assert EntriesOf(docs)[1..] == EntriesOf(docs[1..]);
      EntriesTotal(docs[1..]);
    }
  }

  /** The snapshot of an analysed document set: one entry per document with
      its name, token estimate and path, the documents' token total (which the
      entries add up to), the efficiency score and the issue count. A zero
      budget with files present stops the analysis before a snapshot is written. */
  function MakeSnapshot(workspace: string, docs: seq<Document>, budget: int): (s: Snapshot)
    requires |docs| == 0 || budget != 0
    ensures s.workspace == workspace && s.budget == budget
    ensures |s.files| == |docs|
    ensures forall k :: 0 <= k < |docs| ==>
              s.files[k] == FileEntry(docs[k].name, EstimateTokens(docs[k].content), docs[k].path)
    ensures s.totalTokens == TotalTokens(docs) == SumTokens(s.files)
    ensures s.efficiency == EfficiencyTenths(docs, budget)
    ensures s.issuesCount == IssueCount(docs)
  {
    EntriesTotal(docs);
    Snapshot(workspace, TotalTokens(docs), budget, EfficiencyTenths(docs, budget), EntriesOf(docs), IssueCount(docs))
  }

  /** `files.get(name, {}).get("tokens", 0)`. */
  function TokensOf(files: seq<FileEntry>, name: string): (r: int)
    ensures name !in NamesOf(files) ==> r == 0
    ensures name in NamesOf(files) ==> exists k :: 0 <= k < |files| && files[k].name == name && files[k].tokens == r
  {
    var i := FirstIndex(NamesOf(files), name);
    if i < |files| then files[i].tokens
    else
      assert forall k :: 0 <= k < |files| ==> NamesOf(files)[k] != name;
      0
  }

  /** Reading a saved snapshot back by file name gives each document's token
      estimate (the documents come from a map, so their names are distinct),
      and 0 for a name that is not among them. */
  lemma SnapshotReadBack(workspace: string, docs: seq<Document>, budget: int, name: string)
    requires |docs| == 0 || budget != 0
    requires forall i, j :: 0 <= i < j < |docs| ==> docs[i].name != docs[j].name
    ensures forall k :: 0 <= k < |docs| ==>
              TokensOf(MakeSnapshot(workspace, docs, budget).files, docs[k].name) == EstimateTokens(docs[k].content)
    ensures (forall k :: 0 <= k < |docs| ==> docs[k].name != name) ==>
              TokensOf(MakeSnapshot(workspace, docs, budget).files, name) == 0
  {
    var files := MakeSnapshot(workspace, docs, budget).files;
    forall k | 0 <= k < |docs| ensures TokensOf(files, docs[k].name) == EstimateTokens(docs[k].content) {
      assert NamesOf(files)[k] == docs[k].name;
    }
  }

  /** A file whose token count differs between the two snapshots. */
  datatype Change = Change(name: string, before: int, after: int) {
    /** Tokens saved; negative when the file grew. */
    function Saved(): int {
      before - after
    }
  }

  /** Display order: most tokens saved first; equal savings keep the
      alphabetical order they were collected in (a stable sort of a sorted list). */
  predicate ChangeBefore(x: Change, y: Change) {
    x.Saved() > y.Saved() || (x.Saved() == y.Saved() && LexLess(x.name, y.name))
  }

  /** `sorted(set(before_names + after_names))`. */
  function AllNames(before: seq<FileEntry>, after: seq<FileEntry>): (r: seq<string>)
    ensures forall n :: n in r <==> n in NamesOf(before) || n in NamesOf(after)
  {
    var d := Dedup(NamesOf(before) + NamesOf(after));
    assert forall n :: n in NamesOf(before) + NamesOf(after) <==> n in NamesOf(before) || n in NamesOf(after);
    var r := SortBy(d, LexLess);
    assert forall n :: n in r <==> n in multiset(d);
    r
  }

  /** A file whose counts differ between the snapshots (a missing file counting 0). */
  function Differs(before: seq<FileEntry>, after: seq<FileEntry>): string -> bool {
    (n: string) => TokensOf(before, n) != TokensOf(after, n)
  }

  function ChangeFor(n: string, before: seq<FileEntry>, after: seq<FileEntry>): Change {
    Change(n, TokensOf(before, n), TokensOf(after, n))
  }

  /** The changed files among `names`, in the order of `names`. */
  function ChangedAmong(names: seq<string>, before: seq<FileEntry>, after: seq<FileEntry>): (r: seq<Change>)
    ensures |r| <= |names|
  {
    var kept := Filter(names, Differs(before, after));
    seq(|kept|, k requires 0 <= k < |kept| => ChangeFor(kept[k], before, after))
  }

  /** The per-file change list of `compare`, in display order. */
  function FileChanges(before: seq<FileEntry>, after: seq<FileEntry>): (r: seq<Change>) {
    SortBy(ChangedAmong(AllNames(before, after), before, after), ChangeBefore)
  }

  /** A fraction `num / den` with a positive denominator. */
  datatype Ratio = Ratio(num: int, den: nat)

  /** `diff / before * 100` when `before > 0`, else 0: the share of the old total saved. */
  function SavedPercent(before: int, after: int): (r: Ratio)
    ensures r.den > 0
    ensures before > 0 ==> r.num * before == 100 * (before - after) * r.den
    ensures before <= 0 ==> r.num == 0
    ensures r.num > 0 <==> before > 0 && after < before
    ensures before > 0 && after >= 0 ==> r.num <= 100 * r.den
  {
    if before > 0 then Ratio(100 * (before - after), before) else Ratio(0, 1)
  }

  /** What `compare` reports. */
  datatype Comparison = Comparison(
    saved: int,
    savedPercent: Ratio,
    efficiencyGain: int,
    issuesBefore: int,
    issuesAfter: int,
    changes: seq<Change>)

  function Compare(before: Snapshot, after: Snapshot): (r: Comparison)
    ensures r.saved + after.totalTokens == before.totalTokens
    ensures r.efficiencyGain + before.efficiency == after.efficiency
    ensures r.savedPercent.den > 0
    ensures r.savedPercent.num > 0 <==> before.totalTokens > 0 && r.saved > 0
  {
    Comparison(
      before.totalTokens - after.totalTokens,
      SavedPercent(before.totalTokens, after.totalTokens),
      after.efficiency - before.efficiency,
      before.issuesCount,
      after.issuesCount,
      FileChanges(before.files, after.files))
  }

  lemma LexLessIsTransitive()
    ensures Transitive(LexLess)
  {
    forall a, b, c | LexLess(a, b) && LexLess(b, c)
      ensures LexLess(a, c)
    {
      LexLessTransitive(a, b, c);
    }
  }

  lemma ChangeBeforeIsTransitive()
    ensures Transitive(ChangeBefore)
  {
    forall x, y, z | ChangeBefore(x, y) && ChangeBefore(y, z)
      ensures ChangeBefore(x, z)
    {
      if x.Saved() == y.Saved() == z.Saved() {
        LexLessTransitive(x.name, y.name, z.name);
      }
    }
  }

  /** The union of the names is listed in strictly ascending order, each once. */
  lemma AllNamesSorted(before: seq<FileEntry>, after: seq<FileEntry>)
    ensures SortedBy(AllNames(before, after), LexLess)
  {
    var d := Dedup(NamesOf(before) + NamesOf(after));
    forall i, j | 0 <= i < |d| && 0 <= j < |d| && i != j
      ensures LexLess(d[i], d[j]) || LexLess(d[j], d[i])
    {
      LexLessTotal(d[i], d[j]);
    }
    LexLessIsTransitive();
    SortByIsSorted(d, LexLess);
  }

  /** Every listed change names a file of `names` whose counts really differ,
      with the counts each snapshot records for it. */
  lemma ChangedAmongSound(names: seq<string>, before: seq<FileEntry>, after: seq<FileEntry>, k: nat) returns (m: nat)
    requires k < |ChangedAmong(names, before, after)|
    ensures m < |names| && TokensOf(before, names[m]) != TokensOf(after, names[m])
    ensures ChangedAmong(names, before, after)[k] == ChangeFor(names[m], before, after)
  {
    m := FilterSound(names, Differs(before, after), k);
  }

  /** Every file of `names` whose counts differ is listed. */
  lemma ChangedAmongComplete(names: seq<string>, before: seq<FileEntry>, after: seq<FileEntry>, i: nat) returns (k: nat)
    requires i < |names| && TokensOf(before, names[i]) != TokensOf(after, names[i])
    ensures k < |ChangedAmong(names, before, after)|
    ensures ChangedAmong(names, before, after)[k] == ChangeFor(names[i], before, after)
  {
    k := FilterComplete(names, Differs(before, after), i);
  }

  /** Filtering a strictly ascending name list keeps the changes in ascending name order. */
  lemma ChangedAmongAscending(names: seq<string>, before: seq<FileEntry>, after: seq<FileEntry>)
    requires SortedBy(names, LexLess)
    ensures forall i, j :: 0 <= i < j < |ChangedAmong(names, before, after)| ==>
              LexLess(ChangedAmong(names, before, after)[i].name, ChangedAmong(names, before, after)[j].name)
  {
    FilterSorted(names, Differs(before, after), LexLess);
  }

  /** The change list is in display order: tokens saved never increase down
      the list, and files with equal savings appear in ascending name order. */
  lemma ChangesOrdered(before: seq<FileEntry>, after: seq<FileEntry>)
    ensures SortedBy(FileChanges(before, after), ChangeBefore)
  {
    var names := AllNames(before, after);
    AllNamesSorted(before, after);
    ChangedAmongAscending(names, before, after);
    var r := ChangedAmong(names, before, after);
    forall i, j | 0 <= i < |r| && 0 <= j < |r| && i != j
      ensures ChangeBefore(r[i], r[j]) || ChangeBefore(r[j], r[i])
    {
      LexLessIrreflexive(r[i].name);
      if i < j {
        LexLessTotal(r[i].name, r[j].name);
      } else {
        LexLessTotal(r[j].name, r[i].name);
      }
    }
    ChangeBeforeIsTransitive();
    SortByIsSorted(r, ChangeBefore);
  }

  /** Each listed change is a file of either snapshot with the two counts it records there, which differ. */
  lemma ChangesSound(before: seq<FileEntry>, after: seq<FileEntry>, k: nat)
    requires k < |FileChanges(before, after)|
    ensures var c := FileChanges(before, after)[k];
            && (c.name in NamesOf(before) || c.name in NamesOf(after))
            && c.before == TokensOf(before, c.name)
            && c.after == TokensOf(after, c.name)
            && c.before != c.after
  {
    var names := AllNames(before, after);
    var r := ChangedAmong(names, before, after);
    var c := FileChanges(before, after)[k];
    assert c in multiset(r);
    var m :| 0 <= m < |r| && r[m] == c;
    var i := ChangedAmongSound(names, before, after, m);
    assert names[i] in names;
  }

  /** Every file whose counts differ between the snapshots (a missing file counting 0) is listed. */
  lemma ChangesComplete(before: seq<FileEntry>, after: seq<FileEntry>, name: string) returns (k: nat)
    requires name in NamesOf(before) || name in NamesOf(after)
    requires TokensOf(before, name) != TokensOf(after, name)
    ensures k < |FileChanges(before, after)|
    ensures FileChanges(before, after)[k] == Change(name, TokensOf(before, name), TokensOf(after, name))
  {
    var names := AllNames(before, after);
    var i :| 0 <= i < |names| && names[i] == name;
    var m := ChangedAmongComplete(names, before, after, i);
    var r := ChangedAmong(names, before, after);
    var sorted := FileChanges(before, after);
    assert r[m] in multiset(sorted);
    k :| 0 <= k < |sorted| && sorted[k] == r[m];
  }

  /** Nothing changes between a snapshot and itself. */
  lemma NoChangesAmongEqual(names: seq<string>, files: seq<FileEntry>)
    ensures ChangedAmong(names, files, files) == []
  {
    if |ChangedAmong(names, files, files)| > 0 {
      var m := ChangedAmongSound(names, files, files, 0);
      assert false;
    }
  }

  /** Comparing a snapshot with itself reports no savings, no efficiency change and no changed file. */
  lemma CompareSelf(s: Snapshot)
    ensures Compare(s, s).saved == 0
    ensures Compare(s, s).efficiencyGain == 0
    ensures Compare(s, s).savedPercent.num == 0
    ensures Compare(s, s).changes == []
  {
    NoChangesAmongEqual(AllNames(s.files, s.files), s.files);
  }

  /** Swapping the snapshots negates the savings and the efficiency change,
      and lists the same files with their two counts exchanged. */
  lemma CompareSwapped(a: Snapshot, b: Snapshot, k: nat) returns (m: nat)
    requires k < |Compare(a, b).changes|
    ensures Compare(b, a).saved == -Compare(a, b).saved
    ensures Compare(b, a).efficiencyGain == -Compare(a, b).efficiencyGain
    ensures m < |Compare(b, a).changes|
    ensures var c := Compare(a, b).changes[k];
            Compare(b, a).changes[m] == Change(c.name, c.after, c.before)
  {
    ChangesSound(a.files, b.files, k);
    var c := FileChanges(a.files, b.files)[k];
    m := ChangesComplete(b.files, a.files, c.name);
  }
}

=== FILE: sorting.dfy ===
/** Insertion sort under a strict order, and order-preserving filtering.
    Python's `sorted(key=...)` is stable, so every sort in the analysed code is
    modelled by a strict total order that breaks key ties by original position
    (or by a second key the code sorted on first); under such an order the
    sorted sequence is unique. */
module Sorting {

  /** Every element comes strictly before every later one. */
  predicate SortedBy<T>(s: seq<T>, less: (T, T) -> bool) {
    forall i, j :: 0 <= i < j < |s| ==> less(s[i], s[j])
  }

  ghost predicate Transitive<T(!new)>(less: (T, T) -> bool) {
    forall a, b, c :: less(a, b) && less(b, c) ==> less(a, c)
  }

  /** Any two elements at different positions are ordered one way or the other. */
  predicate Comparable<T>(s: seq<T>, less: (T, T) -> bool) {
    forall i, j :: 0 <= i < |s| && 0 <= j < |s| && i != j ==> less(s[i], s[j]) || less(s[j], s[i])
  }

  function Insert<T>(x: T, s: seq<T>, less: (T, T) -> bool): (r: seq<T>)
    ensures |r| == |s| + 1
    ensures multiset(r) == multiset(s) + multiset{x}
  {
    if |s| == 0 then [x]
    else if less(s[0], x) then
      assert s == [s[0]] + s[1..];
      [s[0]] + Insert(x, s[1..], less)
    else [x] + s
  }

  function SortBy<T>(s: seq<T>, less: (T, T) -> bool): (r: seq<T>)
    ensures |r| == |s|
    ensures multiset(r) == multiset(s)
  {
    if |s| == 0 then []
    else
      assert s == [s[0]] + s[1..];
      Insert(s[0], SortBy(s[1..], less), less)
  }

  lemma {:induction false} InsertSorted<T(!new)>(x: T, s: seq<T>, less: (T, T) -> bool)
    requires Transitive(less)
    requires SortedBy(s, less)
    requires forall k :: 0 <= k < |s| ==> less(s[k], x) || less(x, s[k])
    ensures SortedBy(Insert(x, s, less), less)
  {
    if |s| > 0 && less(s[0], x) {
      InsertSorted(x, s[1..], less);
      var t := Insert(x, s[1..], less);
      assert multiset(t) == multiset(s[1..]) + multiset{x};
      forall k | 0 <= k < |t|
        ensures less(s[0], t[k])
      {
        assert t[k] in multiset(t);
        if t[k] != x {
          assert t[k] in multiset(s[1..]);
          var m :| 0 <= m < |s[1..]| && s[1..][m] == t[k];
          assert s[m + 1] == t[k];
        }
      }
    }
  }

  /** Sorting a sequence whose elements are pairwise ordered yields the sequence
      in that order, as a permutation of the input. */
  lemma {:induction false} SortByIsSorted<T(!new)>(s: seq<T>, less: (T, T) -> bool)
    requires Transitive(less)
    requires Comparable(s, less)
    ensures SortedBy(SortBy(s, less), less)
  {
    if |s| > 0 {
      var tail := s[1..];
      assert Comparable(tail, less) by {
        forall i, j | 0 <= i < |tail| && 0 <= j < |tail| && i != j
          ensures less(tail[i], tail[j]) || less(tail[j], tail[i])
        {
          assert tail[i] == s[i + 1] && tail[j] == s[j + 1];
        }
      }
      SortByIsSorted(tail, less);
      var t := SortBy(tail, less);
      forall k | 0 <= k < |t|
        ensures less(t[k], s[0]) || less(s[0], t[k])
      {
        assert t[k] in multiset(tail);
        var m :| 0 <= m < |tail| && tail[m] == t[k];
        assert s[m + 1] == t[k];
      }
      InsertSorted(s[0], t, less);
    }
  }

  /** A strictly sorted sequence under an irreflexive order has no repeated element. */
  lemma SortedDistinct<T>(s: seq<T>, less: (T, T) -> bool)
    requires SortedBy(s, less)
    requires forall k :: 0 <= k < |s| ==> !less(s[k], s[k])
    ensures forall i, j :: 0 <= i < j < |s| ==> s[i] != s[j]
  {
  }

  /** `[x for x in s if keep(x)]`. */
  function Filter<T>(s: seq<T>, keep: T -> bool): (r: seq<T>)
    ensures |r| <= |s|
  {
    if |s| == 0 then [] else (if keep(s[0]) then [s[0]] else []) + Filter(s[1..], keep)
  }

  lemma FilterCons<T>(x: T, s: seq<T>, keep: T -> bool)
    ensures Filter([x] + s, keep) == (if keep(x) then [x] else []) + Filter(s, keep)
  {
    assert ([x] + s)[1..] == s;
  }

  /** Every kept element comes from the input and passes the test. */
  lemma {:induction false} FilterSound<T>(s: seq<T>, keep: T -> bool, k: nat) returns (i: nat)
    requires k < |Filter(s, keep)|
    ensures i < |s| && s[i] == Filter(s, keep)[k] && keep(s[i])
  {
    var head: seq<T> := if keep(s[0]) then [s[0]] else [];
    assert Filter(s, keep) == head + Filter(s[1..], keep);
    if k < |head| {
      i := 0;
    } else {
      var j := FilterSound(s[1..], keep, k - |head|);
      i := j + 1;
    }
  }

  /** Every element that passes the test is kept. */
  lemma {:induction false} FilterComplete<T>(s: seq<T>, keep: T -> bool, i: nat) returns (k: nat)
    requires i < |s| && keep(s[i])
    ensures k < |Filter(s, keep)| && Filter(s, keep)[k] == s[i]
  {
    var head: seq<T> := if keep(s[0]) then [s[0]] else [];
    assert Filter(s, keep) == head + Filter(s[1..], keep);
    if i == 0 {
      k := 0;
    } else {
      var m := FilterComplete(s[1..], keep, i - 1);
      k := |head| + m;
    }
  }

  /** Filtering keeps the relative order of what it keeps. */
  lemma {:induction false} FilterSorted<T>(s: seq<T>, keep: T -> bool, less: (T, T) -> bool)
    requires SortedBy(s, less)
    ensures SortedBy(Filter(s, keep), less)
  {
    if |s| > 0 {
      var head: seq<T> := if keep(s[0]) then [s[0]] else [];
      var rest := Filter(s[1..], keep);
      var r := Filter(s, keep);
      assert r == head + rest;
      assert SortedBy(s[1..], less);
      FilterSorted(s[1..], keep, less);
      forall i, j | 0 <= i < j < |r|
        ensures less(r[i], r[j])
      {
        if i < |head| {
          var m := FilterSound(s[1..], keep, j - |head|);
          assert r[j] == rest[j - |head|] == s[m + 1];
        } else {
          assert r[i] == rest[i - |head|] && r[j] == rest[j - |head|];
        }
      }
    }
  }

  /** An element passes the filter as often as it occurs, or not at all. */
  lemma {:induction false} FilterMultiplicity<T>(s: seq<T>, keep: T -> bool, x: T)
    ensures multiset(Filter(s, keep))[x] == if keep(x) then multiset(s)[x] else 0
  {
    if |s| > 0 {
      var head: seq<T> := if keep(s[0]) then [s[0]] else [];
      assert Filter(s, keep) == head + Filter(s[1..], keep);
      assert s == [s[0]] + s[1..];
      FilterMultiplicity(s[1..], keep, x);
    }
  }
}

=== FILE: text.dfy ===
/** String primitives that the analysed Python code takes from `str` and `re`:
    strip, lower, split, prefix and suffix tests, and ordering.
    Whitespace and case are the ASCII part of Python's Unicode tables. */
module Text {

  /** `str.isspace()` restricted to ASCII: tab, line feed, vertical tab,
      form feed, carriage return, the four information separators, space. */
  predicate IsSpace(c: char) {
    (9 <= c as int <= 13) || (28 <= c as int <= 32)
  }

  /** `str.lstrip()`: drops leading whitespace. */
  function LStrip(s: string): (r: string)
    ensures |r| <= |s|
  {
    if |s| > 0 && IsSpace(s[0]) then LStrip(s[1..]) else s
  }

  /** `str.rstrip(chars)`: drops trailing characters satisfying `drop`. */
  function RStripBy(s: string, drop: char -> bool): (r: string)
    ensures |r| <= |s|
  {
    if |s| > 0 && drop(s[|s| - 1]) then RStripBy(s[..|s| - 1], drop) else s
  }

  /** `str.strip()`. */
  function Strip(s: string): (r: string)
    ensures |r| <= |s|
  {
    RStripBy(LStrip(s), IsSpace)
  }

  /** `lstrip` removes a leading run of whitespace and nothing else. */
  lemma {:induction false} LStripFacts(s: string)
    ensures forall k :: 0 <= k < |LStrip(s)| ==> LStrip(s)[k] == s[|s| - |LStrip(s)| + k]
    ensures |LStrip(s)| > 0 ==> !IsSpace(LStrip(s)[0])
    ensures forall k :: 0 <= k < |s| - |LStrip(s)| ==> IsSpace(s[k])
  {
    if |s| > 0 && IsSpace(s[0]) {
      var t := s[1..];
      LStripFacts(t);
      var r := LStrip(s);
      assert r == LStrip(t);
      forall k | 0 <= k < |r|
        ensures r[k] == s[|s| - |r| + k]
      {
        assert r[k] == t[|t| - |r| + k];
      }
      forall k | 0 <= k < |s| - |r|
        ensures IsSpace(s[k])
      {
        if k > 0 {
          assert s[k] == t[k - 1];
        }
      }
    }
  }

  /** `rstrip` removes a trailing run of dropped characters and nothing else. */
  lemma {:induction false} RStripFacts(s: string, drop: char -> bool)
    ensures forall k :: 0 <= k < |RStripBy(s, drop)| ==> RStripBy(s, drop)[k] == s[k]
    ensures |RStripBy(s, drop)| > 0 ==> !drop(RStripBy(s, drop)[|RStripBy(s, drop)| - 1])
    ensures forall k :: |RStripBy(s, drop)| <= k < |s| ==> drop(s[k])
  {
    if |s| > 0 && drop(s[|s| - 1]) {
      var t := s[..|s| - 1];
      RStripFacts(t, drop);
      var r := RStripBy(s, drop);
      assert r == RStripBy(t, drop);
      forall k | 0 <= k < |r|
        ensures r[k] == s[k]
      {
        assert r[k] == t[k];
      }
      forall k | |r| <= k < |s|
        ensures drop(s[k])
      {
        if k < |s| - 1 {
          assert s[k] == t[k];
        }
      }
    }
  }

  /** True when `s` has no whitespace at either end, so that `Strip` leaves it alone. */
  predicate Trimmed(s: string) {
    |s| == 0 || (!IsSpace(s[0]) && !IsSpace(s[|s| - 1]))
  }

  /** `strip()` leaves a string with whitespace at neither end. */
  lemma StripIsTrimmed(s: string)
    ensures Trimmed(Strip(s))
  {
    var l := LStrip(s);
    LStripFacts(s);
    RStripFacts(l, IsSpace);
  }

  lemma StripTrimmed(s: string)
    requires Trimmed(s)
    ensures Strip(s) == s
  {
  }

  /** `str.strip()` is empty exactly when the string is all whitespace. */
  lemma StripEmpty(s: string)
    ensures Strip(s) == "" <==> forall k :: 0 <= k < |s| ==> IsSpace(s[k])
  {
    var l := LStrip(s);
    LStripFacts(s);
    RStripFacts(l, IsSpace);
  }

  function LowerChar(c: char): char {
    if 'A' <= c <= 'Z' then (c as int + 32) as char else c
  }

  /** `str.lower()` on ASCII letters. */
  function Lower(s: string): (r: string)
    ensures |r| == |s|
    ensures forall k :: 0 <= k < |s| ==> r[k] == LowerChar(s[k])
  {
    seq(|s|, k requires 0 <= k < |s| => LowerChar(s[k]))
  }

  /** Lower-casing keeps whitespace where it was, so it commutes with `Strip`
      on a string that is already trimmed, and is idempotent. */
  lemma LowerTrimmed(s: string)
    requires Trimmed(s)
    ensures Trimmed(Lower(s))
    ensures Lower(Lower(s)) == Lower(s)
  {
  }

  /** `str.replace(a, b)` for single characters. */
  function ReplaceChar(s: string, a: char, b: char): (r: string)
    ensures |r| == |s|
    ensures forall k :: 0 <= k < |s| ==> r[k] == (if s[k] == a then b else s[k])
  {
    seq(|s|, k requires 0 <= k < |s| => if s[k] == a then b else s[k])
  }

  predicate StartsWith(s: string, prefix: string) {
    |prefix| <= |s| && s[..|prefix|] == prefix
  }

  predicate EndsWith(s: string, suffix: string) {
    |suffix| <= |s| && s[|s| - |suffix|..] == suffix
  }

  /** Python's `sub in s`. */
  predicate Contains(s: string, sub: string) {
    StartsWith(s, sub) || (|s| > 0 && Contains(s[1..], sub))
  }

  /** A string contains whatever sits anywhere inside it. */
  lemma {:induction false} ContainsInfix(p: string, sub: string, q: string)
    ensures Contains(p + sub + q, sub)
  {
    if |p| == 0 {
      assert p + sub + q == sub + q;
      assert (sub + q)[..|sub|] == sub;
    } else {
      ContainsInfix(p[1..], sub, q);
      assert (p + sub + q)[1..] == p[1..] + sub + q;
    }
  }

  /** `s.split(sep)` for a one-character separator: every separator cuts,
      so there is always one piece more than there are separators. */
  function SplitOn(s: string, sep: char): (r: seq<string>)
    ensures |r| >= 1
    ensures forall k :: 0 <= k < |r| ==> sep !in r[k]
  {
    if |s| == 0 then [""]
    else
      var rest := SplitOn(s[1..], sep);
      if s[0] == sep then [""] + rest
      else [[s[0]] + rest[0]] + rest[1..]
  }

  /** `sep.join(pieces)`. */
  function Join(pieces: seq<string>, sep: char): string {
    if |pieces| == 0 then ""
    else if |pieces| == 1 then pieces[0]
    else pieces[0] + [sep] + Join(pieces[1..], sep)
  }

  lemma JoinCons(p: string, rest: seq<string>, sep: char)
    requires |rest| >= 1
    ensures Join([p] + rest, sep) == p + [sep] + Join(rest, sep)
  {
    assert ([p] + rest)[1..] == rest;
  }

  lemma JoinHead(c: char, p: string, rest: seq<string>, sep: char)
    ensures Join([[c] + p] + rest, sep) == [c] + Join([p] + rest, sep)
  {
    if |rest| == 0 {
    } else {
      JoinCons([c] + p, rest, sep);
      JoinCons(p, rest, sep);
    }
  }

  /** Splitting on a character and joining with it again gives the text back. */
  lemma {:induction false} SplitJoin(s: string, sep: char)
    ensures Join(SplitOn(s, sep), sep) == s
  {
    if |s| == 0 {
    } else {
      var rest := SplitOn(s[1..], sep);
      SplitJoin(s[1..], sep);
      if s[0] == sep {
        JoinCons("", rest, sep);
        assert "" + [sep] + Join(rest, sep) == [s[0]] + s[1..];
      } else {
        assert rest == [rest[0]] + rest[1..];
        JoinHead(s[0], rest[0], rest[1..], sep);
        assert [s[0]] + s[1..] == s;
      }
    }
  }

  /** `re.split("[<seps>]+", s)`: pieces between maximal runs of separators.
      A run at either end yields an empty piece there, so the result is never
      empty; every piece between two runs holds at least one character. */
  function SplitRuns(s: string, isSep: char -> bool): (r: seq<string>)
    ensures |r| >= 1
    ensures forall k, c :: 0 <= k < |r| && c in r[k] ==> !isSep(c)
    ensures forall k :: 0 < k < |r| - 1 ==> |r[k]| > 0
    ensures |s| > 0 && isSep(s[0]) ==> |r| >= 2 && |r[0]| == 0
    ensures |s| > 0 && !isSep(s[0]) ==> |r[0]| > 0
  {
    if |s| == 0 then [""]
    else
      var rest := SplitRuns(s[1..], isSep);
      if !isSep(s[0]) then [[s[0]] + rest[0]] + rest[1..]
      else if |s| > 1 && isSep(s[1]) then rest
      else [""] + rest
  }

  /** Every character of `g` is a separator. */
  predicate AllSeparators(g: string, isSep: char -> bool) {
    forall k :: 0 <= k < |g| ==> isSep(g[k])
  }

  /** `pieces[0] + gaps[0] + pieces[1] + ... + pieces[n]`: the pieces put back
      together with the separator runs between them. */
  function Weave(pieces: seq<string>, gaps: seq<string>): string
    requires |pieces| == |gaps| + 1
    decreases |gaps|
  {
    if |gaps| == 0 then pieces[0] else pieces[0] + gaps[0] + Weave(pieces[1..], gaps[1..])
  }

  lemma WeaveHead(c: char, p: string, ps: seq<string>, gaps: seq<string>)
    requires |ps| == |gaps|
    ensures Weave([[c] + p] + ps, gaps) == [c] + Weave([p] + ps, gaps)
  {
    assert ([[c] + p] + ps)[1..] == ps == ([p] + ps)[1..];
  }

  /** A separator in front of an empty first piece joins the first run. */
  lemma WeaveLongerRun(c: char, ps: seq<string>, gaps: seq<string>)
    requires |ps| == |gaps| + 1 && |gaps| >= 1 && |ps[0]| == 0
    ensures Weave(ps, [[c] + gaps[0]] + gaps[1..]) == [c] + Weave(ps, gaps)
  {
    assert ([[c] + gaps[0]] + gaps[1..])[1..] == gaps[1..];
  }

  /** A separator in front of a non-empty first piece is a run of its own. */
  lemma WeaveNewRun(c: char, ps: seq<string>, gaps: seq<string>)
    requires |ps| == |gaps| + 1
    ensures Weave([""] + ps, [[c]] + gaps) == [c] + Weave(ps, gaps)
  {
    var pieces, runs := [""] + ps, [[c]] + gaps;
    assert pieces[1..] == ps && runs[1..] == gaps;
    assert Weave(pieces, runs) == pieces[0] + runs[0] + Weave(ps, gaps);
    assert pieces[0] + runs[0] == [c];
  }

  /** The pieces of `SplitRuns` are what lies between non-empty runs of
      separators: woven back together with those runs they give the text. */
  lemma {:induction false} SplitRunsWeave(s: string, isSep: char -> bool) returns (gaps: seq<string>)
    ensures |gaps| + 1 == |SplitRuns(s, isSep)|
    ensures forall k :: 0 <= k < |gaps| ==> |gaps[k]| > 0 && AllSeparators(gaps[k], isSep)
    ensures Weave(SplitRuns(s, isSep), gaps) == s
  {
    if |s| == 0 {
      gaps := [];
    } else {
      var rest := SplitRuns(s[1..], isSep);
      var g := SplitRunsWeave(s[1..], isSep);
      assert [s[0]] + s[1..] == s;
      if !isSep(s[0]) {
        gaps := g;
        WeaveHead(s[0], rest[0], rest[1..], g);
        assert [rest[0]] + rest[1..] == rest;
      } else if |s| > 1 && isSep(s[1]) {
        assert s[1..][0] == s[1];
        gaps := [[s[0]] + g[0]] + g[1..];
        WeaveLongerRun(s[0], rest, g);
      } else {
        gaps := [[s[0]]] + g;
        WeaveNewRun(s[0], rest, g);
      }
    }
  }

  /** A leading word free of separators becomes the start of the first piece. */
  lemma {:induction false} SplitRunsWordPrefix(w: string, t: string, isSep: char -> bool)
    requires forall k :: 0 <= k < |w| ==> !isSep(w[k])
    ensures SplitRuns(w + t, isSep) == [w + SplitRuns(t, isSep)[0]] + SplitRuns(t, isSep)[1..]
  {
    if |w| == 0 {
      var r := SplitRuns(t, isSep);
      assert w + t == t && w + r[0] == r[0];
      assert [r[0]] + r[1..] == r;
    } else {
      assert (w + t)[1..] == w[1..] + t;
      SplitRunsWordPrefix(w[1..], t, isSep);
      assert [w[0]] + (w[1..] + SplitRuns(t, isSep)[0]) == w + SplitRuns(t, isSep)[0];
    }
  }

  /** One separator before a word starts a new piece after an empty one. */
  lemma SplitRunsSeparator(c: char, t: string, isSep: char -> bool)
    requires isSep(c) && |t| > 0 && !isSep(t[0])
    ensures SplitRuns([c] + t, isSep) == [""] + SplitRuns(t, isSep)
  {
    assert ([c] + t)[1..] == t;
  }

  /** Two words joined by one separator split back into the two words. */
  lemma SplitRunsTwoWords(a: string, c: char, b: string, isSep: char -> bool)
    requires forall k :: 0 <= k < |a| ==> !isSep(a[k])
    requires forall k :: 0 <= k < |b| ==> !isSep(b[k])
    requires isSep(c) && |b| > 0
    ensures SplitRuns(a + [c] + b, isSep) == [a, b]
  {
    var t := [c] + b;
    assert a + [c] + b == a + t;
    SplitRunsWordPrefix(b, "", isSep);
    assert b + "" == b;
    SplitRunsSeparator(c, b, isSep);
    assert SplitRuns(t, isSep) == ["", b];
    SplitRunsWordPrefix(a, t, isSep);
    assert a + "" == a;
  }

  function NonEmpty(pieces: seq<string>): (r: seq<string>)
    ensures forall w :: w in r <==> w in pieces && w != ""
  {
    if |pieces| == 0 then []
    else (if pieces[0] == "" then [] else [pieces[0]]) + NonEmpty(pieces[1..])
  }

  lemma {:induction false} NonEmptyAppend(a: seq<string>, b: seq<string>)
    ensures NonEmpty(a + b) == NonEmpty(a) + NonEmpty(b)
  {
    if |a| > 0 {
      assert (a + b)[1..] == a[1..] + b;
      NonEmptyAppend(a[1..], b);
    } else {
      assert a + b == b;
    }
  }

  lemma {:induction false} NonEmptyKeepsAll(pieces: seq<string>)
    requires forall k :: 0 <= k < |pieces| ==> |pieces[k]| > 0
    ensures NonEmpty(pieces) == pieces
  {
    if |pieces| > 0 {
      NonEmptyKeepsAll(pieces[1..]);
    }
  }

  /** `s.split()`: the maximal runs of non-whitespace characters. */
  function Words(s: string): (r: seq<string>)
    ensures forall k :: 0 <= k < |r| ==> |r[k]| > 0
    ensures forall k, c :: 0 <= k < |r| && c in r[k] ==> !IsSpace(c)
  {
    var pieces := SplitRuns(s, IsSpace);
    var r := NonEmpty(pieces);
    forall k | 0 <= k < |r| ensures r[k] in pieces && r[k] != "" {
      assert r[k] in r;
    }
    r
  }

  lemma {:induction false} NonEmptyDropsAll(pieces: seq<string>)
    requires forall k :: 0 <= k < |pieces| ==> |pieces[k]| == 0
    ensures NonEmpty(pieces) == []
  {
    if |pieces| > 0 {
      NonEmptyDropsAll(pieces[1..]);
    }
  }

  /** Dropping the empty pieces keeps exactly the non-empty middle. */
  lemma NonEmptyMiddle(r: seq<string>, lo: nat, hi: nat)
    requires lo <= hi <= |r|
    requires forall k :: 0 <= k < lo ==> |r[k]| == 0
    requires forall k :: hi <= k < |r| ==> |r[k]| == 0
    requires forall k :: lo <= k < hi ==> |r[k]| > 0
    ensures NonEmpty(r) == r[lo..hi]
  {
    var front, tail := r[..hi], r[hi..];
    var head, mid := front[..lo], front[lo..];
    assert r == front + tail;
    assert front == head + mid;
    assert mid == r[lo..hi];
    forall k | 0 <= k < |head| ensures |head[k]| == 0 {
      assert head[k] == r[k];
    }
    forall k | 0 <= k < |tail| ensures |tail[k]| == 0 {
      assert tail[k] == r[hi + k];
    }
    forall k | 0 <= k < |mid| ensures |mid[k]| > 0 {
      assert mid[k] == r[lo + k];
    }
    NonEmptyDropsAll(head);
    NonEmptyDropsAll(tail);
    NonEmptyKeepsAll(mid);
    NonEmptyAppend(front, tail);
    NonEmptyAppend(head, mid);
  }

  /** Dropping the empty pieces of a split whose inner pieces are all
      non-empty removes at most an empty first and an empty last piece. */
  lemma InnerPieces(r: seq<string>)
    requires |r| >= 1
    requires forall k :: 0 < k < |r| - 1 ==> |r[k]| > 0
    ensures var lo := if |r[0]| == 0 then 1 else 0;
            var hi := if |r| > lo && |r[|r| - 1]| == 0 then |r| - 1 else |r|;
            lo <= hi && NonEmpty(r) == r[lo..hi]
  {
    var lo := if |r[0]| == 0 then 1 else 0;
    var hi := if |r| > lo && |r[|r| - 1]| == 0 then |r| - 1 else |r|;
    NonEmptyMiddle(r, lo, hi);
  }

  /** The words are the pieces between whitespace runs, less the empty piece a
      leading or trailing run leaves: with `SplitRunsWeave`, the maximal
      non-whitespace runs of the text, in order. */
  lemma WordsAreInnerRuns(s: string)
    ensures var r := SplitRuns(s, IsSpace);
            var lo := if |r[0]| == 0 then 1 else 0;
            var hi := if |r| > lo && |r[|r| - 1]| == 0 then |r| - 1 else |r|;
            lo <= hi && Words(s) == r[lo..hi]
  {
    InnerPieces(SplitRuns(s, IsSpace));
  }

  /** Position of the first occurrence of `name`, or `|names|` when there is none:
      the lookup behind a dictionary `get` on keys kept in insertion order. */
  function FirstIndex(names: seq<string>, name: string): (i: nat)
    ensures i <= |names|
    ensures i < |names| <==> name in names
    ensures i < |names| ==> names[i] == name
    ensures forall k :: 0 <= k < i ==> names[k] != name
  {
    if |names| == 0 then 0
    else if names[0] == name then 0
    else 1 + FirstIndex(names[1..], name)
  }

  /** Appending an element moves no earlier first occurrence. */
  lemma {:induction false} FirstIndexAppend(s: seq<string>, y: string, x: string)
    ensures FirstIndex(s + [y], x) == if x in s then FirstIndex(s, x) else if x == y then |s| else |s| + 1
  {
    if |s| > 0 {
      assert (s + [y])[1..] == s[1..] + [y];
      if s[0] != x {
        FirstIndexAppend(s[1..], y, x);
        assert x in s <==> x in s[1..];
      }
    }
  }

  /** Extending a sequence keeps the first occurrences of what it already held. */
  lemma FirstIndexExtend(init: seq<string>, y: string)
    ensures forall x | x in init :: FirstIndex(init + [y], x) == FirstIndex(init, x) < |init|
    ensures y !in init ==> FirstIndex(init + [y], y) == |init|
  {
    forall x | x in init ensures FirstIndex(init + [y], x) == FirstIndex(init, x) < |init| {
      FirstIndexAppend(init, y, x);
    }
    FirstIndexAppend(init, y, y);
  }

  /** The distinct elements of `s`, in order of first occurrence. */
  function Dedup(s: seq<string>): (r: seq<string>)
    ensures forall x :: x in r <==> x in s
    ensures forall i, j :: 0 <= i < j < |r| ==> r[i] != r[j]
    ensures forall i, j :: 0 <= i < j < |r| ==> FirstIndex(s, r[i]) < FirstIndex(s, r[j])
  {
    if |s| == 0 then []
    else
      var init := s[..|s| - 1];
      var y := s[|s| - 1];
      var d := Dedup(init);
      assert s == init + [y];
      FirstIndexExtend(init, y);
      if y in d then d else d + [y]
  }

  /** Python's `<` on strings: lexicographic by code point, a proper prefix first. */
  predicate LexLess(a: string, b: string) {
    if |a| == 0 then |b| > 0
    else if |b| == 0 then false
    else a[0] < b[0] || (a[0] == b[0] && LexLess(a[1..], b[1..]))
  }

  lemma {:induction false} LexLessIrreflexive(a: string)
    ensures !LexLess(a, a)
  {
    if |a| > 0 {
      LexLessIrreflexive(a[1..]);
    }
  }

  lemma {:induction false} LexLessTransitive(a: string, b: string, c: string)
    requires LexLess(a, b) && LexLess(b, c)
    ensures LexLess(a, c)
  {
    if |a| > 0 && |b| > 0 && |c| > 0 && a[0] == b[0] == c[0] {
      LexLessTransitive(a[1..], b[1..], c[1..]);
    }
  }

  lemma {:induction false} LexLessTotal(a: string, b: string)
    requires a != b
    ensures LexLess(a, b) || LexLess(b, a)
  {
    if |a| > 0 && |b| > 0 && a[0] == b[0] {
      assert a == [a[0]] + a[1..] && b == [b[0]] + b[1..];
      LexLessTotal(a[1..], b[1..]);
    }
  }
}

=== FILE: tokens.dfy ===
/** The token-cost heuristic shared by every analysis: about one token per four characters. */
module Tokens {

  /** Approximate token count of a text: a quarter of its length, rounded down,
      and never less than one. */
  function EstimateTokens(text: string): (r: nat)
    ensures r >= 1
    ensures |text| < 8 ==> r == 1
    ensures |text| >= 4 ==> 4 * r <= |text| < 4 * r + 4
  {
    if |text| / 4 > 1 then |text| / 4 else 1
  }

  /** The estimate never decreases as the text grows. */
  lemma EstimateMonotone(a: string, b: string)
    requires |a| <= |b|
    ensures EstimateTokens(a) <= EstimateTokens(b)
  {
  }
}

=== FILE: toolschema.dfy ===
/** Tool definitions read from an agent configuration file. Three layouts are
    recognised: a top-level `tools` or `functions` list, and an `mcpServers`
    object whose servers each carry their own `tools` list. Reading and
    decoding the file are outside the model: it starts from the decoded
    document, and `serialize` stands for `json.dumps`. */
module ToolSchema {
  import opened Wrappers
  import opened Json
  import opened Tokens

  /** One audited tool. `name`, `description` and `server` keep whatever JSON
      value the definition held there. */
  datatype ToolRecord = ToolRecord(name: Value, description: Value, tokens: nat, params: seq<string>, server: Value)

  /** The definition list or server map: the first of `tools`, `functions` and
      `mcpServers` that is present, whatever its value; nothing for a
      document that is not an object. */
  function SelectDefinitions(data: Value): (r: Value)
    ensures !data.Object? ==> r == Array([])
    ensures data.Object? && "tools" in Keys(data.members) ==> Some(r) == Lookup(data.members, "tools")
    ensures data.Object? && "tools" !in Keys(data.members) && "functions" in Keys(data.members) ==>
              Some(r) == Lookup(data.members, "functions")
    ensures data.Object? && "tools" !in Keys(data.members) && "functions" !in Keys(data.members) ==>
              r == Get(data.members, "mcpServers", Array([]))
  {
    if data.Object? then
      Get(data.members, "tools", Get(data.members, "functions", Get(data.members, "mcpServers", Array([]))))
    else Array([])
  }

  /** The placeholder entry for a server whose `tools` is not a list. */
  function Placeholder(server: string, conf: Value): Value {
    Object([Member("name", Str(server)), Member("raw", conf)])
  }

  /** A server's tool objects, each tagged with the server's name unless it names one itself. */
  function TagTools(tools: seq<Value>, server: string): (r: seq<Value>)
    ensures |r| == CountObjects(tools) <= |tools|
    ensures forall k :: 0 <= k < |r| ==> r[k].Object? && "server" in Keys(r[k].members)
  {
    if |tools| == 0 then []
    else
      var rest := TagTools(tools[1..], server);
      if tools[0].Object? then [Object(SetDefault(tools[0].members, "server", Str(server)))] + rest
      else rest
  }

  /** The flattened definitions of a server map: a server whose config is an
      object contributes its tagged tools when `tools` is a list (absent counts
      as empty) and one placeholder otherwise; any other server is skipped. */
  function ExpandServers(servers: seq<Member>): (r: seq<Value>)
    ensures forall k :: 0 <= k < |r| ==> r[k].Object?
  {
    if |servers| == 0 then []
    else
      var conf := servers[0].value;
      var mine :=
        if !conf.Object? then []
        else
          var tools := Get(conf.members, "tools", Array([]));
          if tools.Array? then TagTools(tools.items, servers[0].key)
          else [Placeholder(servers[0].key, conf)];
      mine + ExpandServers(servers[1..])
  }

  /** The definitions the audit walks through. */
  function Entries(data: Value): seq<Value> {
    var defs := SelectDefinitions(data);
    if defs.Object? then ExpandServers(defs.members)
    else if defs.Array? then defs.items
    else []
  }

  /** `tdef.get("function", {})`. */
  function FunctionPart(members: seq<Member>): Value {
    Get(members, "function", Object([]))
  }

  /** The parameter schema: `parameters`, else `input_schema`, else the
      function's `parameters`, else an empty object. */
  function Schema(members: seq<Member>): Value
    requires FunctionPart(members).Object?
  {
    Get(members, "parameters", Get(members, "input_schema", Get(FunctionPart(members).members, "parameters", Object([]))))
  }

  /** What the source needs of a definition object to read it without raising:
      a `function` entry, when present, is an object (its fields are looked up
      eagerly, as the default of every other lookup), and an object schema's
      `properties`, when present, is an object. */
  predicate Readable(members: seq<Member>) {
    && FunctionPart(members).Object?
    && (Schema(members).Object? ==> Get(Schema(members).members, "properties", Object([])).Object?)
  }

  /** The object definitions, in order; anything else is skipped. */
  function Objects(entries: seq<Value>): (r: seq<seq<Member>>)
    ensures |r| <= |entries|
  {
    if |entries| == 0 then []
    else (if entries[0].Object? then [entries[0].members] else []) + Objects(entries[1..])
  }

  predicate AllReadable(defs: seq<seq<Member>>) {
    forall k :: 0 <= k < |defs| ==> Readable(defs[k])
  }

  /** The record made from one definition object: the definition's own
      `name` or `description`, else the one inside `function`, else "unknown"
      or ""; a token cost that of the whole definition as serialised; the
      parameter names are the keys of the schema's `properties`, in order, and
      none when the schema is not an object; the server tag is "" unless the
      definition carries one. */
  function Record(members: seq<Member>, serialize: Value -> string): (r: ToolRecord)
    requires Readable(members)
    ensures Lookup(members, "name").Some? ==> r.name == Lookup(members, "name").value
    ensures Lookup(members, "name").None? ==> r.name == Get(FunctionPart(members).members, "name", Str("unknown"))
    ensures Lookup(members, "description").Some? ==> r.description == Lookup(members, "description").value
    ensures Lookup(members, "description").None? ==>
              r.description == Get(FunctionPart(members).members, "description", Str(""))
    ensures r.tokens == EstimateTokens(serialize(Object(members)))
    ensures !Schema(members).Object? ==> r.params == []
    ensures Schema(members).Object? ==> r.params == Keys(Get(Schema(members).members, "properties", Object([])).members)
    ensures Lookup(members, "server").Some? ==> r.server == Lookup(members, "server").value
    ensures Lookup(members, "server").None? ==> r.server == Str("")
  {
    var fn := FunctionPart(members).members;
    var schema := Schema(members);
    ToolRecord(
      Get(members, "name", Get(fn, "name", Str("unknown"))),
      Get(members, "description", Get(fn, "description", Str(""))),
      EstimateTokens(serialize(Object(members))),
      if schema.Object? then Keys(Get(schema.members, "properties", Object([])).members) else [],
      Get(members, "server", Str("")))
  }

  /** What the source needs of every object among the definitions. */
  predicate EntriesReadable(entries: seq<Value>) {
    forall i :: 0 <= i < |entries| && entries[i].Object? ==> Readable(entries[i].members)
  }

  /** The audited tools of a decoded configuration document: one record per
      object definition, each at the position counted by the object
      definitions before it, so in order; other definitions are skipped. */
  function ParseTools(data: Value, serialize: Value -> string): (r: seq<ToolRecord>)
    requires EntriesReadable(Entries(data))
    ensures |r| == CountObjects(Entries(data))
    ensures forall i :: 0 <= i < |Entries(data)| && Entries(data)[i].Object? ==>
              && CountObjects(Entries(data)[..i]) < |r|
              && r[CountObjects(Entries(data)[..i])] == Record(Entries(data)[i].members, serialize)
  {
    var entries := Entries(data);
    var defs := Objects(entries);
    ObjectsPositions(entries);
    ObjectsReadable(entries);
    seq(|defs|, k requires 0 <= k < |defs| => Record(defs[k], serialize))
  }

  // ---------------------------------------------------------------------------
  // Properties
  // ---------------------------------------------------------------------------

  function CountObjects(entries: seq<Value>): nat {
    if |entries| == 0 then 0 else (if entries[0].Object? then 1 else 0) + CountObjects(entries[1..])
  }

  /** The object definition at position `k` is kept at position `m`, the
      number of object definitions before it: definitions keep their order. */
  lemma {:induction false} ObjectAt(entries: seq<Value>, k: nat) returns (m: nat)
    requires k < |entries| && entries[k].Object?
    ensures m == CountObjects(entries[..k])
    ensures m < |Objects(entries)| && Objects(entries)[m] == entries[k].members
  {
    if k == 0 {
      m := 0;
    } else {
      var tail := entries[1..];
      assert tail[k - 1] == entries[k];
      var m' := ObjectAt(tail, k - 1);
      assert entries[..k] == [entries[0]] + tail[..k - 1];
      m := m' + (if entries[0].Object? then 1 else 0);
    }
  }

  /** Every kept definition is an object definition of the input, at the position returned. */
  lemma {:induction false} ObjectSource(entries: seq<Value>, m: nat) returns (k: nat)
    requires m < |Objects(entries)|
    ensures k < |entries| && entries[k] == Object(Objects(entries)[m])
  {
    var tail := entries[1..];
    if entries[0].Object? && m == 0 {
      k := 0;
    } else {
      var k' := ObjectSource(tail, if entries[0].Object? then m - 1 else m);
      assert tail[k'] == entries[k' + 1];
      k := k' + 1;
    }
  }

  /** Exactly the object definitions are kept. */
  lemma {:induction false} ObjectsCount(entries: seq<Value>)
    ensures |Objects(entries)| == CountObjects(entries)
  {
    if |entries| > 0 {
      ObjectsCount(entries[1..]);
    }
  }

  /** Every object definition sits at its counted position among the kept ones. */
  lemma ObjectsPositions(entries: seq<Value>)
    ensures |Objects(entries)| == CountObjects(entries)
    ensures forall i :: 0 <= i < |entries| && entries[i].Object? ==>
              && CountObjects(entries[..i]) < |Objects(entries)|
              && Objects(entries)[CountObjects(entries[..i])] == entries[i].members
  {
    ObjectsCount(entries);
    forall i | 0 <= i < |entries| && entries[i].Object?
      ensures CountObjects(entries[..i]) < |Objects(entries)|
      ensures Objects(entries)[CountObjects(entries[..i])] == entries[i].members
    {
      var m := ObjectAt(entries, i);
    }
  }

  /** Readable object definitions stay readable once the others are dropped. */
  lemma ObjectsReadable(entries: seq<Value>)
    requires EntriesReadable(entries)
    ensures AllReadable(Objects(entries))
  {
    forall m | 0 <= m < |Objects(entries)| ensures Readable(Objects(entries)[m]) {
      var k := ObjectSource(entries, m);
    }
  }

  /** Each object tool of a server is kept, tagged, at the position counted by
      the object tools before it; the others are skipped. */
  lemma {:induction false} TagToolsAt(tools: seq<Value>, server: string)
    ensures forall i :: 0 <= i < |tools| && tools[i].Object? ==>
              && CountObjects(tools[..i]) < |TagTools(tools, server)|
              && TagTools(tools, server)[CountObjects(tools[..i])] ==
                 Object(SetDefault(tools[i].members, "server", Str(server)))
  {
    if |tools| > 0 {
      var tail := tools[1..];
      TagToolsAt(tail, server);
      forall i | 0 < i < |tools| && tools[i].Object?
        ensures CountObjects(tools[..i]) < |TagTools(tools, server)|
        ensures TagTools(tools, server)[CountObjects(tools[..i])] ==
                Object(SetDefault(tools[i].members, "server", Str(server)))
      {
        assert tail[i - 1] == tools[i];
        assert tools[..i][1..] == tail[..i - 1];
      }
      assert tools[..0] == [];
    }
  }

  /** The server map expands server by server. */
  lemma {:induction false} ExpandServersAppend(a: seq<Member>, b: seq<Member>)
    ensures ExpandServers(a + b) == ExpandServers(a) + ExpandServers(b)
  {
    if |a| == 0 {
      assert a + b == b;
    } else {
      assert (a + b)[0] == a[0];
      assert (a + b)[1..] == a[1..] + b;
      ExpandServersAppend(a[1..], b);
    }
  }

  /** One server: its tagged object tools when `tools` is a list or absent, one
      placeholder when it is anything else, nothing when the config is not an object. */
  lemma ExpandOneServer(server: string, conf: Value)
    ensures !conf.Object? ==> ExpandServers([Member(server, conf)]) == []
    ensures conf.Object? && Get(conf.members, "tools", Array([])).Array? ==>
              ExpandServers([Member(server, conf)]) == TagTools(Get(conf.members, "tools", Array([])).items, server)
    ensures conf.Object? && !Get(conf.members, "tools", Array([])).Array? ==>
              ExpandServers([Member(server, conf)]) == [Placeholder(server, conf)]
  {
    assert [Member(server, conf)][1..] == [];
  }

  /** A document that is not an object (a bare list, say) yields no tools. */
  lemma NonObjectHasNoTools(data: Value, serialize: Value -> string)
    requires !data.Object?
    ensures EntriesReadable(Entries(data))
    ensures ParseTools(data, serialize) == []
  {
  }

  /** A present but empty `tools` list hides a non-empty `functions` list. */
  lemma EmptyToolsShadowFunctions(f: Value, serialize: Value -> string)
    ensures var data := Object([Member("tools", Array([])), Member("functions", Array([f]))]);
            EntriesReadable(Entries(data)) && ParseTools(data, serialize) == []
  {
    var data := Object([Member("tools", Array([])), Member("functions", Array([f]))]);
    assert Lookup(data.members, "tools") == Some(Array([]));
  }

  /** A tool listed under a server without its own `server` field is tagged with
      the server's name, and that tag is part of what its token cost measures. */
  lemma ServerToolIsTagged(server: string, tool: seq<Member>, serialize: Value -> string)
    requires "server" !in Keys(tool)
    ensures var t := Object(SetDefault(tool, "server", Str(server)));
            TagTools([Object(tool)], server) == [t]
    ensures var tagged := SetDefault(tool, "server", Str(server));
            Readable(tagged) ==> Record(tagged, serialize).server == Str(server)
  {
    var tagged := SetDefault(tool, "server", Str(server));
    SetDefaultLookup(tool, "server", Str(server), "server");
  }

  /** A server whose `tools` is not a list is reported as one placeholder tool
      named after the server, with no description, parameters or server tag. */
  lemma PlaceholderRecord(server: string, conf: seq<Member>, serialize: Value -> string)
    requires var tools := Get(conf, "tools", Array([])); !tools.Array?
    ensures ExpandServers([Member(server, Object(conf))]) == [Placeholder(server, Object(conf))]
    ensures var r := Record(Placeholder(server, Object(conf)).members, serialize);
            r.name == Str(server) && r.description == Str("") && r.params == [] && r.server == Str("")
  {
    ExpandOneServer(server, Object(conf));
    var ph := Placeholder(server, Object(conf)).members;
    assert Lookup(ph, "name") == Some(Str(server));
    assert Lookup(ph, "function") == None;
    assert Lookup(ph, "description") == None;
    assert Lookup(ph, "parameters") == None;
    assert Lookup(ph, "input_schema") == None;
    assert Lookup(ph, "server") == None;
  }

  /** The `function` part of an OpenAI-style definition. */
  function FunctionStyle(n: string, d: string, props: seq<Member>): seq<Member> {
    [Member("type", Str("function")),
     Member("function", Object([Member("name", Str(n)), Member("description", Str(d)),
                                Member("parameters", Object([Member("properties", Object(props))]))]))]
  }

  /** An OpenAI-style definition falls back to the fields inside `function`. */
  lemma FunctionStyleRecord(n: string, d: string, props: seq<Member>, serialize: Value -> string)
    ensures Readable(FunctionStyle(n, d, props))
    ensures Record(FunctionStyle(n, d, props), serialize).name == Str(n)
    ensures Record(FunctionStyle(n, d, props), serialize).description == Str(d)
    ensures Record(FunctionStyle(n, d, props), serialize).params == Keys(props)
    ensures Record(FunctionStyle(n, d, props), serialize).server == Str("")
  {
    var def := FunctionStyle(n, d, props);
    var fn := def[1].value.members;
    var params := Object([Member("properties", Object(props))]);
    assert Lookup(def, "function") == Some(Object(fn));
    assert Lookup(def, "name") == None;
    assert Lookup(def, "description") == None;
    assert Lookup(def, "parameters") == None;
    assert Lookup(def, "input_schema") == None;
    assert Lookup(def, "server") == None;
    assert Lookup(fn, "name") == Some(Str(n));
    assert Lookup(fn, "description") == Some(Str(d));
    assert Lookup(fn[2..], "parameters") == Some(params);
    assert Lookup(fn[1..], "parameters") == Some(params) by { assert fn[1..][1..] == fn[2..]; }
    assert Lookup(fn, "parameters") == Some(params);
    assert Lookup(params.members, "properties") == Some(Object(props));
  }
}

=== FILE: upstream.dfy ===
/** The setup tool's pure rules: how a CacheForge base URL is normalised, how
    the upstream provider kind is inferred, canonicalised and given a base URL,
    which environment variable supplies the upstream key, which models the
    OpenClaw snippet lists, and the snippet itself. */
module Upstream {
  import opened Wrappers
  import opened Text
  import opened Sorting
  import opened Json

  const LegacyOpenAiBaseUrl: string := "https://api.openai.com"
  const OpenRouterBaseUrl: string := "https://openrouter.ai/api/v1"
  const AnthropicBaseUrl: string := "https://api.anthropic.com"
  /** The host name that marks a Fireworks base URL. */
  const FireworksHost: string := "fireworks.ai"
  const CustomBaseUrl: string := "https://api." + FireworksHost + "/inference/v1"

  /** The kinds `provision` accepts; `openai` is a legacy alias. */
  const AcceptedKinds: set<string> := {"openrouter", "anthropic", "custom", "openai"}

  predicate IsSlash(c: char) {
    c == '/'
  }

  /* ---------------- CacheForge base URL ---------------- */

  /** `normalize_base_url`: strip whitespace and trailing slashes, drop one
      trailing `/v1`, strip trailing slashes again. */
  function NormalizeBaseUrl(url: string): (r: string)
    ensures |r| <= |url|
    ensures |r| == 0 || !IsSlash(r[|r| - 1])
  {
    var s := RStripBy(Strip(url), IsSlash);
    var t := if EndsWith(s, "/v1") then s[..|s| - 3] else s;
    RStripFacts(t, IsSlash);
    RStripBy(t, IsSlash)
  }

  /** A URL already in normal form: no surrounding whitespace, no trailing
      slash, no trailing `/v1`. */
  predicate Clean(h: string) {
    Trimmed(h) && (|h| == 0 || !IsSlash(h[|h| - 1])) && !EndsWith(h, "/v1")
  }

  /** Appending a suffix that does not start or end with whitespace keeps a trimmed string trimmed. */
  lemma TrimmedAppend(h: string, tail: string)
    requires Trimmed(h) && |tail| > 0 && !IsSpace(tail[0]) && !IsSpace(tail[|tail| - 1])
    ensures Trimmed(h + tail)
    ensures Strip(h + tail) == h + tail
  {
    StripTrimmed(h + tail);
  }

  /** `rstrip("/")` of a string that does not end in a slash changes nothing. */
  lemma RStripSlashClean(h: string)
    requires |h| == 0 || !IsSlash(h[|h| - 1])
    ensures RStripBy(h, IsSlash) == h
  {
  }

  /** `h`, `h/`, `h/v1` and `h/v1/` all normalise to `h`. */
  lemma NormalizeForms(h: string)
    requires Clean(h)
    ensures NormalizeBaseUrl(h) == h
    ensures NormalizeBaseUrl(h + "/") == h
    ensures NormalizeBaseUrl(h + "/v1") == h
    ensures NormalizeBaseUrl(h + "/v1/") == h
  {
    StripTrimmed(h);
    TrimmedAppend(h, "/");
    assert (h + "/")[..|h|] == h;
    TrimmedAppend(h, "/v1");
    assert (h + "/v1")[..|h|] == h;
    TrimmedAppend(h, "/v1/");
    assert (h + "/v1/")[..|h + "/v1"|] == h + "/v1";
  }

  /** On a trimmed URL without a trailing slash, normalising only drops a
      trailing `/v1` and the slashes it uncovers. */
  lemma NormalizeUnslashed(u: string)
    requires Trimmed(u) && (|u| == 0 || !IsSlash(u[|u| - 1]))
    ensures NormalizeBaseUrl(u) == if EndsWith(u, "/v1") then RStripBy(u[..|u| - 3], IsSlash) else u
  {
    StripTrimmed(u);
    RStripSlashClean(u);
  }

  /** Only one trailing `/v1` is removed: `h/v1/v1` normalises to `h/v1`, which
      normalises in turn to `h`, so normalising twice can differ from once. */
  lemma NormalizeDropsOneSuffix(h: string)
    requires Clean(h)
    ensures NormalizeBaseUrl(h + "/v1/v1") == h + "/v1"
    ensures NormalizeBaseUrl(NormalizeBaseUrl(h + "/v1/v1")) == h
  {
    var u := h + "/v1/v1";
    TrimmedAppend(h, "/v1/v1");
    NormalizeUnslashed(u);
    assert u[|u| - 3..] == "/v1";
    assert u[..|u| - 3] == h + "/v1";
    RStripSlashClean(h + "/v1");
    NormalizeForms(h);
  }

  /* ---------------- Upstream kinds ---------------- */

  /** `infer_kind_from_key`: the most specific matching key prefix decides. */
  function InferKindFromKey(key: string): (kind: string)
    ensures kind in AcceptedKinds
    ensures kind == "openrouter" <==> StartsWith(key, "sk-or-")
    ensures kind == "anthropic" <==> StartsWith(key, "sk-ant-")
    ensures kind == "openai" <==> StartsWith(key, "sk-") && !StartsWith(key, "sk-or-") && !StartsWith(key, "sk-ant-")
    ensures kind == "custom" <==> !StartsWith(key, "sk-")
  {
    if StartsWith(key, "sk-or-") then
      assert key[..3] == key[..6][..3];
      assert key[3] == key[..6][3] == 'o';
      "openrouter"
    else if StartsWith(key, "sk-ant-") then
      assert key[..3] == key[..7][..3];
      "anthropic"
    else if StartsWith(key, "sk-") then "openai"
    else "custom"
  }

  /** `kind.strip().lower()`, the form every kind comparison uses. */
  function KindKey(kind: string): string {
    Lower(Strip(kind))
  }

  /** A string no upper-case ASCII letter and no surrounding whitespace: its own `KindKey`. */
  lemma KindKeyFixed(s: string)
    requires Trimmed(s)
    requires forall k :: 0 <= k < |s| ==> !('A' <= s[k] <= 'Z')
    ensures KindKey(s) == s
  {
    StripTrimmed(s);
  }

  /** `canonical_upstream_kind`: the legacy `openai` alias is sent as `custom`. */
  function CanonicalUpstreamKind(kind: string): (r: string)
    ensures r != "openai"
    ensures KindKey(kind) == "openai" ==> r == "custom"
    ensures KindKey(kind) != "openai" ==> r == KindKey(kind)
  {
    var k := KindKey(kind);
    if k == "openai" then "custom" else k
  }

  /** Canonicalising twice is canonicalising once. */
  lemma CanonicalIdempotent(kind: string)
    ensures CanonicalUpstreamKind(CanonicalUpstreamKind(kind)) == CanonicalUpstreamKind(kind)
  {
    var k := KindKey(kind);
    StripIsTrimmed(kind);
    LowerTrimmed(Strip(kind));
    StripTrimmed(k);
    if k == "openai" {
      KindKeyFixed("custom");
    }
  }

  /** The preset base URL of a kind key; anything unknown gets the `custom` preset. */
  function PresetBaseUrl(k: string): (r: string)
    ensures r in {OpenRouterBaseUrl, AnthropicBaseUrl, CustomBaseUrl}
    ensures k != "openrouter" && k != "anthropic" ==> r == CustomBaseUrl
  {
    if k == "openrouter" then OpenRouterBaseUrl
    else if k == "anthropic" then AnthropicBaseUrl
    else CustomBaseUrl
  }

  /** `resolve_upstream_base_url`: an explicit URL (stripped) wins; otherwise the
      legacy `openai` kind gets the OpenAI URL and every other kind its preset. */
  function ResolveUpstreamBaseUrl(kind: string, explicit: string): (r: string)
    ensures Strip(explicit) != "" ==> r == Strip(explicit)
    ensures Strip(explicit) == "" && KindKey(kind) == "openai" ==> r == LegacyOpenAiBaseUrl
    ensures Strip(explicit) == "" && KindKey(kind) != "openai" ==> r == PresetBaseUrl(KindKey(kind))
    ensures r != ""
  {
    var base := Strip(explicit);
    if base != "" then base
    else
      var k := KindKey(kind);
      if k == "openai" then LegacyOpenAiBaseUrl else PresetBaseUrl(k)
  }

  /** The first character of a string is either whitespace or where its stripped form starts. */
  lemma StripHead(key: string)
    requires |Strip(key)| > 0
    ensures IsSpace(key[0]) || key[0] == Strip(key)[0]
  {
    var l := LStrip(key);
    LStripFacts(key);
    RStripFacts(l, IsSpace);
    if |key| - |l| == 0 {
      assert l[0] == key[0];
    }
  }

  /** A key whose stripped form starts with `c` is never taken for a key of a
      known upstream, since those all start `sk-` with no whitespace before. */
  lemma CacheforgeKeyIsCustom(key: string)
    requires StartsWith(Strip(key), "cf_") || StartsWith(Strip(key), "cfk_")
    ensures InferKindFromKey(key) == "custom"
  {
    assert Strip(key)[0] == 'c';
    StripHead(key);
    assert key[0] != 's';
    assert |key| >= 3 ==> key[..3][0] == key[0];
  }

  /** `looks_like_cacheforge_key`: the stripped key starts `cf_` or `cfk_`.
      Such a key is never inferred to belong to a known upstream. */
  function LooksLikeCacheforgeKey(key: string): (r: bool)
    ensures r <==> StartsWith(Strip(key), "cf_") || StartsWith(Strip(key), "cfk_")
    ensures r ==> InferKindFromKey(key) == "custom"
  {
    var k := Strip(key);
    if StartsWith(k, "cf_") || StartsWith(k, "cfk_") then
      CacheforgeKeyIsCustom(key);
      true
    else false
  }

  /** Surrounding whitespace never changes whether a key looks like a CacheForge key. */
  lemma CacheforgeKeyStripped(key: string)
    ensures LooksLikeCacheforgeKey(Strip(key)) == LooksLikeCacheforgeKey(key)
  {
    StripIsTrimmed(key);
    StripTrimmed(Strip(key));
  }

  /* ---------------- Upstream key detection ---------------- */

  /** An environment variable that may hold an upstream key, and the kind it implies. */
  datatype KeySource = KeySource(envVar: string, kind: string)

  /** The variables `detect_upstream_key` tries, in order. */
  const KeySources: seq<KeySource> := [
    KeySource("OPENROUTER_API_KEY", "openrouter"),
    KeySource("ANTHROPIC_API_KEY", "anthropic"),
    KeySource("FIREWORKS_API_KEY", "custom"),
    KeySource("OPENAI_API_KEY", "openai")
  ]

  /** `os.environ.get(name)` is truthy. */
  predicate IsSet(env: map<string, string>, name: string) {
    name in env && env[name] != ""
  }

  /** Position of the first source whose variable is set, or `|sources|`. */
  function FirstSet(sources: seq<KeySource>, env: map<string, string>): (i: nat)
    ensures i <= |sources|
    ensures i < |sources| ==> IsSet(env, sources[i].envVar)
    ensures forall j :: 0 <= j < i ==> !IsSet(env, sources[j].envVar)
  {
    if |sources| == 0 then 0
    else if IsSet(env, sources[0].envVar) then 0
    else 1 + FirstSet(sources[1..], env)
  }

  /** A detected upstream: its kind and its key, as found in the environment. */
  datatype Detected = Detected(kind: string, key: string)

  /** `detect_upstream_key`, with the environment passed in. */
  function DetectUpstreamKey(env: map<string, string>): (r: Option<Detected>)
    ensures r.None? <==> forall j :: 0 <= j < |KeySources| ==> !IsSet(env, KeySources[j].envVar)
    ensures r.Some? ==> r.value.key != "" && r.value.kind in AcceptedKinds
  {
    var i := FirstSet(KeySources, env);
    if i < |KeySources| then Some(Detected(KeySources[i].kind, env[KeySources[i].envVar])) else None
  }

  /** The first set variable in priority order decides, whatever later ones hold. */
  lemma DetectPriority(env: map<string, string>, i: nat)
    requires i < |KeySources| && IsSet(env, KeySources[i].envVar)
    requires forall j :: 0 <= j < i ==> !IsSet(env, KeySources[j].envVar)
    ensures DetectUpstreamKey(env) == Some(Detected(KeySources[i].kind, env[KeySources[i].envVar]))
  {
    var f := FirstSet(KeySources, env);
    assert f == i;
  }

  /* ---------------- Default models and the snippet ---------------- */

  datatype Model = Model(id: string, name: string)

  /** The curated OpenRouter models, most preferred first. */
  const OpenRouterCandidates: seq<Model> := [
    Model("anthropic/claude-opus-4.6", "OpenRouter: Claude Opus 4.6"),
    Model("openai/gpt-5.2", "OpenRouter: GPT-5.2"),
    Model("anthropic/claude-sonnet-4.5", "OpenRouter: Claude Sonnet 4.5"),
    Model("moonshotai/kimi-k2.5", "OpenRouter: Kimi K2.5")
  ]

  const FireworksModel: Model := Model("accounts/fireworks/models/kimi-k2p5", "Fireworks: Kimi K2.5")
  const AnthropicModel: Model := Model("claude-opus-4-6-latest", "Claude Opus 4.6")
  const FallbackModel: Model := Model("gpt-5.2", "GPT-5.2")

  function Offered(available: set<string>): Model -> bool {
    (m: Model) => m.id in available
  }

  /** The OpenRouter list: with no availability information, every candidate;
      otherwise the available candidates, or the first two when none is. */
  function OpenRouterModels(available: set<string>): (r: seq<Model>)
    ensures |r| > 0
  {
    if |available| == 0 then OpenRouterCandidates
    else
      var f := Filter(OpenRouterCandidates, Offered(available));
      if |f| > 0 then f else OpenRouterCandidates[..2]
  }

  /** `default_openclaw_models_for_upstream`. An absent availability set is the
      empty set. Kind and base URL are compared stripped and lower-cased: a
      `custom` upstream whose base URL mentions `fireworks.ai` gets the
      Fireworks model; `openrouter` the OpenRouter list; `anthropic` the
      Anthropic model; any other kind, `openai` included, the GPT model. */
  function DefaultModels(kind: string, baseUrl: string, available: set<string>): (r: seq<Model>)
    ensures |r| > 0
    ensures KindKey(kind) == "custom" && Contains(KindKey(baseUrl), FireworksHost) ==> r == [FireworksModel]
    ensures KindKey(kind) == "openrouter" ==> r == OpenRouterModels(available)
    ensures KindKey(kind) == "anthropic" ==> r == [AnthropicModel]
    ensures KindKey(kind) !in {"custom", "openrouter", "anthropic"} ==> r == [FallbackModel]
    ensures KindKey(kind) == "custom" && !Contains(KindKey(baseUrl), FireworksHost) ==> r == [FallbackModel]
  {
    var k := KindKey(kind);
    if k == "custom" && Contains(KindKey(baseUrl), FireworksHost) then [FireworksModel]
    else if k == "openrouter" then OpenRouterModels(available)
    else if k == "anthropic" then [AnthropicModel]
    else [FallbackModel]
  }

  /** A custom upstream whose base URL mentions `fireworks.ai`, in any case and
      with any surrounding whitespace, is offered the Fireworks model. */
  lemma FireworksDefault(baseUrl: string, available: set<string>)
    requires Contains(KindKey(baseUrl), FireworksHost)
    ensures DefaultModels("custom", baseUrl, available) == [FireworksModel]
  {
    KindKeyFixed("custom");
  }

  /** The default Fireworks URL, the one `provision` sets for `custom`, is such a URL. */
  lemma FireworksPreset(available: set<string>)
    ensures DefaultModels("custom", CustomBaseUrl, available) == [FireworksModel]
  {
    KindKeyFixed(CustomBaseUrl);
    ContainsInfix("https://api.", FireworksHost, "/inference/v1");
    FireworksDefault(CustomBaseUrl, available);
  }

  /** The kinds as `provision` spells them, on any base URL: the legacy
      `openai` kind is not canonicalised here, so even on the Fireworks URL it
      is offered the GPT model; `anthropic` gets the Anthropic model; and
      `openrouter` with nothing discovered gets every curated candidate. */
  lemma LiteralKindDefaults(baseUrl: string, available: set<string>)
    ensures DefaultModels("openai", baseUrl, available) == [FallbackModel]
    ensures DefaultModels("anthropic", baseUrl, available) == [AnthropicModel]
    ensures OpenRouterModels({}) == OpenRouterCandidates
    ensures DefaultModels("openrouter", baseUrl, {}) == OpenRouterCandidates
  {
    KindKeyFixed("openai");
    KindKeyFixed("anthropic");
    KindKeyFixed("openrouter");
  }

  /** The ids of the curated candidates, in curated order. */
  function CandidateIds(): (r: seq<string>)
    ensures |r| == |OpenRouterCandidates|
    ensures forall k :: 0 <= k < |r| ==> r[k] == OpenRouterCandidates[k].id
  {
    seq(|OpenRouterCandidates|, k requires 0 <= k < |OpenRouterCandidates| => OpenRouterCandidates[k].id)
  }

  /** Where a model stands in the curated order. */
  function CuratedPosition(m: Model): nat {
    FirstIndex(CandidateIds(), m.id)
  }

  predicate CuratedBefore(a: Model, b: Model) {
    CuratedPosition(a) < CuratedPosition(b)
  }

  /** Each candidate stands at its own position: the curated ids are distinct. */
  lemma CandidatePositions()
    ensures forall k :: 0 <= k < |OpenRouterCandidates| ==> CuratedPosition(OpenRouterCandidates[k]) == k
  {
    var ids := CandidateIds();
    assert ids == ["anthropic/claude-opus-4.6", "openai/gpt-5.2", "anthropic/claude-sonnet-4.5", "moonshotai/kimi-k2.5"];
    assert ids[0] != ids[1] && ids[0] != ids[2] && ids[0] != ids[3];
    assert ids[1] != ids[2] && ids[1] != ids[3] && ids[2] != ids[3];
  }

  lemma CandidatesInOrder()
    ensures SortedBy(OpenRouterCandidates, CuratedBefore)
    ensures SortedBy(OpenRouterCandidates[..2], CuratedBefore)
  {
    CandidatePositions();
    var c := OpenRouterCandidates;
    forall i, j | 0 <= i < j < |c[..2]| ensures CuratedBefore(c[..2][i], c[..2][j]) {
      assert c[..2][i] == c[i] && c[..2][j] == c[j];
    }
  }

  /** The OpenRouter list keeps the curated order, whatever discovery found. */
  lemma OpenRouterModelsInOrder(available: set<string>)
    ensures SortedBy(OpenRouterModels(available), CuratedBefore)
  {
    CandidatesInOrder();
    FilterSorted(OpenRouterCandidates, Offered(available), CuratedBefore);
  }


  /** Every OpenRouter default is a curated candidate, listed in curated order,
      and offered upstream whenever any curated candidate is. */
  lemma OpenRouterModelsSound(available: set<string>, k: nat) returns (i: nat)
    requires k < |OpenRouterModels(available)|
    ensures i < |OpenRouterCandidates| && OpenRouterModels(available)[k] == OpenRouterCandidates[i]
    ensures (exists j :: 0 <= j < |OpenRouterCandidates| && OpenRouterCandidates[j].id in available) ==>
              OpenRouterModels(available)[k].id in available
  {
    var f := Filter(OpenRouterCandidates, Offered(available));
    if |available| == 0 {
      i := k;
    } else if |f| > 0 {
      i := FilterSound(OpenRouterCandidates, Offered(available), k);
    } else {
      i := k;
      if j :| 0 <= j < |OpenRouterCandidates| && OpenRouterCandidates[j].id in available {
        var m := FilterComplete(OpenRouterCandidates, Offered(available), j);
      }
    }
  }

  /** Every curated candidate that is offered upstream is listed. */
  lemma OpenRouterModelsComplete(available: set<string>, i: nat) returns (k: nat)
    requires i < |OpenRouterCandidates| && OpenRouterCandidates[i].id in available
    ensures k < |OpenRouterModels(available)| && OpenRouterModels(available)[k] == OpenRouterCandidates[i]
  {
    k := FilterComplete(OpenRouterCandidates, Offered(available), i);
  }

  /** When discovery found models but none of the curated ones, the first two candidates are offered. */
  lemma OpenRouterFallback(available: set<string>)
    requires |available| > 0
    requires forall i :: 0 <= i < |OpenRouterCandidates| ==> OpenRouterCandidates[i].id !in available
    ensures OpenRouterModels(available) == OpenRouterCandidates[..2]
  {
    var f := Filter(OpenRouterCandidates, Offered(available));
    if |f| > 0 {
      var i := FilterSound(OpenRouterCandidates, Offered(available), 0);
    }
  }

  /** The head of the OpenRouter list is the most-preferred curated candidate
      that is offered upstream. */
  lemma OpenRouterHeadPreferred(available: set<string>)
    ensures forall j :: 0 <= j < |OpenRouterCandidates| && OpenRouterCandidates[j].id in available ==>
              OpenRouterModels(available)[0].id in available && CuratedPosition(OpenRouterModels(available)[0]) <= j
  {
    var models := OpenRouterModels(available);
    OpenRouterModelsInOrder(available);
    CandidatePositions();
    forall j | 0 <= j < |OpenRouterCandidates| && OpenRouterCandidates[j].id in available
      ensures models[0].id in available && CuratedPosition(models[0]) <= j
    {
      var k := OpenRouterModelsComplete(available, j);
      var i := OpenRouterModelsSound(available, 0);
      if k > 0 {
        assert CuratedBefore(models[0], models[k]);
      }
    }
  }

  /** `default_openclaw_model_for_upstream`: the head of the default list. For
      OpenRouter no other default precedes it in the curated order, and it is the
      most-preferred curated candidate that is offered upstream. */
  function DefaultModel(kind: string, baseUrl: string, available: set<string>): (m: Model)
    ensures m in DefaultModels(kind, baseUrl, available)
    ensures KindKey(kind) == "openrouter" ==>
              forall x :: x in DefaultModels(kind, baseUrl, available) ==> !CuratedBefore(x, m)
    ensures KindKey(kind) == "openrouter" ==>
              forall j :: 0 <= j < |OpenRouterCandidates| && OpenRouterCandidates[j].id in available ==>
                m.id in available && CuratedPosition(m) <= j
  {
    OpenRouterModelsInOrder(available);
    OpenRouterHeadPreferred(available);
    DefaultModels(kind, baseUrl, available)[0]
  }

  /** The `--model-id` / `--model-name` overrides: an id replaces the list by that
      one model (named by the name if given, else by the id); a name alone renames
      the first model. An empty argument counts as absent. */
  function OverrideModels(models: seq<Model>, modelId: string, modelName: string): (r: seq<Model>)
    ensures modelId != "" ==> |r| == 1 && r[0].id == Strip(modelId)
    ensures modelId != "" ==> r[0].name == (if modelName != "" then Strip(modelName) else Strip(modelId))
    ensures modelId == "" ==> |r| == |models|
    ensures modelId == "" && modelName != "" && |models| > 0 ==>
              r[0] == Model(models[0].id, Strip(modelName)) && r[1..] == models[1..]
    ensures modelId == "" && modelName == "" ==> r == models
  {
    if modelId != "" then
      [Model(Strip(modelId), if modelName != "" then Strip(modelName) else Strip(modelId))]
    else if modelName != "" && |models| > 0 then
      [Model(models[0].id, Strip(modelName))] + models[1..]
    else models
  }

  function ModelValue(m: Model): Value {
    Object([Member("id", Str(m.id)), Member("name", Str(m.name))])
  }

  function ModelValues(models: seq<Model>): (r: seq<Value>)
    ensures |r| == |models|
    ensures forall k :: 0 <= k < |models| ==> r[k] == ModelValue(models[k])
  {
    seq(|models|, k requires 0 <= k < |models| => ModelValue(models[k]))
  }

  /** The `cacheforge` provider entry of the snippet. */
  function ProviderEntry(baseUrl: string, models: seq<Model>): seq<Member> {
    [
      Member("baseUrl", Str(baseUrl + "/v1")),
      Member("apiKey", Str("${CACHEFORGE_API_KEY}")),
      Member("api", Str("openai-completions")),
      Member("models", Array(ModelValues(models)))
    ]
  }

  function ModelsSection(baseUrl: string, models: seq<Model>): seq<Member> {
    [
      Member("mode", Str("merge")),
      Member("providers", Object([Member("cacheforge", Object(ProviderEntry(baseUrl, models)))]))
    ]
  }

  function AgentsSection(primary: string): seq<Member> {
    [Member("defaults", Object([Member("model", Object([Member("primary", Str("cacheforge/" + primary))]))]))]
  }

  /** `build_openclaw_snippet`. */
  function BuildSnippet(baseUrl: string, models: seq<Model>, primary: string): Value {
    Object([
      Member("models", Object(ModelsSection(baseUrl, models))),
      Member("agents", Object(AgentsSection(primary)))
    ])
  }

  /** The value at a path of object keys. */
  function At(v: Value, path: seq<string>): Option<Value> {
    if |path| == 0 then Some(v)
    else match v
      case Object(members) =>
        (match Lookup(members, path[0])
         case Some(child) => At(child, path[1..])
         case None => None)
      case _ => None
  }

  /** Reads a model list back from the snippet's JSON. */
  function ReadModel(v: Value): Option<Model> {
    match v
    case Object(members) =>
      (match (Lookup(members, "id"), Lookup(members, "name"))
       case (Some(Str(id)), Some(Str(name))) => Some(Model(id, name))
       case _ => None)
    case _ => None
  }

  function ReadModels(vs: seq<Value>): Option<seq<Model>> {
    if |vs| == 0 then Some([])
    else match (ReadModel(vs[0]), ReadModels(vs[1..]))
      case (Some(m), Some(ms)) => Some([m] + ms)
      case _ => None
  }

  /** Each model written into the snippet reads back unchanged. */
  lemma {:induction false} ModelsRoundTrip(models: seq<Model>)
    ensures ReadModels(ModelValues(models)) == Some(models)
  {
    if |models| > 0 {
      var m := models[0];
      assert ReadModel(ModelValue(m)) == Some(m) by {
        var members := [Member("id", Str(m.id)), Member("name", Str(m.name))];
        assert Lookup(members, "id") == Some(Str(m.id));
        assert members[1..] == [Member("name", Str(m.name))];
        assert Lookup(members, "name") == Some(Str(m.name));
      }
      assert ModelValues(models)[1..] == ModelValues(models[1..]);
      ModelsRoundTrip(models[1..]);
      assert models == [m] + models[1..];
    }
  }

  /** Following a one-key path into an object whose member holds the key. */
  lemma AtStep(members: seq<Member>, key: string, child: Value, rest: seq<string>)
    requires Lookup(members, key) == Some(child)
    ensures At(Object(members), [key] + rest) == At(child, rest)
  {
    assert ([key] + rest)[0] == key && ([key] + rest)[1..] == rest;
  }

  /** The provider entry: the client URL and the model list. */
  lemma ProviderFields(baseUrl: string, models: seq<Model>)
    ensures Lookup(ProviderEntry(baseUrl, models), "baseUrl") == Some(Str(baseUrl + "/v1"))
    ensures Lookup(ProviderEntry(baseUrl, models), "models") == Some(Array(ModelValues(models)))
  {
    var e := ProviderEntry(baseUrl, models);
    assert e[1..][1..][1..] == [Member("models", Array(ModelValues(models)))];
    assert Lookup(e[1..][1..][1..], "models") == Some(Array(ModelValues(models)));
    assert Lookup(e[1..][1..], "models") == Some(Array(ModelValues(models)));
    assert Lookup(e[1..], "models") == Some(Array(ModelValues(models)));
  }

  /** Where the providers object sits in the snippet. */
  lemma ProviderPath(baseUrl: string, models: seq<Model>, primary: string, rest: seq<string>)
    ensures At(BuildSnippet(baseUrl, models, primary), ["models", "providers", "cacheforge"] + rest)
              == At(Object(ProviderEntry(baseUrl, models)), rest)
  {
    var top := [Member("models", Object(ModelsSection(baseUrl, models))), Member("agents", Object(AgentsSection(primary)))];
    var section := ModelsSection(baseUrl, models);
    var providers := [Member("cacheforge", Object(ProviderEntry(baseUrl, models)))];
    assert ["models", "providers", "cacheforge"] + rest == ["models"] + (["providers"] + (["cacheforge"] + rest));
    AtStep(top, "models", Object(section), ["providers"] + (["cacheforge"] + rest));
    assert section[1..] == [Member("providers", Object(providers))];
    assert Lookup(section, "providers") == Some(Object(providers));
    AtStep(section, "providers", Object(providers), ["cacheforge"] + rest);
    AtStep(providers, "cacheforge", Object(ProviderEntry(baseUrl, models)), rest);
  }

  /** The snippet merges its provider into the existing configuration. */
  lemma SnippetMode(baseUrl: string, models: seq<Model>, primary: string)
    ensures At(BuildSnippet(baseUrl, models, primary), ["models", "mode"]) == Some(Str("merge"))
  {
    var top := [Member("models", Object(ModelsSection(baseUrl, models))), Member("agents", Object(AgentsSection(primary)))];
    var section := ModelsSection(baseUrl, models);
    AtStep(top, "models", Object(section), ["mode"]);
    AtStep(section, "mode", Str("merge"), []);
    assert ["models", "mode"] == ["models"] + ["mode"];
    assert ["mode"] == ["mode"] + [];
  }

  /** The client talks to `<base>/v1`; for a normalised base, normalising that
      URL gives the base back. */
  lemma SnippetBaseUrl(baseUrl: string, models: seq<Model>, primary: string)
    ensures At(BuildSnippet(baseUrl, models, primary), ["models", "providers", "cacheforge", "baseUrl"]) == Some(Str(baseUrl + "/v1"))
    ensures Clean(baseUrl) ==> NormalizeBaseUrl(baseUrl + "/v1") == baseUrl
  {
    ProviderPath(baseUrl, models, primary, ["baseUrl"]);
    ProviderFields(baseUrl, models);
    AtStep(ProviderEntry(baseUrl, models), "baseUrl", Str(baseUrl + "/v1"), []);
    assert ["models", "providers", "cacheforge", "baseUrl"] == ["models", "providers", "cacheforge"] + ["baseUrl"];
    assert ["baseUrl"] == ["baseUrl"] + [];
    if Clean(baseUrl) {
      NormalizeForms(baseUrl);
    }
  }

  /** The primary model is the given id under the `cacheforge/` provider. */
  lemma SnippetPrimary(baseUrl: string, models: seq<Model>, primary: string)
    ensures At(BuildSnippet(baseUrl, models, primary), ["agents", "defaults", "model", "primary"]) == Some(Str("cacheforge/" + primary))
  {
    var top := [Member("models", Object(ModelsSection(baseUrl, models))), Member("agents", Object(AgentsSection(primary)))];
    var agents := AgentsSection(primary);
    var defaults := [Member("model", Object([Member("primary", Str("cacheforge/" + primary))]))];
    var model := [Member("primary", Str("cacheforge/" + primary))];
    assert top[1..] == [Member("agents", Object(agents))];
    assert Lookup(top, "agents") == Some(Object(agents));
    AtStep(top, "agents", Object(agents), ["defaults", "model", "primary"]);
    AtStep(agents, "defaults", Object(defaults), ["model", "primary"]);
    AtStep(defaults, "model", Object(model), ["primary"]);
    AtStep(model, "primary", Str("cacheforge/" + primary), []);
    assert ["agents", "defaults", "model", "primary"] == ["agents"] + (["defaults"] + (["model"] + (["primary"] + [])));
  }

  /** The snippet's model list is exactly the models it was built from. */
  lemma SnippetModels(baseUrl: string, models: seq<Model>, primary: string)
    ensures At(BuildSnippet(baseUrl, models, primary), ["models", "providers", "cacheforge", "models"]) == Some(Array(ModelValues(models)))
    ensures ReadModels(ModelValues(models)) == Some(models)
  {
    ProviderPath(baseUrl, models, primary, ["models"]);
    ProviderFields(baseUrl, models);
    AtStep(ProviderEntry(baseUrl, models), "models", Array(ModelValues(models)), []);
    assert ["models", "providers", "cacheforge", "models"] == ["models", "providers", "cacheforge"] + ["models"];
    assert ["models"] == ["models"] + [];
    ModelsRoundTrip(models);
  }

  /** The snippet `openclaw-snippet` prints: overrides applied, the first model primary. */
  function SnippetFor(baseUrl: string, defaults: seq<Model>, modelId: string, modelName: string): (r: Value)
    requires |defaults| > 0
  {
    var models := OverrideModels(defaults, modelId, modelName);
    BuildSnippet(baseUrl, models, models[0].id)
  }

  /** With `--model-id`, the snippet lists that one model and makes it primary. */
  lemma SnippetForModelId(baseUrl: string, defaults: seq<Model>, modelId: string, modelName: string)
    requires |defaults| > 0 && modelId != ""
    ensures At(SnippetFor(baseUrl, defaults, modelId, modelName), ["agents", "defaults", "model", "primary"])
              == Some(Str("cacheforge/" + Strip(modelId)))
    ensures ReadModels(ModelValues(OverrideModels(defaults, modelId, modelName))) ==
              Some([Model(Strip(modelId), if modelName != "" then Strip(modelName) else Strip(modelId))])
  {
    var models := OverrideModels(defaults, modelId, modelName);
    SnippetPrimary(baseUrl, models, models[0].id);
    ModelsRoundTrip(models);
  }

  /* ---------------- Provisioning ---------------- */

  /** Why `provision` stops before contacting the server. */
  datatype ProvisionError = NoUpstreamKey | InvalidKind(kind: string)

  /** The `upstream` object sent with a provisioning request. */
  datatype UpstreamConfig = UpstreamConfig(kind: string, baseUrl: string, apiKey: string)

  /** The end of the upstream resolution, once a key is known: infer a missing
      kind from the key, reject unknown kinds, canonicalise the kind, and
      resolve the base URL with the kind as given. */
  function Settle(kind: string, key: string, base: string): (r: Result<UpstreamConfig, ProvisionError>)
    requires key != ""
    ensures r.Ok? ==> r.value.kind in {"openrouter", "anthropic", "custom"} && r.value.apiKey == key
    ensures r.Err? ==> r.error.InvalidKind? && r.error.kind !in AcceptedKinds
  {
    var k := if kind == "" then InferKindFromKey(key) else kind;
    if k !in AcceptedKinds then Err(InvalidKind(k))
    else
      KindKeyFixed(k);
      Ok(UpstreamConfig(CanonicalUpstreamKind(k), ResolveUpstreamBaseUrl(k, base), key))
  }

  /** `cmd_provision`'s upstream resolution. Arguments not given are empty
      strings; `env` is the process environment. */
  function ResolveProvisionUpstream(kindArg: string, keyArg: string, baseArg: string, env: map<string, string>)
    : (r: Result<UpstreamConfig, ProvisionError>)
    ensures r == Err(NoUpstreamKey) <==> keyArg == "" && DetectUpstreamKey(env).None?
    ensures r.Ok? ==> r.value.kind != "openai" && r.value.apiKey != ""
    ensures keyArg != "" && r.Ok? ==> r.value.apiKey == keyArg
    ensures keyArg == "" && r.Ok? ==> DetectUpstreamKey(env).Some? && r.value.apiKey == DetectUpstreamKey(env).value.key
    ensures keyArg != "" || DetectUpstreamKey(env).Some? ==>
              (r.Err? <==> KindKey(kindArg) != "" && KindKey(kindArg) !in AcceptedKinds)
  {
    var kind := KindKey(kindArg);
    var base := if baseArg != "" then baseArg else if "UPSTREAM_BASE_URL" in env then env["UPSTREAM_BASE_URL"] else "";
    if keyArg != "" then Settle(kind, keyArg, base)
    else match DetectUpstreamKey(env)
      case None => Err(NoUpstreamKey)
      case Some(d) => Settle(if kind != "" then kind else d.kind, d.key, base)
  }

  /** Without `--upstream-key`, the detected key is sent. The kind is the given
      one, stripped and lower-cased, or else the detected one; it is sent in
      canonical form and the base URL is resolved from it as written. */
  lemma DetectedProvision(kindArg: string, env: map<string, string>, d: Detected)
    requires DetectUpstreamKey(env) == Some(d)
    requires !IsSet(env, "UPSTREAM_BASE_URL")
    ensures KindKey(kindArg) == "" ==>
              ResolveProvisionUpstream(kindArg, "", "", env) ==
                Ok(UpstreamConfig(CanonicalUpstreamKind(d.kind), ResolveUpstreamBaseUrl(d.kind, ""), d.key))
    ensures KindKey(kindArg) in AcceptedKinds ==>
              ResolveProvisionUpstream(kindArg, "", "", env) ==
                Ok(UpstreamConfig(CanonicalUpstreamKind(KindKey(kindArg)), ResolveUpstreamBaseUrl(KindKey(kindArg), ""), d.key))
  {
    var kind := KindKey(kindArg);
    var k := if kind != "" then kind else d.kind;
    assert ResolveProvisionUpstream(kindArg, "", "", env) == Settle(k, d.key, "");
    if k in AcceptedKinds {
      SettleAccepted(k, d.key, "");
    }
  }

  lemma SettleAccepted(k: string, key: string, base: string)
    requires k in AcceptedKinds && key != ""
    ensures Settle(k, key, base) == Ok(UpstreamConfig(CanonicalUpstreamKind(k), ResolveUpstreamBaseUrl(k, base), key))
  {
  }

  /** The common case: only `OPENAI_API_KEY` is set and no kind is given. The key
      is sent as `custom` with the OpenAI base URL. */
  lemma DetectedOpenAiProvision(kindArg: string, env: map<string, string>)
    requires KindKey(kindArg) == ""
    requires IsSet(env, "OPENAI_API_KEY")
    requires !IsSet(env, "OPENROUTER_API_KEY") && !IsSet(env, "ANTHROPIC_API_KEY") && !IsSet(env, "FIREWORKS_API_KEY")
    requires !IsSet(env, "UPSTREAM_BASE_URL")
    ensures ResolveProvisionUpstream(kindArg, "", "", env) ==
              Ok(UpstreamConfig("custom", LegacyOpenAiBaseUrl, env["OPENAI_API_KEY"]))
  {
    DetectPriority(env, 3);
    DetectedProvision(kindArg, env, Detected("openai", env["OPENAI_API_KEY"]));
    KindKeyFixed("openai");
    StripEmpty("");
  }

  /** The legacy `openai` kind, given or inferred from an `sk-` key, is sent as
      `custom` but keeps the OpenAI base URL, while `custom` itself gets the
      Fireworks preset. */
  lemma LegacyOpenAiProvision(kindArg: string, keyArg: string, env: map<string, string>)
    requires keyArg != ""
    requires KindKey(kindArg) == "openai" || (KindKey(kindArg) == "" && InferKindFromKey(keyArg) == "openai")
    requires !IsSet(env, "UPSTREAM_BASE_URL")
    ensures ResolveProvisionUpstream(kindArg, keyArg, "", env) == Ok(UpstreamConfig("custom", LegacyOpenAiBaseUrl, keyArg))
  {
    StripEmpty("");
    KindKeyFixed("openai");
  }

  lemma CustomProvision(kindArg: string, keyArg: string, env: map<string, string>)
    requires keyArg != ""
    requires KindKey(kindArg) == "custom"
    requires !IsSet(env, "UPSTREAM_BASE_URL")
    ensures ResolveProvisionUpstream(kindArg, keyArg, "", env) == Ok(UpstreamConfig("custom", CustomBaseUrl, keyArg))
  {
    StripEmpty("");
    KindKeyFixed("custom");
  }

  /** An explicit upstream base URL is sent as given, stripped, whatever the kind. */
  lemma ExplicitBaseWins(kindArg: string, keyArg: string, baseArg: string, env: map<string, string>)
    requires Strip(baseArg) != ""
    ensures var r := ResolveProvisionUpstream(kindArg, keyArg, baseArg, env);
            r.Ok? ==> r.value.baseUrl == Strip(baseArg)
  {
  }

  /** A kind outside the accepted four is rejected, whether the key is given or
      detected, and reported as written after stripping and lower-casing. */
  lemma UnknownKindRejected(kindArg: string, keyArg: string, baseArg: string, env: map<string, string>)
    requires keyArg != "" || DetectUpstreamKey(env).Some?
    requires KindKey(kindArg) != "" && KindKey(kindArg) !in AcceptedKinds
    ensures ResolveProvisionUpstream(kindArg, keyArg, baseArg, env) == Err(InvalidKind(KindKey(kindArg)))
  {
  }
}

=== FILE: wrappers.dfy ===
/** Option and Result values standing in for Python's `None` and for the
    early exits (`SystemExit`) of the command-line flows that are modelled. */
module Wrappers {

  datatype Option<+T> = None | Some(value: T) {

    /** The encapsulated value, or `default` when there is none (Python's `x or default`
        on an optional value). */
    function GetOr(default: T): T {
      match this
      case Some(v) => v
      case None => default
    }
  }

  datatype Result<+T, +E> = Ok(value: T) | Err(error: E)
}
